=== FILE: README.md ===
# buffer-mono: the Agent Client Protocol link, modelled in Dafny

The repository connects a desktop host (an Electron app) to a coding-agent subprocess. The two
sides speak newline-delimited JSON-RPC 2.0 over the child's stdio. This project models the
sequential, event-driven logic of that link and of the small tools around it:

- `framing.dfy` (`Framing`): the line framer both ends use. Text is buffered, cut at `\n`,
  trimmed, and dispatched unless empty. A reference definition `Frame` is given, with the loop
  proved equal to it, chunking invariance, and the fact that what one end writes the other end
  reads back line for line.
- `host_client.dfy` (`HostClient`): the host's `JsonRpcStdioClient`. The client is a record
  holding the child (its generation and whether stdin is writable), the buffer, the next id,
  the pending waiter ids in insertion order, and the permission-request map. There is one pure
  step function per event. Promise settlement, emitted events, writes and kills are recorded as
  effects. A validity invariant is kept by every step, as written and corrected alike. A
  conservation property (every waiter is either still pending or settled exactly once) holds for
  every inbound line, request, notification, permission answer, error and exit, and for the
  corrected `stop` and `start`. The as-written `stop`, and so `start`, which calls it, breaks it.
- `host_settings.dfy` (`HostSettings`): the `loadSettings` migration and object-spread semantics.
- `agent_connection.dfy` (`AgentConnection`): the agent-side `AgentSideConnection`. It covers:
  - the read loop, as a method with loop invariants;
  - method routing;
  - the mapping of thrown errors to JSON-RPC 2.0 error objects (codes from section 5.1 of the
    JSON-RPC 2.0 Specification);
  - the rule that only requests are answered, each exactly once with its own id (section 4.1
    of the same specification).
- `link.dfy` (`Link`): both ends together. A host request reaches the agent as one line. The
  agent's single reply settles exactly that waiter. A `session/update` notification arrives at
  the host as one `session_update` event.
- `session_state.dfy` (`SessionState`): the renderer's `reduceEvent`. This is message-chunk
  coalescing by role, first-sight tool calls and patching tool-call updates, and plan, command
  and mode replacement. It also sets the pending permission request.
- `desktop_app.dfy` (`DesktopApp`): the pure decisions in `App.tsx`. These are:
  - the project name shown for a path;
  - the slash-command menu (filter, wrap-around arrows, accept, escape);
  - permission auto-resolution (auto-allow first, then the choice remembered for the tool
    kind);
  - the remember rule of `respondPermission`;
  - the filter for updates of a pre-warmed session.

  The listener returns early on `connected`, so in the app that event never reaches the
  reducer. `OnEvent` keeps this behaviour.
- `plan_create.dfy` (`PlanCreate`): the `plan_create` tool's path sanitizing, `path.resolve`
  over segments, the search for the workspace root (a method whose loop terminates because every
  step drops a segment), and the containment check that must pass before anything is written.
- `question_tool.dfy` (`QuestionTool`): the `question` tool's option-count check, the
  `allowCustom` default and the reply text, with a parser proving the text determines the answer.
- `background_jobs.dfy` (`BackgroundJobs`): the background-jobs panel's selection index under
  refresh and key presses, and the text of one list line.
- `common.dfy`, `strings.dfy` and `json.dfy` are the foundations. `Option`, `Result`, ECMAScript
  `trim`, `split`, `startsWith` and friends are modelled. JSON values are modelled as JavaScript
  sees them: field lookup where the last member of a name wins, truthiness, `String(x)`, and
  `JSON.stringify`. Message text is the exception: it is kept as a string, so a chunk's
  non-string `text` is converted with `String(x)` when it arrives (see "Left out").

Inputs the code cannot see become parameters. These are `JSON.parse` (`parse: string ->
Option<Json>`, `None` when it throws), the agent's handlers, `askQuestion`, `fileExists`, the
editor key-binding lookup, and the job list a reload fetches.

## Model

| member | source | states |
|---|---|---|
| Framing.FeedChunk | apps/desktop/electron/main.cjs:85-94 | the buffering loop dispatches exactly the lines of the reference framer (cut at `\n`, trimmed, empty ones skipped) and keeps its tail; every line is clean and the tail holds no line feed |
| Framing.FrameClean | apps/desktop/electron/main.cjs:89-91 | every dispatched line is non-empty, trimmed and has no line feed; the kept tail has no line feed |
| Framing.FrameNoNewline | apps/desktop/electron/main.cjs:86-88 | text without a line feed is only buffered: nothing is dispatched |
| Framing.FrameLine | apps/desktop/electron/main.cjs:87-92 | the first complete line is dispatched (trimmed, unless empty) before the lines that follow it |
| Framing.FrameCleanLine | apps/desktop/electron/main.cjs:89-91 | a line that is already clean is dispatched exactly as written |
| Framing.FrameLastLine | apps/desktop/electron/main.cjs:86-92 | one terminated line yields its trimmed text (or nothing when blank) and leaves the buffer empty |
| Framing.FrameAppend | apps/desktop/electron/main.cjs:85-94 | feeding `a` then `b` dispatches the same lines and keeps the same tail as feeding `a + b` |
| Framing.FeedAllIsFrame | src/coding-agent/modes/acp/sdk.ts:185-199 | however the stream is chunked, the loop dispatches the lines of the whole stream in order |
| Framing.WireRoundTrip | src/coding-agent/modes/acp/sdk.ts:266-270 | a run of payloads written as one JSON text plus `\n` each is framed back into exactly those texts, with nothing left over |
| Json.SerializeNoNewline | src/coding-agent/modes/acp/sdk.ts:267 | `JSON.stringify` never emits a raw line feed |
| Json.SerializeTrimmed | apps/desktop/electron/main.cjs:89 | trimming a serialized value returns it unchanged, so the framer does not alter it |
| Json.IntToStringRoundTrip | src/coding-agent/modes/interactive/components/background-jobs.ts:91 | `String(n)` of an integer reads back as `n` |
| Json.FindMember | apps/desktop/electron/main.cjs:103 | a field lookup finds a member exactly when one of that name exists, and returns the value of such a member |
| HostClient.RemoveIncreasing | apps/desktop/electron/main.cjs:102-104 | deleting a settled waiter keeps the waiter ids in increasing order and introduces none |
| HostClient.HandleLine | apps/desktop/electron/main.cjs:96-123 | every inbound line has exactly one effect and changes nothing but the two maps |
| HostClient.HandleLineRoutes | apps/desktop/electron/main.cjs:96-123 | unparsable or falsy lines become `protocol_log` and change nothing; a pending id is settled (rejected iff `error` is truthy, with `error.message` or "Unknown JSON-RPC error", else resolved with `result`) and removed; `session/update` emits `session_update` with `params`, `session/request_permission` with an id is recorded under `String(id)` and emitted, anything else is emitted as a notification, and none of these three changes the waiters |
| HostClient.ErrorMessage | apps/desktop/electron/main.cjs:106 | the rejection message is the error's truthy `message` as a string, else "Unknown JSON-RPC error" |
| HostClient.DuplicateResponseIgnored | apps/desktop/electron/main.cjs:103-109 | a response removes its id exactly once, so a repeated response is not settled again |
| HostClient.HandleLineConserves | apps/desktop/electron/main.cjs:103-109 | after a line, every waiter is either still pending or settled, and none is settled twice |
| HostClient.RejectAllSettles | apps/desktop/electron/main.cjs:63-66 | rejecting every pending waiter settles exactly the pending ids, in order |
| HostClient.HandleStdout | apps/desktop/electron/main.cjs:85-94 | the buffer keeps the framer's tail, and there is one effect per framed line |
| HostClient.HandleStdoutDispatches | apps/desktop/electron/main.cjs:85-94 | `handleStdout` dispatches exactly the framed lines through `handleLine`, conserving waiters |
| HostClient.HandleStdoutChunking | apps/desktop/electron/main.cjs:85-94 | chunk boundaries do not change the effects or the final client |
| HostClient.Send | apps/desktop/electron/main.cjs:125-130 | throws "ACP process is not running" iff no child is attached or its stdin is not writable; otherwise writes one serialized payload and `\n` |
| HostClient.Request | apps/desktop/electron/main.cjs:132-140 | the id is taken and the counter advanced even when the send throws; only a sent request gets a waiter |
| HostClient.Notify | apps/desktop/electron/main.cjs:142-144 | same refusal as `send`; otherwise one write, no id and no waiter |
| HostClient.RequestIdsIncrease | apps/desktop/electron/main.cjs:132-140 | consecutive requests get consecutive ids, never one already waiting |
| HostClient.RespondPermission | apps/desktop/electron/main.cjs:146-157 | an unknown id throws and writes nothing; a known id is forgotten and answered with `{jsonrpc, id: rpcId, result: {outcome}}` |
| HostClient.RespondPermissionOnce | apps/desktop/electron/main.cjs:146-149 | answering the same request twice throws the second time and writes nothing |
| HostClient.PermissionRoundTrip | apps/desktop/electron/main.cjs:116-157 | a recorded permission request is answered with the JSON-RPC id it arrived with |
| HostClient.LaunchCommand | apps/desktop/electron/main.cjs:38-41 | the launch command is never empty |
| HostClient.LaunchCommandPrecedence | apps/desktop/electron/main.cjs:38-41 | a non-empty trimmed `launchCommand` wins; else a truthy legacy command followed by its arguments joined with spaces when they form an array, and by `--acp` otherwise; else `buffer --acp` |
| HostClient.LaunchCwd | apps/desktop/electron/main.cjs:42 | the spawn directory is the configured `cwd` when truthy, else the process directory |
| HostClient.Start | apps/desktop/electron/main.cjs:36-73 | as written: a running child is killed and `stopped` emitted, its waiters dropped unsettled and the buffer cleared; without a child nothing but the new child changes; the only other effect is the final `connected` with the resolved command and directory |
| HostClient.StartCorrected | apps/desktop/electron/main.cjs:36-73 | corrected: `start` over the corrected `stop`, whose effects precede `connected`, so waiters are conserved |
| HostClient.ExitMessage | apps/desktop/electron/main.cjs:62 | the exit reason reads `ACP process exited (code=`, `String(code)`, `, signal=`, `String(signal)`, `)`, each part recoverable at its position |
| HostClient.OnError | apps/desktop/electron/main.cjs:57-59 | a process error only reports `disconnected` with the error's message |
| HostClient.OnStderr | apps/desktop/electron/main.cjs:54-56 | stderr output is forwarded unchanged |
| HostClient.StartKeepsValid | apps/desktop/electron/main.cjs:36-73 | `start`, as written and corrected, keeps the client invariant |
| HostClient.StopKeepsValid | apps/desktop/electron/main.cjs:75-83 | `stop`, as written and corrected, keeps the client invariant |
| HostClient.OnExitKeepsValid | apps/desktop/electron/main.cjs:61-70 | the exit handler, as written and corrected, keeps the client invariant |
| HostClient.OnExitAsWrittenConserves | apps/desktop/electron/main.cjs:63-66 | the as-written exit handler settles every waiter it forgets |
| HostClient.QuietStepsKeepValid | apps/desktop/electron/main.cjs:142-157 | `notify` and `respondPermission`, and likewise the child's `error` and stderr handlers (lines 54-59), keep the invariant and settle no waiter |
| HostClient.RequestKeepsValid | apps/desktop/electron/main.cjs:132-140 | `request` keeps the invariant; its new waiter is the only one not already pending |
| HostClient.HandleLinesKeepsValid | apps/desktop/electron/main.cjs:96-123 | dispatching lines keeps the client invariant |
| HostClient.HandleStdoutKeepsValid | apps/desktop/electron/main.cjs:85-94 | `handleStdout` keeps the client invariant |
| HostClient.OnExitAsWritten | apps/desktop/electron/main.cjs:61-70 | as written: every waiter is rejected with the exit reason, the maps are emptied and the child cleared, then `disconnected` is emitted |
| HostClient.OnExit | apps/desktop/electron/main.cjs:61-70 | corrected: only the exit of the attached child tears down; it rejects every waiter, clears both maps, the child and the buffer, then reports `disconnected` |
| HostClient.StaleExitDetachesSuccessor | apps/desktop/electron/main.cjs:36-70 | after a restart, the old child's late exit detaches the new child and rejects its request; the generation check keeps it |
| HostClient.StopAsWritten | apps/desktop/electron/main.cjs:75-83 | as written: no-op without a child; otherwise kill, clear everything and emit `stopped`, without settling waiters |
| HostClient.Stop | apps/desktop/electron/main.cjs:75-83 | corrected: as `stop`, but every pending waiter is rejected first, so waiters are conserved |
| HostClient.StopLosesWaiter | apps/desktop/electron/main.cjs:79 | as written, `stop`, and so `start` through it, with a pending waiter leaves it neither pending nor settled; the corrected versions conserve it |
| HostClient.StaleFragmentAfterExit | apps/desktop/electron/main.cjs:61-70 | after a child dies mid-line and a new one starts, the buffer still holds the dead child's fragment and the new child's first line is dispatched glued to it; clearing the buffer on exit dispatches that line alone |
| HostSettings.LoadSettings | apps/desktop/electron/main.cjs:166-188 | the loaded settings always define `acpLaunchCommand`, `cwd` and `autoAllow` |
| HostSettings.SpreadIndexed | apps/desktop/electron/main.cjs:186 | spreading an array or string adds only index-named properties and keeps every other setting |
| HostSettings.SpreadMembersLookup | apps/desktop/electron/main.cjs:186 | after spreading an object, each named property holds the file's last value for that name; every other setting is unchanged |
| HostSettings.ParsedPropertiesWin | apps/desktop/electron/main.cjs:182-187 | every property present in the file overrides the default and the migrated value |
| HostSettings.LegacyCommandMigrates | apps/desktop/electron/main.cjs:176-183 | a legacy `acpCommand` becomes the trimmed command and arguments (or `--acp`); `cwd` and `autoAllow` default when absent |
| HostSettings.NonObjectLoadsDefaults | apps/desktop/electron/main.cjs:175-187 | a file that is not an object loads the default command, `cwd` and `autoAllow` |
| HostSettings.NonObjectMigratesNothing | apps/desktop/electron/main.cjs:175-187 | a non-object file spreads over the unmigrated defaults |
| HostSettings.MigrationExample | apps/desktop/electron/main.cjs:166-188 | a legacy file holding `node` and `agent.js --acp` migrates to the launch command `node agent.js --acp` |
| AgentConnection.InvalidParamsError | src/coding-agent/modes/acp/sdk.ts:132-134 | `invalidParams` is a `RequestError` with code -32602 and the given message |
| AgentConnection.Route | src/coding-agent/modes/acp/sdk.ts:218-249 | a routed method name is the name its handler is registered under |
| AgentConnection.RouteComplete | src/coding-agent/modes/acp/sdk.ts:218-246 | every handler is reachable under its own method name |
| AgentConnection.SilentCases | src/coding-agent/modes/acp/sdk.ts:204-212 | an unparsable line is only logged; a message without a string `method` is only logged; without an id nothing is written |
| AgentConnection.RequestGetsOneReply | src/coding-agent/modes/acp/sdk.ts:212-263 | for a request with an id, `handleLine`'s own writes are exactly one line, the reply carrying the request's own id |
| AgentConnection.ReplyFields | src/coding-agent/modes/acp/sdk.ts:251-262 | a reply has `jsonrpc: "2.0"` and the id; it has an `error` iff the handler threw, and otherwise carries the result |
| AgentConnection.ErrorMapping | src/coding-agent/modes/acp/sdk.ts:247-262 | an unknown method throws -32601 with "Method not found: <method>"; a `RequestError` keeps its code; anything else is -32603, with "Internal error" for a non-`Error` throw |
| AgentConnection.MissingHandlerDefaults | src/coding-agent/modes/acp/sdk.ts:234-246 | missing optional handlers answer `{}`, `{modes: []}` and an undefined result |
| AgentConnection.ParamsDefault | src/coding-agent/modes/acp/sdk.ts:214 | a request without params (or with `null`) reaches its handler with `{}` |
| AgentConnection.WritesOfSend | src/coding-agent/modes/acp/sdk.ts:266-270 | `send` writes the serialized payload followed by `\n` |
| AgentConnection.SendIsOneLine | src/coding-agent/modes/acp/sdk.ts:266-270 | every outbound payload is one write that frames back as exactly one line, the payload's JSON text |
| AgentConnection.DispatchLines | src/coding-agent/modes/acp/sdk.ts:190-198 | the inner loop logs and handles each complete line in order |
| AgentConnection.ReadLoop | src/coding-agent/modes/acp/sdk.ts:180-200 | the loop's effects are those of dispatching the framed lines of the whole stream; the leftover is the unterminated tail |
| AgentConnection.ServeLogsEveryLine | src/coding-agent/modes/acp/sdk.ts:193-195 | every clean line of the stream is logged raw once, in order |
| AgentConnection.UnterminatedTailIgnored | src/coding-agent/modes/acp/sdk.ts:185-199 | data after the last `\n` is never dispatched |
| Link.OneLine | apps/desktop/electron/main.cjs:129 | a written payload frames back as exactly its JSON text |
| Link.StdoutOfOneLine | apps/desktop/electron/main.cjs:85-94 | a single framed line reaches the host's `handleLine` exactly once |
| Link.SessionUpdateReachesHost | src/coding-agent/modes/acp/sdk.ts:172-178 | the agent's `session/update` arrives at the host as one `session_update` event with the same params, and leaves the client unchanged |
| Link.RequestFields | apps/desktop/electron/main.cjs:134 | a host request carries its method, its numeric id and its params |
| Link.RequestReachesAgent | apps/desktop/electron/main.cjs:132-140 | the request the host writes is one line to the agent, which writes exactly one reply with the same id |
| Link.ReplySettlesWaiter | apps/desktop/electron/main.cjs:103-109 | the agent's reply settles exactly the waiter with its id: rejected when the handler threw, resolved with its result otherwise |
| Link.ReplyLineSettles | apps/desktop/electron/main.cjs:102-108 | the reply line alone removes the waiter and settles it with a rejection when the reply carries an `error`, a resolution with its `result` otherwise |
| Link.RequestRoundTrip | apps/desktop/electron/main.cjs:132-140 | after request and reply, the host's waiters are what they were before, and the waiter was settled with the handler's outcome |
| SessionState.AppendMessage | apps/desktop/src/lib/state.ts:41-51 | empty text changes nothing; the same role extends the last message; otherwise one message is pushed; the role-tagged characters are those before plus the new text |
| SessionState.AppendMessageCoalesced | apps/desktop/src/lib/state.ts:41-51 | appending keeps messages non-empty with no two neighbours of the same role |
| SessionState.ReplayCoalesces | apps/desktop/src/lib/state.ts:83-106 | any run of chunks yields coalesced messages holding exactly the chunks' text, role by role |
| SessionState.CoalescingExamples | apps/desktop/src/lib/state.ts:41-51 | two assistant chunks merge; a user chunk in between keeps them apart |
| SessionState.ReduceEvent | apps/desktop/src/lib/state.ts:53-174 | session, modes and models are never touched; logs only grow by at most one line; non-update events keep the session view and updates keep connection, logs and the permission request |
| SessionState.ConnectionEvents | apps/desktop/src/lib/state.ts:54-64 | `connected` sets the connection and appends one log line; `disconnected`/`stopped` only clear it; `stderr`/`protocol_log` append their text; other events change nothing |
| SessionState.PermissionRequestReplaces | apps/desktop/src/lib/state.ts:66-77 | a permission request replaces any earlier one and changes nothing else |
| SessionState.ChunkUpdate | apps/desktop/src/lib/state.ts:83-106 | a chunk without text content changes nothing; otherwise its text is appended under the chunk kind's role |
| SessionState.ReduceKeepsKeyedById | apps/desktop/src/lib/state.ts:107-143 | every tool-call entry stays stored under its own id |
| SessionState.ToolCallFirstSight | apps/desktop/src/lib/state.ts:107-124 | an empty id is a no-op; otherwise the entry is overwritten with only the fields present, other entries untouched |
| SessionState.ToolCallUpdatePatches | apps/desktop/src/lib/state.ts:125-143 | an update creates `{toolCallId}` when new, overwrites present fields, keeps every absent field, and leaves other entries untouched |
| SessionState.ToolCallUpdateIdempotent | apps/desktop/src/lib/state.ts:125-143 | applying the same update twice is the same as applying it once |
| SessionState.PlanReplaces | apps/desktop/src/lib/state.ts:144-154 | the plan is replaced entry for entry, content defaulting to `""`, independently of the previous plan |
| SessionState.CommandsReplace | apps/desktop/src/lib/state.ts:155-164 | the command list is replaced entry for entry, name defaulting to `""`; a non-array gives the empty list |
| SessionState.ModeUpdateOnly | apps/desktop/src/lib/state.ts:165-170 | a mode update changes only the current mode id, `""` when absent |
| SessionState.UnknownUpdateIgnored | apps/desktop/src/lib/state.ts:171-173 | an update of unknown kind changes nothing |
| SessionState.AssistantChunkExample | apps/desktop/src/lib/state.test.ts:5-19 | one assistant chunk gives one message holding its text |
| SessionState.ToolStatusTransitionExample | apps/desktop/src/lib/state.test.ts:21-49 | pending then completed: status becomes `completed`, title and kind are kept |
| DesktopApp.LastPiece | apps/desktop/src/App.tsx:29-30 | the non-empty pieces of a split are empty iff the text is all slashes; otherwise the last piece is the final slash-free run |
| DesktopApp.ProjectNameIsLastSegment | apps/desktop/src/App.tsx:27-31 | a path of separators only is returned as is; otherwise the name is the last non-empty run between separators (`/` or `\`) |
| DesktopApp.PromptChange | apps/desktop/src/App.tsx:92-102 | input starting with `/` shows the menu at index 0 with the text after `/` up to the first whitespace; other input hides it |
| DesktopApp.FilterCommands | apps/desktop/src/App.tsx:84-85 | every kept command's lower-cased name starts with the lower-cased filter |
| DesktopApp.FilterMembership | apps/desktop/src/App.tsx:85 | a command is offered iff it is in the list and matches the filter |
| DesktopApp.FilterAppend | apps/desktop/src/App.tsx:85 | filtering keeps the list's order |
| DesktopApp.Filtered | apps/desktop/src/App.tsx:82-86 | a hidden menu offers nothing |
| DesktopApp.JsRem | apps/desktop/src/App.tsx:695 | JavaScript `%` takes the sign of the dividend and stays below the divisor in magnitude |
| DesktopApp.Down | apps/desktop/src/App.tsx:693-697 | ArrowDown moves to the next entry, wrapping from the last to the first, and stays in range |
| DesktopApp.Up | apps/desktop/src/App.tsx:698-702 | ArrowUp moves to the previous entry, wrapping from the first to the last, and stays in range |
| DesktopApp.ArrowsInverse | apps/desktop/src/App.tsx:693-702 | ArrowUp undoes ArrowDown and back |
| DesktopApp.KeyDown | apps/desktop/src/App.tsx:691-713 | keys are ignored when the menu is hidden or empty; Accept succeeds iff the index is in range and inserts the selected name; ArrowDown and ArrowUp move the index with `Down` and `Up` and stay in range; Escape hides the menu; other keys fall through unhandled |
| DesktopApp.Hover | apps/desktop/src/App.tsx:677 | hovering a listed entry selects it |
| DesktopApp.CommandsArriveAsWritten | apps/desktop/src/lib/state.ts:155-164 | as written: a new command list leaves the menu's index as it was |
| DesktopApp.CommandsArrive | apps/desktop/src/lib/state.ts:155-164 | corrected: a new command list resets the index, which is then valid for any list |
| DesktopApp.MenuStepsKeepValid | apps/desktop/src/App.tsx:691-713 | typing and every key keep a valid selection valid, and never throw |
| DesktopApp.AcceptInsertsSelection | apps/desktop/src/App.tsx:703-707 | with a valid selection, Accept inserts the selected command and hides the menu |
| DesktopApp.StaleSlashIndexThrows | apps/desktop/src/App.tsx:703-707 | as written, moving to the second command and then receiving a one-command list makes Accept throw; the reset avoids it |
| DesktopApp.FirstAllow | apps/desktop/src/App.tsx:445 | the first option whose kind starts with `allow`, if any |
| DesktopApp.FindOption | apps/desktop/src/App.tsx:442 | the first option with the remembered id, or none when there is no remembered id or no such option |
| DesktopApp.AutoResolve | apps/desktop/src/App.tsx:439-462 | auto-allow answers with the first `allow*` option; otherwise the remembered option for the kind (`kind` or `other`) if offered; no answer iff neither applies |
| DesktopApp.OnEvent | apps/desktop/src/App.tsx:424-480 | `acp_status_update` sets the given status and `connected` sets connected, both skipping the reducer; `disconnected` and `stopped` set disconnected and are reduced; other events keep the status; an auto-answered request skips the reducer; a session update is reduced iff it passes the pre-warm filter; every other event is reduced; settings and memory are untouched |
| DesktopApp.OrdinaryUpdateReduced | apps/desktop/src/App.tsx:464-479 | an update for any session other than an unused pre-warmed one reaches the reducer and leaves the status alone |
| DesktopApp.AutoAllowNeverShown | apps/desktop/src/App.tsx:444-452 | with auto-allow and an `allow*` option, the request is answered and never shown |
| DesktopApp.UnansweredRequestShown | apps/desktop/src/App.tsx:439-479 | a request nothing answers becomes the pending request |
| DesktopApp.PreWarmFilter | apps/desktop/src/App.tsx:464-477 | for an unused pre-warmed session only the five metadata update kinds reach the reducer |
| DesktopApp.RespondPermission | apps/desktop/src/App.tsx:392-410 | cancelled iff forced or no option; a choice is remembered only when asked and the kind is a non-empty string; after delivery the flag and the request are cleared |
| DesktopApp.RememberedKeyMatches | apps/desktop/src/App.tsx:401-403 | a remembered choice is stored under the key the next lookup uses |
| DesktopApp.RememberedAnswer | apps/desktop/src/App.tsx:455-461 | a remembered option that the request offers answers it without showing it |
| DesktopApp.RememberedChoiceAnswersNext | apps/desktop/src/App.tsx:392-462 | after "remember" is checked for a choice, the next request of that kind offering it is answered with it |
| PlanCreate.Sanitize | src/coding-agent/core/tools/plan-create.ts:51-64 | empty, non-Markdown and absolute paths fail in that order with their own messages; success iff none applies; a successful result ends in `.md` |
| PlanCreate.SanitizeStrips | src/coding-agent/core/tools/plan-create.ts:60-63 | the result is the normalized path with `<configDir>/` dropped exactly when it starts with it in any letter case, and the path unchanged otherwise |
| PlanCreate.StripKeepsMarkdown | src/coding-agent/core/tools/plan-create.ts:60-62 | stripping the prefix keeps the `.md` ending |
| PlanCreate.Resolve | src/coding-agent/core/tools/plan-create.ts:77-78 | a resolved path has no empty, `.` or `..` segment; a relative path without `..` keeps the base as a prefix (each `..` climbing one level is WalkClimbs) |
| PlanCreate.WalkDescends | src/coding-agent/core/tools/plan-create.ts:78 | resolving a path with no `..` segment keeps the base as a prefix |
| PlanCreate.WalkClimbs | src/coding-agent/core/tools/plan-create.ts:78 | each `..` drops one segment |
| PlanCreate.FindWorkspaceRoot | src/coding-agent/core/tools/plan-create.ts:40-49 | returns the nearest ancestor (inclusive) holding `.git`, or the start when none does; it holds `.git` iff some ancestor does |
| PlanCreate.ExecuteAt | src/coding-agent/core/tools/plan-create.ts:74-86 | a bad path fails before anything is written; success iff the target lies in the config directory, and then the directory is made and the file written, in that order |
| PlanCreate.Execute | src/coding-agent/core/tools/plan-create.ts:74-86 | sanitizing comes first; the root is the nearest ancestor (inclusive) of the resolved working directory holding `.git`, or that directory itself when none does; then the call does what `ExecuteAt` does at that root |
| PlanCreate.NoParentStaysWithin | src/coding-agent/core/tools/plan-create.ts:77-82 | a relative path with no `..` segment always passes the containment check |
| QuestionTool.Prepare | src/coding-agent/core/tools/question.ts:41-44 | fails iff there are fewer than 2 or more than 3 options; `allowCustom` defaults to true |
| QuestionTool.Report | src/coding-agent/core/tools/question.ts:47-53 | the details copy the answer's index and custom flag; the text starts `User answer (` and ends with the answer |
| QuestionTool.Execute | src/coding-agent/core/tools/question.ts:40-54 | asks only with a valid option count, and reports exactly what was answered |
| QuestionTool.TagRoundTrip | src/coding-agent/core/tools/question.ts:47 | the selection tag `option k+1` or `custom` reads back as the index |
| QuestionTool.ReportRoundTrip | src/coding-agent/core/tools/question.ts:47-49 | the reply text determines the selection and the answer |
| QuestionTool.OptionCountChecked | src/coding-agent/core/tools/question.ts:42-44 | one or four options fail with "question tool requires 2-3 options" |
| BackgroundJobs.FindJob | src/coding-agent/modes/interactive/components/background-jobs.ts:68 | the first index of a job with the id, or none iff there is none |
| BackgroundJobs.Refresh | src/coding-agent/modes/interactive/components/background-jobs.ts:59-77 | an empty list selects 0; a listed initial job is selected; otherwise the prior index is clamped into the list |
| BackgroundJobs.Up | src/coding-agent/modes/interactive/components/background-jobs.ts:102-107 | `max(0, i - 1)`; a no-op on an empty list; keeps the index valid |
| BackgroundJobs.Down | src/coding-agent/modes/interactive/components/background-jobs.ts:108-113 | `min(len - 1, i + 1)`; a no-op on an empty list; keeps the index valid |
| BackgroundJobs.UpDownInverse | src/coding-agent/modes/interactive/components/background-jobs.ts:102-113 | away from the ends, up and down undo each other |
| BackgroundJobs.Classify | src/coding-agent/modes/interactive/components/background-jobs.ts:100-121 | up iff the key is bound to up or is `k`; otherwise down iff bound to down or `j`; otherwise reload iff it lower-cases to `r`; otherwise cancel iff bound to cancel |
| BackgroundJobs.ReloadEitherCase | src/coding-agent/modes/interactive/components/background-jobs.ts:114-117 | `r` and `R` both reload unless a movement binding claims the key first |
| BackgroundJobs.HandleInput | src/coding-agent/modes/interactive/components/background-jobs.ts:100-121 | the panel closes iff cancel; only reload changes the list; the index stays valid |
| BackgroundJobs.Open | src/coding-agent/modes/interactive/components/background-jobs.ts:56 | the panel opens with a valid selection |
| BackgroundJobs.SelectionStaysValid | src/coding-agent/modes/interactive/components/background-jobs.ts:100-121 | any run of key presses keeps the selection valid |
| BackgroundJobs.Line | src/coding-agent/modes/interactive/components/background-jobs.ts:87-94 | a line starts with the selection marker and ends with the command |
| BackgroundJobs.LineFields | src/coding-agent/modes/interactive/components/background-jobs.ts:91-92 | `pid=n/a` without a pid and `exit=-` for a null exit code; otherwise the numbers read back |
| BackgroundJobs.LineLayout | src/coding-agent/modes/interactive/components/background-jobs.ts:92 | the pid text sits right after `pid=`, followed by the exit field and the command |

## Left out

- Process and IPC plumbing is not modelled: `spawn`, the Electron window, `ipcMain`, the preload bridge and stream setup. The child is its generation and a writable flag.
- Settings file reading and writing are not modelled. `LoadSettings` takes whether the file exists and what it parsed to.
- `JSON.parse` is a parameter, not a grammar. Numbers are integers only, because floating point is out of scope.
- `JSON.stringify` escapes per character. Surrogate pairs are not distinguished from lone surrogates.
- Agent handlers, `askQuestion`, `fileExists`, the key-binding lookup and `getJobs` are oracles or parameters. The code they call is not part of this model.
- Async sequencing is not modelled: awaits, Promise settlement order, timers, and concurrent host and renderer updates. Each handler runs to completion.
- Writer failures on the agent side are not modelled: `writer.write` is taken to succeed.
- React rendering, JSX, themes and the panel's `updateView` drawing are not modelled. Neither are project and thread CRUD, nor the `plan_create` confirmation text.
- `toLowerCase` is modelled for ASCII letters only.
- Paths are POSIX only; Windows drive letters and `\` separators are not modelled in `plan_create`.
- SessionState.AppendMessage: the source copies the array but mutates the shared last message in place. The model uses value semantics and so is stricter than the source.
- PlanCreate.ExecuteAt: the source checks containment as a string prefix ending in the separator. The model checks it as a prefix of path segments; these agree for resolved paths.
- DesktopApp.Hover: mouse hover can only pick rendered entries, so the model requires the index to be listed.
- DesktopApp.JsRem: the contract bounds the remainder and fixes its sign; it does not state divisibility of `a - r` by `n`.
- PlanCreate.Execute: the contract defers the containment result to `ExecuteAt` rather than restating it.
- SessionState.ChunkUpdate: a chunk whose `text` is not a string is converted with `String(x)` on arrival. The source keeps the raw value and joins it with `+`, so two numeric chunks `5` and `3` add to `8` where the model gives `"53"`. An array such as `[null]` is truthy and becomes a message in the source, while the model's `String([null])` is empty and adds nothing. Message text is modelled as a string only.
- SessionState.ToolCallUpdatePatches: the tool-call table, a plain JavaScript object in the source, is modelled as a map without prototype inheritance. An id naming an inherited `Object.prototype` member (`constructor`, `toString`, `__proto__`, ...) with no entry of its own makes the source start from that inherited value instead of `{toolCallId}`; the model starts from `{toolCallId}`.
- SessionState.ReduceKeepsKeyedById: for the same reason, an update whose id names an inherited `Object.prototype` member stores an entry without `toolCallId` in the source; the model, having no prototype, keys it by its id.
- AgentConnection.RequestGetsOneReply: handlers that write through the connection (a prompt streaming `session/update` notifications before its reply) are not modelled; handlers are oracles returning an outcome, so only `handleLine`'s own writes are counted.
- HostClient.Stop: the corrected `stop` rejects waiters with "ACP process stopped". That message is this model's choice; the source names none.

## Findings

| source | as written | input that shows it | evidently intended | confidence | as-written member | corrected member |
|---|---|---|---|---|---|---|
| apps/desktop/electron/main.cjs:61-70 | the `exit` listener of a child tears down whatever child is attached when it fires | start, start again, request `initialize`; then the first child's late `exit` | only the exit of the attached child detaches it and rejects its waiters | not executed | HostClient.OnExitAsWritten, HostClient.StaleExitDetachesSuccessor | HostClient.OnExit |
| apps/desktop/electron/main.cjs:79 | `stop` clears `pending` without rejecting the waiters | stop with one request pending | every waiter is settled: rejected when the process is stopped | not executed | HostClient.StopAsWritten, HostClient.Start, HostClient.StopLosesWaiter | HostClient.Stop, HostClient.StartCorrected |
| apps/desktop/electron/main.cjs:61-70 | the exit handler keeps the buffer, so a dead child's partial line stays buffered | child dies after writing `{"id"`; the next child writes `{}` and a line feed | the buffer is cleared on exit, as `stop` does | not executed | HostClient.OnExitAsWritten, HostClient.StaleFragmentAfterExit | HostClient.OnExit |
| apps/desktop/src/App.tsx:703-707 | the slash index is kept when a new command list arrives, so Accept reads past the end | menu `/` over `compact`, `clear`; ArrowDown; then only `compact` is announced; Enter | the selection is reset or clamped when the list changes | not executed | DesktopApp.CommandsArriveAsWritten, DesktopApp.StaleSlashIndexThrows | DesktopApp.CommandsArrive |

=== FILE: agent_connection.dfy ===
/**
 * The agent side of the link: the read loop frames the input stream into lines, each line
 * is parsed and routed to an agent handler, and requests (messages with an `id`) are answered
 * with exactly one JSON-RPC 2.0 result or error object. Handlers are an oracle; logging and
 * writes are recorded effects.
 */
module AgentConnection {
  import opened Common
  import opened Strings
  import opened Json
  import opened Framing

  /** What a handler threw: a `RequestError` with its code, another `Error`, or a non-`Error` value. */
  datatype Thrown = RequestError(code: int, message: string) | PlainError(message: string) | NonError

  /** A handler's outcome; `Returned(None)` is an `undefined` result. */
  datatype Outcome = Returned(result: Option<Json>) | Threw(error: Thrown)

  datatype Handler = Initialize | Authenticate | NewSession | Prompt | Cancel | LoadSession | SetSessionMode | SetSessionModel

  /** The agent: which optional handlers it implements, and what each handler does with its params. */
  datatype Agent = Agent(
    hasLoadSession: bool,
    hasSetSessionMode: bool,
    hasSetSessionModel: bool,
    call: (Handler, Json) -> Outcome)

  const MethodNotFound := -32601
  const InvalidParams := -32602
  const InternalError := -32603

  /** `RequestError.invalidParams`. */
  function InvalidParamsError(message: string): (r: Thrown)
    ensures r.RequestError? && r.code == InvalidParams && r.message == message
  {
    RequestError(-32602, message)
  }

  datatype LogEntry = RawIn(line: string) | ParseError(line: string) | In(payload: Json) | Out(payload: Json)

  datatype Effect = Log(entry: LogEntry) | Write(line: string)

  /** The method name a handler is registered under. */
  function MethodOf(h: Handler): string {
    match h
    case Initialize => "initialize"
    case Authenticate => "authenticate"
    case NewSession => "session/new"
    case Prompt => "session/prompt"
    case Cancel => "session/cancel"
    case LoadSession => "session/load"
    case SetSessionMode => "session/set_mode"
    case SetSessionModel => "session/set_model"
  }

  /** The routing table of `handleLine`'s switch. */
  function Route(name: string): (r: Option<Handler>)
    ensures r.Some? ==> MethodOf(r.value) == name
  {
    if name == "initialize" then Some(Initialize)
    else if name == "authenticate" then Some(Authenticate)
    else if name == "session/new" then Some(NewSession)
    else if name == "session/prompt" then Some(Prompt)
    else if name == "session/cancel" then Some(Cancel)
    else if name == "session/load" then Some(LoadSession)
    else if name == "session/set_mode" then Some(SetSessionMode)
    else if name == "session/set_model" then Some(SetSessionModel)
    else None
  }

  /** Every handler is reachable under its own method name. */
  lemma RouteComplete(h: Handler)
    ensures Route(MethodOf(h)) == Some(h)
  {
  }

  /** What the switch evaluates to for a routed method; missing optional handlers have fixed results. */
  function Invoke(agent: Agent, name: string, params: Json): Outcome {
    match Route(name)
    case None => Threw(RequestError(MethodNotFound, "Method not found: " + name))
    case Some(LoadSession) =>
      if agent.hasLoadSession then agent.call(LoadSession, params) else Returned(Some(JObj([])))
    case Some(SetSessionMode) =>
      if agent.hasSetSessionMode then agent.call(SetSessionMode, params)
      else Returned(Some(JObj([Member("modes", JArr([]))])))
    case Some(SetSessionModel) =>
      if agent.hasSetSessionModel then agent.call(SetSessionModel, params) else Returned(None)
    case Some(h) => agent.call(h, params)
  }

  /** The `{code, message}` an error is answered with. */
  function ErrorObject(t: Thrown): Json {
    var code := if t.RequestError? then t.code else InternalError;
    var message := if t.NonError? then "Internal error" else t.message;
    JObj([Member("code", JNum(code)), Member("message", JStr(message))])
  }

  /** The reply to a request: `result` left out when `undefined`, as `JSON.stringify` does. */
  function Reply(id: Json, o: Outcome): Json {
    match o
    case Returned(None) => JObj([Member("jsonrpc", JStr("2.0")), Member("id", id)])
    case Returned(Some(v)) => JObj([Member("jsonrpc", JStr("2.0")), Member("id", id), Member("result", v)])
    case Threw(t) => JObj([Member("jsonrpc", JStr("2.0")), Member("id", id), Member("error", ErrorObject(t))])
  }

  /** `send`: log the payload, then write it as one JSON text and a line feed. */
  function Send(payload: Json): (r: seq<Effect>)
    ensures r == [Log(Out(payload)), Write(Serialize(payload) + "\n")]
  {
    [Log(Out(payload)), Write(Serialize(payload) + "\n")]
  }

  /** `sessionUpdate`: a `session/update` notification (no id). */
  function SessionUpdate(params: Json): Json {
    JObj([Member("jsonrpc", JStr("2.0")), Member("method", JStr("session/update")), Member("params", params)])
  }

  /**
   * `handleLine`: unparsable lines are logged; parsed messages are logged, and those with a
   * string `method` are invoked with `params ?? {}`; a reply goes out only when `id` is present.
   */
  function HandleLine(agent: Agent, line: string, parse: string -> Option<Json>): seq<Effect> {
    var msg := parse(line);
    if msg.None? then [Log(ParseError(line))]
    else
      var m := msg.value;
      var name := AsString(Field(m, "method"));
      if name.None? then [Log(In(m))]
      else
        var id := Field(m, "id");
        var o := Invoke(agent, name.value, ParamsOf(m));
        if id.None? then [Log(In(m))]
        else [Log(In(m))] + Send(Reply(id.value, o))
  }

  /** The lines a run of effects writes, in order. */
  function Writes(es: seq<Effect>): seq<string>
    decreases |es|
  {
    if |es| == 0 then [] else (if es[0].Write? then [es[0].line] else []) + Writes(es[1..])
  }

  lemma {:induction false} WritesAppend(a: seq<Effect>, b: seq<Effect>)
    ensures Writes(a + b) == Writes(a) + Writes(b)
    decreases |a|
  {
    if |a| == 0 {
      assert a + b == b;
    } else {
      assert (a + b)[1..] == a[1..] + b;
      WritesAppend(a[1..], b);
    }
  }

  /** A reply carries the request's id; exactly one of `result` and `error`, `result` only when defined. */
  lemma ReplyFields(id: Json, o: Outcome)
    ensures Field(Reply(id, o), "id") == Some(id)
    ensures Field(Reply(id, o), "jsonrpc") == Some(JStr("2.0"))
    ensures Field(Reply(id, o), "error").Some? <==> o.Threw?
    ensures o.Threw? ==> Field(Reply(id, o), "error") == Some(ErrorObject(o.error))
    ensures o.Returned? ==> Field(Reply(id, o), "result") == o.result
    ensures o.Threw? ==> Field(Reply(id, o), "result").None?
  {
    var a := Member("jsonrpc", JStr("2.0"));
    var b := Member("id", id);
    match o
    case Returned(None) =>
      FindMember2(a, b, "id");
      FindMember2(a, b, "jsonrpc");
      FindMember2(a, b, "error");
      FindMember2(a, b, "result");
    case Returned(Some(v)) =>
      FindMember3(a, b, Member("result", v), "id");
      FindMember3(a, b, Member("result", v), "jsonrpc");
      FindMember3(a, b, Member("result", v), "error");
      FindMember3(a, b, Member("result", v), "result");
      FindMember2(a, b, "id");
      FindMember2(a, b, "jsonrpc");
      FindMember2(a, b, "error");
    case Threw(t) =>
      FindMember3(a, b, Member("error", ErrorObject(t)), "id");
      FindMember3(a, b, Member("error", ErrorObject(t)), "jsonrpc");
      FindMember3(a, b, Member("error", ErrorObject(t)), "error");
      FindMember3(a, b, Member("error", ErrorObject(t)), "result");
      FindMember2(a, b, "id");
      FindMember2(a, b, "jsonrpc");
      FindMember2(a, b, "result");
  }

  /** Unparsable lines, messages without a string method, and notifications (no `id`) write nothing. */
  lemma SilentCases(agent: Agent, line: string, parse: string -> Option<Json>)
    ensures parse(line).None? ==> HandleLine(agent, line, parse) == [Log(ParseError(line))]
    ensures parse(line).Some? && AsString(Field(parse(line).value, "method")).None? ==>
      HandleLine(agent, line, parse) == [Log(In(parse(line).value))]
    ensures parse(line).None? || Field(parse(line).value, "id").None? ==> Writes(HandleLine(agent, line, parse)) == []
  {
    var es := HandleLine(agent, line, parse);
    assert |es| == 1 ==> Writes(es) == [] + Writes(es[1..]);
  }

  /** The params a parsed message's handler receives: `params ?? {}`. */
  function ParamsOf(m: Json): Json {
    if Nullish(Field(m, "params")) then JObj([]) else Field(m, "params").value
  }

  /**
   * A request (string method, `id` present): `handleLine`'s own writes are one line, the reply
   * carrying the request's `id`. Lines a handler writes through the connection are not counted here.
   */
  lemma RequestGetsOneReply(agent: Agent, line: string, parse: string -> Option<Json>)
    requires parse(line).Some?
    requires AsString(Field(parse(line).value, "method")).Some? && Field(parse(line).value, "id").Some?
    ensures var m := parse(line).value;
      var reply := Reply(Field(m, "id").value, Invoke(agent, AsString(Field(m, "method")).value, ParamsOf(m)));
      && HandleLine(agent, line, parse) == [Log(In(m))] + Send(reply)
      && Writes(HandleLine(agent, line, parse)) == [Serialize(reply) + "\n"]
      && Field(reply, "id") == Field(m, "id")
  {
    var m := parse(line).value;
    var reply := Reply(Field(m, "id").value, Invoke(agent, AsString(Field(m, "method")).value, ParamsOf(m)));
    WritesAppend([Log(In(m))], Send(reply));
    WritesOfSend(reply);
    assert Writes([Log(In(m))]) == [] + Writes([]);
    ReplyFields(Field(m, "id").value, Invoke(agent, AsString(Field(m, "method")).value, ParamsOf(m)));
  }

  /**
   * Error mapping: an unknown method is answered with -32601 and its name; a `RequestError`
   * keeps its code; any other throw is -32603, with "Internal error" when it is not an `Error`.
   */
  lemma ErrorMapping(agent: Agent, name: string, params: Json, t: Thrown)
    ensures Route(name).None? ==>
      Invoke(agent, name, params) == Threw(RequestError(-32601, "Method not found: " + name))
    ensures Field(ErrorObject(t), "code") == Some(JNum(if t.RequestError? then t.code else -32603))
    ensures Field(ErrorObject(t), "message") == Some(JStr(if t.NonError? then "Internal error" else t.message))
  {
    var code := if t.RequestError? then t.code else InternalError;
    var message := if t.NonError? then "Internal error" else t.message;
    FindMember2(Member("code", JNum(code)), Member("message", JStr(message)), "code");
    FindMember2(Member("code", JNum(code)), Member("message", JStr(message)), "message");
  }

  /** Optional handlers the agent lacks answer `{}`, `{modes: []}` and an absent result. */
  lemma MissingHandlerDefaults(agent: Agent, params: Json)
    ensures !agent.hasLoadSession ==> Invoke(agent, "session/load", params) == Returned(Some(JObj([])))
    ensures !agent.hasSetSessionMode ==>
      Invoke(agent, "session/set_mode", params) == Returned(Some(JObj([Member("modes", JArr([]))])))
    ensures !agent.hasSetSessionModel ==> Invoke(agent, "session/set_model", params) == Returned(None)
    ensures Route("session/update").None? && Route("").None?
  {
  }

  /** A parsed request without `params` (or with `null`) reaches its handler with `{}`. */
  lemma ParamsDefault(agent: Agent, line: string, parse: string -> Option<Json>, h: Handler)
    requires parse(line).Some? && Field(parse(line).value, "method") == Some(JStr(MethodOf(h)))
    requires Nullish(Field(parse(line).value, "params"))
    requires h != LoadSession && h != SetSessionMode && h != SetSessionModel
    ensures Field(parse(line).value, "id").Some? ==>
      HandleLine(agent, line, parse)
        == [Log(In(parse(line).value))] + Send(Reply(Field(parse(line).value, "id").value, agent.call(h, JObj([]))))
  {
    RouteComplete(h);
  }

  lemma WritesOfSend(payload: Json)
    ensures Writes(Send(payload)) == [Serialize(payload) + "\n"]
  {
    var es := Send(payload);
    var w := Write(Serialize(payload) + "\n");
    assert es[1..] == [w];
    assert [w][1..] == [];
    assert Writes([w]) == [w.line] + Writes([]);
    assert Writes(es) == [] + Writes([w]);
  }

  /** Each written payload is one line of the wire format: framing it yields the payload's text alone. */
  lemma SendIsOneLine(payload: Json)
    ensures |Writes(Send(payload))| == 1
    ensures Frame(Writes(Send(payload))[0]) == Framed([Serialize(payload)], "")
  {
    WritesOfSend(payload);
    SerializeNoNewline(payload);
    SerializeTrimmed(payload);
    SerializeEnds(payload);
    FrameCleanLine(Serialize(payload), "");
    assert Serialize(payload) + "\n" + "" == Serialize(payload) + "\n";
    FrameNoNewline("");
  }

  // ---------------------------------------------------------------- read loop

  /** The line handler the read loop awaits: `handleLine` of this agent. */
  function LineHandler(agent: Agent, parse: string -> Option<Json>): string -> seq<Effect> {
    line => HandleLine(agent, line, parse)
  }

  /** Lines handled one after another, each logged raw and then handled to completion. */
  function DispatchAll(handle: string -> seq<Effect>, lines: seq<string>): seq<Effect>
    decreases |lines|
  {
    if |lines| == 0 then []
    else DispatchAll(handle, lines[..|lines| - 1]) + [Log(RawIn(lines[|lines| - 1]))] + handle(lines[|lines| - 1])
  }

  lemma {:induction false} DispatchAllAppend(handle: string -> seq<Effect>, a: seq<string>, b: seq<string>)
    ensures DispatchAll(handle, a + b) == DispatchAll(handle, a) + DispatchAll(handle, b)
    decreases |b|
  {
    if |b| == 0 {
      assert a + b == a;
    } else {
      var ab := a + b;
      assert ab[..|ab| - 1] == a + b[..|b| - 1];
      assert ab[|ab| - 1] == b[|b| - 1];
      DispatchAllAppend(handle, a, b[..|b| - 1]);
    }
  }

  /** The raw lines the loop logs, in the order it logs them. */
  function RawLines(es: seq<Effect>): seq<string>
    decreases |es|
  {
    if |es| == 0 then []
    else (if es[0].Log? && es[0].entry.RawIn? then [es[0].entry.line] else []) + RawLines(es[1..])
  }

  lemma {:induction false} RawLinesAppend(a: seq<Effect>, b: seq<Effect>)
    ensures RawLines(a + b) == RawLines(a) + RawLines(b)
    decreases |a|
  {
    if |a| == 0 {
      assert a + b == b;
    } else {
      assert (a + b)[1..] == a[1..] + b;
      RawLinesAppend(a[1..], b);
    }
  }

  /** `handleLine` itself never logs a raw line. */
  lemma RawLinesOfHandle(agent: Agent, line: string, parse: string -> Option<Json>)
    ensures RawLines(HandleLine(agent, line, parse)) == []
  {
    var es := HandleLine(agent, line, parse);
    assert |es| == 1 || |es| == 3;
    assert forall k :: 0 <= k < |es| ==> !(es[k].Log? && es[k].entry.RawIn?);
    if |es| == 3 {
      assert RawLines(es[2..]) == [];
      assert RawLines(es[1..]) == [];
    } else {
      assert RawLines(es[1..]) == [];
    }
  }

  /** Every dispatched line is logged raw exactly once, in order; nothing else is logged raw. */
  lemma {:induction false} DispatchAllLogsLines(agent: Agent, lines: seq<string>, parse: string -> Option<Json>)
    ensures RawLines(DispatchAll(LineHandler(agent, parse), lines)) == lines
    decreases |lines|
  {
    if |lines| > 0 {
      var l := lines[|lines| - 1];
      var h := LineHandler(agent, parse);
      DispatchAllLogsLines(agent, lines[..|lines| - 1], parse);
      RawLinesAppend(DispatchAll(h, lines[..|lines| - 1]) + [Log(RawIn(l))], h(l));
      RawLinesAppend(DispatchAll(h, lines[..|lines| - 1]), [Log(RawIn(l))]);
      assert RawLines([Log(RawIn(l))]) == [l];
      RawLinesOfHandle(agent, l, parse);
      assert lines == lines[..|lines| - 1] + [l];
    }
  }

  /** The text of the first `n` chunks. */
  lemma {:induction false} ConcatSnoc(chunks: seq<string>, n: nat)
    requires n < |chunks|
    ensures Concat(chunks[..n + 1]) == Concat(chunks[..n]) + chunks[n]
    decreases n
  {
    if n == 0 {
      assert chunks[..1] == [chunks[0]];
      assert Concat([chunks[0]]) == chunks[0] + Concat([]);
    } else {
      ConcatSnoc(chunks[1..], n - 1);
      assert chunks[1..][..n] == chunks[..n + 1][1..];
      assert chunks[1..][..n - 1] == chunks[..n][1..];
    }
  }

  /** The inner loop: each complete line, logged raw and handled, in order. */
  method DispatchLines(handle: string -> seq<Effect>, lines: seq<string>) returns (effects: seq<Effect>)
    ensures effects == DispatchAll(handle, lines)
  {
    effects := [];
    var j := 0;
    while j < |lines|
      invariant 0 <= j <= |lines|
      invariant effects == DispatchAll(handle, lines[..j])
    {
      assert lines[..j + 1][..j] == lines[..j];
      effects := effects + [Log(RawIn(lines[j]))] + handle(lines[j]);
      j := j + 1;
    }
    assert lines[..|lines|] == lines;
  }

  /**
   * `readLoop`: feed each chunk into the buffer, dispatch every complete line, and stop at end
   * of stream with any unterminated tail undispatched. Its effects are those of dispatching
   * the lines of the whole stream, however it was chunked.
   */
  method ReadLoop(handle: string -> seq<Effect>, chunks: seq<string>)
    returns (effects: seq<Effect>, leftover: string)
    ensures effects == DispatchAll(handle, Frame(Concat(chunks)).lines)
    ensures leftover == Frame(Concat(chunks)).rest && '\n' !in leftover
  {
    var buffer := "";
    effects := [];
    var i := 0;
    while i < |chunks|
      invariant 0 <= i <= |chunks|
      invariant buffer == Frame(Concat(chunks[..i])).rest
      invariant effects == DispatchAll(handle, Frame(Concat(chunks[..i])).lines)
    {
      ghost var before := Concat(chunks[..i]);
      var lines, rest := FeedChunk(buffer, chunks[i]);
      FrameAppend(before, chunks[i]);
      ConcatSnoc(chunks, i);
      var handled := DispatchLines(handle, lines);
      DispatchAllAppend(handle, Frame(before).lines, lines);
      effects := effects + handled;
      buffer := rest;
      i := i + 1;
    }
    assert chunks[..|chunks|] == chunks;
    FrameClean(Concat(chunks));
    leftover := buffer;
  }

  /** The agent's loop: it logs every line of the stream once, in order, and handles each. */
  lemma ServeLogsEveryLine(agent: Agent, chunks: seq<string>, parse: string -> Option<Json>)
    ensures RawLines(DispatchAll(LineHandler(agent, parse), Frame(Concat(chunks)).lines)) == Frame(Concat(chunks)).lines
    ensures forall k :: 0 <= k < |Frame(Concat(chunks)).lines| ==> CleanLine(Frame(Concat(chunks)).lines[k])
  {
    DispatchAllLogsLines(agent, Frame(Concat(chunks)).lines, parse);
    FrameClean(Concat(chunks));
  }

  /** A stream whose last line lacks its line feed: that line is never dispatched. */
  lemma UnterminatedTailIgnored(agent: Agent, done: string, tail: string, parse: string -> Option<Json>)
    requires '\n' !in tail
    ensures Frame(done + tail).lines == Frame(done).lines
    ensures Frame(done + tail).rest == Frame(done).rest + tail
  {
    FrameAppend(done, tail);
    FrameClean(done);
    FrameNoNewline(Frame(done).rest + tail);
  }
}

=== FILE: background_jobs.dfy ===
/**
 * The background-jobs panel's selection: which job is highlighted after a refresh and after
 * up/down keys, and the text of one list line. Drawing and theming are not modelled.
 */
module BackgroundJobs {
  import opened Common
  import opened Strings
  import opened Json

  /** One job as listed; `exitCode` is `None` for `null`, `pid` is `None` when absent. */
  datatype Job = Job(id: string, command: string, createdAt: string, status: string, pid: Option<int>, exitCode: Option<int>)

  /** The panel's state: the jobs last fetched and the highlighted index. */
  datatype Panel = Panel(jobs: seq<Job>, selectedIndex: int)

  /** The highlighted index names a listed job, or is 0 when there are none. */
  predicate Valid(p: Panel) {
    if |p.jobs| == 0 then p.selectedIndex == 0 else 0 <= p.selectedIndex < |p.jobs|
  }

  /** `jobs.findIndex(job => job.id === id)`, as an option. */
  function FindJob(jobs: seq<Job>, id: string): (r: Option<nat>)
    ensures r.Some? ==> r.value < |jobs| && jobs[r.value].id == id
    ensures r.Some? ==> forall j :: 0 <= j < r.value ==> jobs[j].id != id
    ensures r.None? <==> forall j :: 0 <= j < |jobs| ==> jobs[j].id != id
    decreases |jobs|
  {
    if |jobs| == 0 then None
    else if jobs[0].id == id then Some(0)
    else match FindJob(jobs[1..], id)
      case None => None
      case Some(k) => Some(k + 1)
  }

  /**
   * `refresh`: take the fetched jobs; an empty list selects 0; otherwise a truthy
   * `initialJobId` that is listed selects that job, and the index is clamped into the list.
   */
  function Refresh(p: Panel, jobs: seq<Job>, initialJobId: Option<string>): (r: Panel)
    ensures r.jobs == jobs && Valid(r)
    ensures |jobs| == 0 ==> r.selectedIndex == 0
    ensures |jobs| > 0 && initialJobId.Some? && |initialJobId.value| > 0 && FindJob(jobs, initialJobId.value).Some? ==>
      jobs[r.selectedIndex].id == initialJobId.value
      && forall j :: 0 <= j < r.selectedIndex ==> jobs[j].id != initialJobId.value
    ensures |jobs| > 0 && (initialJobId.None? || |initialJobId.value| == 0 || FindJob(jobs, initialJobId.value).None?) ==>
      r.selectedIndex == (if p.selectedIndex < 0 then 0 else if p.selectedIndex >= |jobs| then |jobs| - 1 else p.selectedIndex)
  {
    if |jobs| == 0 then Panel(jobs, 0)
    else
      var found := if initialJobId.Some? && |initialJobId.value| > 0 then FindJob(jobs, initialJobId.value) else None;
      var idx := if found.Some? then found.value as int else p.selectedIndex;
      var idx1 := if idx < 0 then 0 else idx;
      var idx2 := if idx1 >= |jobs| then |jobs| - 1 else idx1;
      Panel(jobs, idx2)
  }

  /** Up: `max(0, i - 1)`, nothing on an empty list. */
  function Up(p: Panel): (r: Panel)
    ensures r.jobs == p.jobs
    ensures |p.jobs| == 0 ==> r == p
    ensures Valid(p) ==> Valid(r)
    ensures |p.jobs| > 0 ==> 0 <= r.selectedIndex && (p.selectedIndex >= 0 ==> r.selectedIndex <= p.selectedIndex)
    ensures |p.jobs| > 0 && p.selectedIndex > 0 ==> r.selectedIndex == p.selectedIndex - 1
  {
    if |p.jobs| == 0 then p
    else p.(selectedIndex := if p.selectedIndex - 1 > 0 then p.selectedIndex - 1 else 0)
  }

  /** Down: `min(length - 1, i + 1)`, nothing on an empty list. */
  function Down(p: Panel): (r: Panel)
    ensures r.jobs == p.jobs
    ensures |p.jobs| == 0 ==> r == p
    ensures Valid(p) ==> Valid(r)
    ensures |p.jobs| > 0 ==> r.selectedIndex < |p.jobs|
    ensures |p.jobs| > 0 && p.selectedIndex < |p.jobs| - 1 ==> r.selectedIndex == p.selectedIndex + 1
  {
    if |p.jobs| == 0 then p
    else p.(selectedIndex := if |p.jobs| - 1 < p.selectedIndex + 1 then |p.jobs| - 1 else p.selectedIndex + 1)
  }

  /** Up and Down undo each other away from the ends of the list. */
  lemma UpDownInverse(p: Panel)
    requires Valid(p)
    ensures p.selectedIndex > 0 ==> Down(Up(p)) == p
    ensures p.selectedIndex < |p.jobs| - 1 ==> Up(Down(p)) == p
  {
  }

  /** A key press, after the key bindings are resolved. */
  datatype Key = SelectUp | SelectDown | Reload | SelectCancel | OtherKey

  /**
   * `handleInput`'s order of tests: up (`k` or the binding), down (`j` or the binding), `r` in
   * either case, cancel. `matches(keyData, action)` stands for the editor key-binding lookup.
   */
  function Classify(keyData: string, matches: (string, string) -> bool): (r: Key)
    ensures r == SelectUp <==> matches(keyData, "selectUp") || keyData == "k"
    ensures r == SelectDown <==> r != SelectUp && (matches(keyData, "selectDown") || keyData == "j")
    ensures r == Reload <==> r != SelectUp && r != SelectDown && ToLower(keyData) == "r"
    ensures r == SelectCancel <==>
      r != SelectUp && r != SelectDown && ToLower(keyData) != "r" && matches(keyData, "selectCancel")
  {
    if matches(keyData, "selectUp") || keyData == "k" then SelectUp
    else if matches(keyData, "selectDown") || keyData == "j" then SelectDown
    else if ToLower(keyData) == "r" then Reload
    else if matches(keyData, "selectCancel") then SelectCancel
    else OtherKey
  }

  /** `r` reloads in either case unless a movement binding claims the key first. */
  lemma ReloadEitherCase(matches: (string, string) -> bool)
    ensures !matches("r", "selectUp") && !matches("r", "selectDown") ==> Classify("r", matches) == Reload
    ensures !matches("R", "selectUp") && !matches("R", "selectDown") ==> Classify("R", matches) == Reload
    ensures matches("r", "selectUp") ==> Classify("r", matches) == SelectUp
  {
    assert ToLower("R") == "r";
  }

  /** What a key press does: the new panel, and whether the panel asks to be closed. */
  datatype InputResult = InputResult(panel: Panel, close: bool)

  /** `handleInput`; `fetched` is what `getJobs()` would return for a reload. */
  function HandleInput(p: Panel, key: Key, fetched: seq<Job>): (r: InputResult)
    ensures Valid(p) ==> Valid(r.panel)
    ensures r.close <==> key == SelectCancel
    ensures key != Reload ==> r.panel.jobs == p.jobs
    ensures key == Reload ==> r.panel.jobs == fetched
  {
    match key
    case SelectUp => InputResult(Up(p), false)
    case SelectDown => InputResult(Down(p), false)
    case Reload => InputResult(Refresh(p, fetched, None), false)
    case SelectCancel => InputResult(p, true)
    case OtherKey => InputResult(p, false)
  }

  /** The panel as constructed: an empty list at index 0, then a refresh. */
  function Open(jobs: seq<Job>, initialJobId: Option<string>): (r: Panel)
    ensures Valid(r) && r.jobs == jobs
  {
    Refresh(Panel([], 0), jobs, initialJobId)
  }

  /** Any run of key presses from an opened panel keeps the highlighted index on a listed job. */
  lemma {:induction false} SelectionStaysValid(p: Panel, keys: seq<Key>, fetched: seq<seq<Job>>)
    requires Valid(p) && |fetched| == |keys|
    ensures Valid(Run(p, keys, fetched))
    decreases |keys|
  {
    if |keys| > 0 {
      SelectionStaysValid(HandleInput(p, keys[0], fetched[0]).panel, keys[1..], fetched[1..]);
    }
  }

  function Run(p: Panel, keys: seq<Key>, fetched: seq<seq<Job>>): Panel
    requires |fetched| == |keys|
    decreases |keys|
  {
    if |keys| == 0 then p else Run(HandleInput(p, keys[0], fetched[0]).panel, keys[1..], fetched[1..])
  }

  // ---------------------------------------------------------------- list lines

  /** `String(exitCode)`, or `-` for `null`. */
  function ExitText(exitCode: Option<int>): string {
    if exitCode.Some? then IntToString(exitCode.value) else "-"
  }

  /** `pid ?? "n/a"`. */
  function PidText(pid: Option<int>): string {
    if pid.Some? then IntToString(pid.value) else "n/a"
  }

  /** One list line; the highlighted job carries the `-> ` marker (colouring not modelled). */
  function Line(job: Job, selected: bool): (r: string)
    ensures StartsWith(r, if selected then "-> " else "   ")
    ensures EndsWith(r, "  " + job.command)
  {
    var prefix := if selected then "-> " else "   ";
    var r := prefix + job.id + "  " + job.status + "  pid=" + PidText(job.pid) + "  exit=" + ExitText(job.exitCode) + "  " + job.command;
    assert r[..3] == prefix;
    assert r[|r| - |"  " + job.command|..] == "  " + job.command;
    r
  }

  /** The pid field sits between the `pid=` label and the exit field. */
  lemma LineLayout(job: Job, selected: bool)
    ensures var tail := "  exit=" + ExitText(job.exitCode) + "  " + job.command;
      var pre := (if selected then "-> " else "   ") + job.id + "  " + job.status + "  pid=";
      Line(job, selected) == pre + PidText(job.pid) + tail
  {
    var pre := (if selected then "-> " else "   ") + job.id + "  " + job.status + "  pid=";
    var x := pre + PidText(job.pid);
    var e := ExitText(job.exitCode);
    assert x + ("  exit=" + e) == x + "  exit=" + e;
    assert x + ("  exit=" + e + "  ") == x + "  exit=" + e + "  ";
    assert x + ("  exit=" + e + "  " + job.command) == x + "  exit=" + e + "  " + job.command;
  }

  /** The pid and exit fields: `n/a` without a pid, `-` for a `null` exit code, the decimal value otherwise. */
  lemma LineFields(job: Job)
    ensures job.pid.None? ==> PidText(job.pid) == "n/a"
    ensures job.exitCode.None? ==> ExitText(job.exitCode) == "-"
    ensures job.pid.Some? ==> ParseInt(PidText(job.pid)) == job.pid
    ensures job.exitCode.Some? ==> ParseInt(ExitText(job.exitCode)) == job.exitCode
  {
    if job.pid.Some? {
      IntToStringRoundTrip(job.pid.value);
    }
    if job.exitCode.Some? {
      IntToStringRoundTrip(job.exitCode.value);
    }
  }
}

=== FILE: common.dfy ===
/** Failure-carrying wrappers shared by every module of the model. */
module Common {

  /** A value that may be absent; for JavaScript fields, `None` is `undefined`. */
  datatype Option<+T> = None | Some(value: T) {
    function GetOr(default: T): T {
      match this
      case Some(v) => v
      case None => default
    }
  }

  /** The outcome of an operation that may throw; `Err` carries the thrown message. */
  datatype Result<+T> = Ok(value: T) | Err(message: string) {
    predicate IsFailure() {
      Err?
    }

    function PropagateFailure<U>(): Result<U>
      requires Err?
    {
      Err(message)
    }

    function Extract(): T
      requires Ok?
    {
      value
    }
  }

  /** The last element of a non-empty sequence. */
  function Last<T>(s: seq<T>): T
    requires |s| > 0
  {
    s[|s| - 1]
  }
}

=== FILE: desktop_app.dfy ===
/**
 * The pure decisions of the desktop renderer: the project name shown for a path, the slash-command
 * menu (filter, selection wrap-around, insertion), the permission auto-answer and remember rule,
 * and which forwarded events reach the session-view reducer. React state and rendering are not modelled;
 * the renderer's state is one immutable record threaded through step functions.
 */
module DesktopApp {
  import opened Common
  import opened Strings
  import opened Json
  import opened SessionState

  // ---------------------------------------------------------------- project name

  predicate IsSeparator(c: char) {
    c == '/' || c == '\\'
  }

  /** `formatProjectName`: the last non-empty segment after turning `\` into `/`, or the path itself. */
  function FormatProjectName(path: string): string {
    var parts := NonEmpty(Split(ReplaceChar(path, '\\', '/'), '/'));
    if |parts| > 0 then parts[|parts| - 1] else path
  }

  /** `.filter(Boolean)` of a list with a known first piece. */
  lemma NonEmptyCons(head: string, tail: seq<string>)
    ensures NonEmpty([head] + tail) == (if |head| > 0 then [head] else []) + NonEmpty(tail)
  {
    assert ([head] + tail)[0] == head;
    assert ([head] + tail)[1..] == tail;
  }

  predicate AllSlashes(s: string) {
    forall j :: 0 <= j < |s| ==> s[j] == '/'
  }

  /** `r` is the last maximal run of non-`/` characters of `s`, starting at `k`. */
  predicate LastRunAt(s: string, k: nat, r: string) {
    && |r| > 0 && '/' !in r
    && k + |r| <= |s| && s[k..k + |r|] == r
    && (k == 0 || s[k - 1] == '/')
    && forall j :: k + |r| <= j < |s| ==> s[j] == '/'
  }

  lemma LastRunNotAllSlashes(s: string, k: nat, r: string)
    requires LastRunAt(s, k, r)
    ensures !AllSlashes(s)
  {
    assert s[k..k + |r|][0] == r[0];
  }

  /** A run of the text after the first `/` at `i` is a run of the whole text, shifted by `i + 1`. */
  lemma ShiftRun(s: string, i: nat, rest: string, k': nat, r: string) returns (k: nat)
    requires i < |s| && s[i] == '/' && rest == s[i + 1..]
    requires LastRunAt(rest, k', r)
    ensures LastRunAt(s, k, r)
  {
    k := i + 1 + k';
    assert s[k..k + |r|] == rest[k'..k' + |r|];
    forall j | k + |r| <= j < |s|
      ensures s[j] == '/'
    {
      assert s[j] == rest[j - i - 1];
    }
  }

  /** The text before the first `/` at `i`, when nothing but `/` follows it. */
  lemma HeadRun(s: string, i: nat, rest: string)
    requires i < |s| && s[i] == '/' && rest == s[i + 1..] && '/' !in s[..i]
    requires AllSlashes(rest)
    ensures |s[..i]| > 0 ==> LastRunAt(s, 0, s[..i])
    ensures |s[..i]| == 0 ==> AllSlashes(s)
  {
    forall j | i < j < |s|
      ensures s[j] == '/'
    {
      assert s[j] == rest[j - i - 1];
    }
    assert s[0..|s[..i]|] == s[..i];
  }

  /** Text without `/` is one run, unless empty. */
  lemma WholeRun(s: string)
    requires '/' !in s
    ensures |s| > 0 ==> LastRunAt(s, 0, s)
    ensures |s| == 0 ==> AllSlashes(s)
  {
    assert s[0..|s|] == s;
  }

  /**
   * The last non-empty piece of `split("/")` is the last maximal run of non-`/` characters;
   * there is none exactly when the text is all `/`.
   */
  lemma {:induction false} LastPiece(s: string) returns (k: nat)
    ensures var ps := NonEmpty(Split(s, '/'));
      |ps| == 0 <==> AllSlashes(s)
    ensures var ps := NonEmpty(Split(s, '/'));
      |ps| > 0 ==> LastRunAt(s, k, ps[|ps| - 1])
    decreases |s|
  {
    var ps := NonEmpty(Split(s, '/'));
    match IndexOf(s, '/')
    case None =>
      k := 0;
      NonEmptyCons(s, []);
      WholeRun(s);
    case Some(i) =>
      var head := s[..i];
      var rest := s[i + 1..];
      var tail := NonEmpty(Split(rest, '/'));
      var k' := LastPiece(rest);
      NonEmptyCons(head, Split(rest, '/'));
      assert ps == (if |head| > 0 then [head] else []) + tail;
      if |tail| > 0 {
        assert ps[|ps| - 1] == tail[|tail| - 1];
        k := ShiftRun(s, i, rest, k', tail[|tail| - 1]);
        LastRunNotAllSlashes(s, k, ps[|ps| - 1]);
      } else {
        HeadRun(s, i, rest);
        k := 0;
        if |head| > 0 {
          assert ps == [head];
          LastRunNotAllSlashes(s, 0, head);
        }
      }
  }

  /**
   * The name shown for a project is the path's last segment between separators (`/` or `\`):
   * non-empty, separator-free, preceded by a separator or the start, followed by separators only.
   * A path made of separators alone (or the empty path) is shown as written.
   */
  lemma ProjectNameIsLastSegment(path: string) returns (k: nat)
    ensures (forall j :: 0 <= j < |path| ==> IsSeparator(path[j])) ==> FormatProjectName(path) == path
    ensures (exists j :: 0 <= j < |path| && !IsSeparator(path[j])) ==>
      var r := FormatProjectName(path);
      && |r| > 0 && '/' !in r && '\\' !in r
      && k + |r| <= |path|
      && (forall j :: 0 <= j < |r| ==> r[j] == path[k + j])
      && (k == 0 || IsSeparator(path[k - 1]))
      && forall j :: k + |r| <= j < |path| ==> IsSeparator(path[j])
  {
    var n := ReplaceChar(path, '\\', '/');
    assert forall j :: 0 <= j < |n| ==> (n[j] == '/' <==> IsSeparator(path[j]));
    k := LastPiece(n);
    var ps := NonEmpty(Split(n, '/'));
    if |ps| > 0 {
      var r := ps[|ps| - 1];
      forall j | 0 <= j < |r|
        ensures r[j] == path[k + j] && r[j] != '\\'
      {
        assert r[j] == n[k..k + |r|][j] == n[k + j];
        assert r[j] != '/';
      }
    }
  }

  // ---------------------------------------------------------------- slash menu

  /** The slash-command menu: shown or not, the typed filter, the highlighted index. */
  datatype Menu = Menu(show: bool, filter: string, idx: int)

  /** `handlePromptChange`: `/` opens the menu with the text up to the first whitespace and resets the selection. */
  function PromptChange(m: Menu, value: string): (r: Menu)
    ensures StartsWith(value, "/") ==>
      && r.show && r.idx == 0
      && StartsWith(value[1..], r.filter)
      && (forall j :: 0 <= j < |r.filter| ==> !IsWhitespace(r.filter[j]))
      && (|r.filter| == |value| - 1 || IsWhitespace(value[1 + |r.filter|]))
    ensures !StartsWith(value, "/") ==> !r.show && r.filter == m.filter && r.idx == m.idx
  {
    if StartsWith(value, "/") then Menu(true, UntilWhitespace(value[1..]), 0)
    else m.(show := false)
  }

  /** A command is offered when its lower-cased name starts with the lower-cased filter. */
  predicate Offered(c: Command, query: string) {
    StartsWith(ToLower(c.name), query)
  }

  function FilterCommands(query: string, cmds: seq<Command>): (r: seq<Command>)
    ensures |r| <= |cmds|
    ensures forall k :: 0 <= k < |r| ==> Offered(r[k], query)
    decreases |cmds|
  {
    if |cmds| == 0 then []
    else (if Offered(cmds[0], query) then [cmds[0]] else []) + FilterCommands(query, cmds[1..])
  }

  /** `filteredSlashCommands`: nothing while the menu is hidden. */
  function Filtered(m: Menu, cmds: seq<Command>): (r: seq<Command>)
    ensures !m.show ==> r == []
    ensures forall k :: 0 <= k < |r| ==> StartsWith(ToLower(r[k].name), ToLower(m.filter))
  {
    if m.show then FilterCommands(ToLower(m.filter), cmds) else []
  }

  /** A command is listed exactly when it is one of the commands and is offered. */
  lemma {:induction false} FilterMembership(query: string, cmds: seq<Command>, c: Command)
    ensures c in FilterCommands(query, cmds) <==> c in cmds && Offered(c, query)
    decreases |cmds|
  {
    if |cmds| > 0 {
      FilterMembership(query, cmds[1..], c);
      assert c in cmds <==> c == cmds[0] || c in cmds[1..];
    }
  }

  /** Filtering commutes with concatenation, so the listed commands keep their order. */
  lemma {:induction false} FilterAppend(query: string, a: seq<Command>, b: seq<Command>)
    ensures FilterCommands(query, a + b) == FilterCommands(query, a) + FilterCommands(query, b)
    decreases |a|
  {
    if |a| == 0 {
      assert a + b == b;
    } else {
      assert (a + b)[0] == a[0];
      assert (a + b)[1..] == a[1..] + b;
      FilterAppend(query, a[1..], b);
    }
  }

  /** JavaScript's `%` on integers: the remainder takes the sign of the dividend. */
  function JsRem(a: int, n: int): (r: int)
    requires n > 0
    ensures -n < r < n
    ensures a >= 0 ==> 0 <= r
    ensures a <= 0 ==> r <= 0
  {
    if a >= 0 then a % n else -((-a) % n)
  }

  /** ArrowDown: `(i + 1) % length`. */
  function Down(i: int, len: int): (r: int)
    requires len > 0
    ensures 0 <= i ==> 0 <= r < len
    ensures 0 <= i < len - 1 ==> r == i + 1
    ensures i == len - 1 ==> r == 0
  {
    JsRem(i + 1, len)
  }

  /** ArrowUp: `(i - 1 + length) % length`. */
  function Up(i: int, len: int): (r: int)
    requires len > 0
    ensures 0 <= i ==> 0 <= r < len
    ensures 0 < i < len ==> r == i - 1
    ensures i == 0 ==> r == len - 1
  {
    JsRem(i - 1 + len, len)
  }

  /** Up undoes Down and Down undoes Up on every in-range index. */
  lemma ArrowsInverse(i: int, len: int)
    requires 0 <= i < len
    ensures Up(Down(i, len), len) == i
    ensures Down(Up(i, len), len) == i
  {
  }

  datatype Key = ArrowDown | ArrowUp | Accept | Escape | OtherKey

  /** What a key press did to the menu; `inserted` is the command name put into the prompt. */
  datatype KeyResult = KeyResult(menu: Menu, handled: bool, inserted: Option<string>)

  /** The menu's `onKeyDown` branch; reading past the end of the list throws, as `undefined.name` does. */
  function KeyDown(m: Menu, cmds: seq<Command>, key: Key): (r: Result<KeyResult>)
    ensures !m.show || |Filtered(m, cmds)| == 0 ==> r == Ok(KeyResult(m, false, None))
    ensures r.Ok? && r.value.handled ==> r.value.menu.filter == m.filter
    ensures key == Accept && m.show && |Filtered(m, cmds)| > 0 ==>
      (r.Ok? <==> 0 <= m.idx < |Filtered(m, cmds)|)
    ensures r.Ok? && r.value.inserted.Some? ==>
      key == Accept && !r.value.menu.show && r.value.inserted.value == Filtered(m, cmds)[m.idx].name
    ensures 0 <= m.idx && (key == ArrowDown || key == ArrowUp) && r.Ok? && r.value.handled ==>
      0 <= r.value.menu.idx < |Filtered(m, cmds)|
    ensures key == ArrowDown && m.show && |Filtered(m, cmds)| > 0 ==>
      r == Ok(KeyResult(m.(idx := Down(m.idx, |Filtered(m, cmds)|)), true, None))
    ensures key == ArrowUp && m.show && |Filtered(m, cmds)| > 0 ==>
      r == Ok(KeyResult(m.(idx := Up(m.idx, |Filtered(m, cmds)|)), true, None))
    ensures key == Escape && m.show && |Filtered(m, cmds)| > 0 ==> r == Ok(KeyResult(m.(show := false), true, None))
    ensures key == OtherKey ==> r == Ok(KeyResult(m, false, None))
  {
    var f := Filtered(m, cmds);
    if !m.show || |f| == 0 then Ok(KeyResult(m, false, None))
    else
      match key
      case ArrowDown => Ok(KeyResult(m.(idx := Down(m.idx, |f|)), true, None))
      case ArrowUp => Ok(KeyResult(m.(idx := Up(m.idx, |f|)), true, None))
      case Accept =>
        if 0 <= m.idx < |f| then Ok(KeyResult(m.(show := false), true, Some(f[m.idx].name)))
        else Err("TypeError: Cannot read properties of undefined (reading 'name')")
      case Escape => Ok(KeyResult(m.(show := false), true, None))
      case OtherKey => Ok(KeyResult(m, false, None))
  }

  /** The selection points into the listed commands whenever there are any. */
  predicate MenuValid(m: Menu, cmds: seq<Command>) {
    0 <= m.idx && (|Filtered(m, cmds)| > 0 ==> m.idx < |Filtered(m, cmds)|)
  }

  /** Hovering a listed entry selects it; only rendered entries can be hovered. */
  function Hover(m: Menu, cmds: seq<Command>, i: int): (r: Menu)
    requires 0 <= i < |Filtered(m, cmds)|
    ensures MenuValid(r, cmds)
    ensures r.show == m.show && r.filter == m.filter
  {
    m.(idx := i)
  }

  /** A new command list arriving while the menu is open, as written: the selection is kept. */
  function CommandsArriveAsWritten(m: Menu): (r: Menu)
    ensures r.idx == m.idx && r.show == m.show
  {
    m
  }

  /** A new command list arriving while the menu is open, corrected: the selection restarts at the top. */
  function CommandsArrive(m: Menu): (r: Menu)
    ensures r.idx == 0 && r.show == m.show && r.filter == m.filter
    ensures forall cmds :: MenuValid(r, cmds)
  {
    m.(idx := 0)
  }

  /** Every step of the corrected menu keeps the selection in range. */
  lemma MenuStepsKeepValid(m: Menu, cmds: seq<Command>, value: string, key: Key)
    requires MenuValid(m, cmds)
    ensures MenuValid(PromptChange(m, value), cmds)
    ensures KeyDown(m, cmds, key).Ok? && MenuValid(KeyDown(m, cmds, key).value.menu, cmds)
  {
  }

  /** With the selection in range, accepting a listed command always inserts it. */
  lemma AcceptInsertsSelection(m: Menu, cmds: seq<Command>)
    requires MenuValid(m, cmds) && m.show && |Filtered(m, cmds)| > 0
    ensures KeyDown(m, cmds, Accept) == Ok(KeyResult(m.(show := false), true, Some(Filtered(m, cmds)[m.idx].name)))
  {
  }

  /**
   * As written: the user moves to the second of two commands, the agent then announces a single
   * command, and Enter reads past the end of the list.
   */
  lemma StaleSlashIndexThrows()
    ensures var before := [Command("compact", None), Command("clear", None)];
      var after := [Command("compact", None)];
      var shown := PromptChange(Menu(false, "", 0), "/");
      var moved := KeyDown(shown, before, ArrowDown);
      && moved.Ok? && moved.value.menu.idx == 1
      && KeyDown(CommandsArriveAsWritten(moved.value.menu), after, Accept).Err?
      && KeyDown(CommandsArrive(moved.value.menu), after, Accept).Ok?
  {
    var before := [Command("compact", None), Command("clear", None)];
    var after := [Command("compact", None)];
    var shown := PromptChange(Menu(false, "", 0), "/");
    assert UntilWhitespace("/"[1..]) == "";
    assert shown == Menu(true, "", 0);
    assert ToLower("") == "";
    assert Offered(before[0], "") && Offered(before[1], "");
    assert before[1..][1..] == [];
    assert FilterCommands("", before) == before;
    assert after[1..] == [];
    assert FilterCommands("", after) == after;
  }

  // ---------------------------------------------------------------- permission decisions

  predicate IsAllow(o: PermissionOption) {
    StartsWith(o.kind, "allow")
  }

  /** `j` is the first `allow*` option. */
  predicate FirstAllowAt(options: seq<PermissionOption>, j: int) {
    0 <= j < |options| && IsAllow(options[j]) && forall i :: 0 <= i < j ==> !IsAllow(options[i])
  }

  /** `options.find(o => o.kind.startsWith("allow"))`, as an index. */
  function FirstAllow(options: seq<PermissionOption>): (r: Option<nat>)
    ensures r.Some? ==> r.value < |options| && IsAllow(options[r.value])
    ensures r.Some? ==> forall j :: 0 <= j < r.value ==> !IsAllow(options[j])
    ensures r.None? <==> forall j :: 0 <= j < |options| ==> !IsAllow(options[j])
    decreases |options|
  {
    if |options| == 0 then None
    else if IsAllow(options[0]) then Some(0)
    else match FirstAllow(options[1..])
      case None => None
      case Some(k) => Some(k + 1)
  }

  /** `options.find(o => o.optionId === id)`, as an index; an undefined id matches nothing. */
  function FindOption(options: seq<PermissionOption>, id: Option<string>): (r: Option<nat>)
    ensures r.Some? ==> r.value < |options| && id == Some(options[r.value].optionId)
    ensures r.None? <==> id.None? || forall j :: 0 <= j < |options| ==> options[j].optionId != id.value
    decreases |options|
  {
    if |options| == 0 || id.None? then None
    else if options[0].optionId == id.value then Some(0)
    else match FindOption(options[1..], id)
      case None => None
      case Some(k) => Some(k + 1)
  }

  /** The remember key of a request: `toolCall?.kind || "other"`. */
  function KindKey(toolCall: Option<ToolCallRef>): string {
    if toolCall.Some? && toolCall.value.kind.Some? && |toolCall.value.kind.value| > 0 then toolCall.value.kind.value
    else "other"
  }

  function Lookup(remembered: map<string, string>, key: string): Option<string> {
    if key in remembered then Some(remembered[key]) else None
  }

  /** An answer the renderer sends to the host for a permission request. */
  datatype Response = Response(requestId: string, outcome: PermissionOutcome)

  /**
   * The permission branch of the event listener: with auto-allow, the first `allow*` option;
   * otherwise the option remembered for the tool kind, if the request offers it; otherwise no answer.
   */
  function AutoResolve(autoAllow: bool, remembered: map<string, string>, requestId: string, p: PermissionParams)
    : (r: Option<Response>)
    ensures r.Some? ==> r.value.requestId == requestId && r.value.outcome.Selected?
    ensures r.Some? ==> exists j :: 0 <= j < |p.options| && p.options[j].optionId == r.value.outcome.optionId
    ensures autoAllow && (exists j :: 0 <= j < |p.options| && IsAllow(p.options[j])) ==>
      r.Some? && exists j :: FirstAllowAt(p.options, j) && p.options[j].optionId == r.value.outcome.optionId
    ensures (!autoAllow || forall j :: 0 <= j < |p.options| ==> !IsAllow(p.options[j])) && r.Some? ==>
      KindKey(p.toolCall) in remembered && r.value.outcome.optionId == remembered[KindKey(p.toolCall)]
    ensures r.None? <==>
      && (!autoAllow || forall j :: 0 <= j < |p.options| ==> !IsAllow(p.options[j]))
      && (KindKey(p.toolCall) !in remembered
          || forall j :: 0 <= j < |p.options| ==> p.options[j].optionId != remembered[KindKey(p.toolCall)])
  {
    var available := FindOption(p.options, Lookup(remembered, KindKey(p.toolCall)));
    var firstAllow := FirstAllow(p.options);
    if autoAllow && firstAllow.Some? then Some(Response(requestId, Selected(p.options[firstAllow.value].optionId)))
    else if available.Some? then Some(Response(requestId, Selected(p.options[available.value].optionId)))
    else None
  }

  /** A session created ahead of time, and whether a thread has taken it yet. */
  datatype PreWarm = PreWarm(sessionId: string, used: bool)

  const PreWarmKinds: set<string> :=
    {"available_commands_update", "current_mode_update", "available_modes_update", "models_update", "current_model_update"}

  /** Whether an update for `sessionId` reaches the reducer: an unused pre-warmed session lets only metadata through. */
  predicate PassesPreWarm(preWarmed: Option<PreWarm>, sessionId: string, kind: string) {
    !(preWarmed.Some? && !preWarmed.value.used && sessionId == preWarmed.value.sessionId) || kind in PreWarmKinds
  }

  /** The renderer state the listener and `respondPermission` touch. */
  datatype Ui = Ui(
    state: AppState,
    status: AcpStatus,
    autoAllow: bool,
    rememberChoice: bool,
    remembered: map<string, string>,
    preWarmed: Option<PreWarm>)

  datatype Reaction = Reaction(ui: Ui, response: Option<Response>)

  /** The `onEvent` listener: status events, permission auto-answers, the pre-warm filter, then the reducer. */
  function OnEvent(ui: Ui, ev: DesktopEvent): (r: Reaction)
    ensures r.ui.autoAllow == ui.autoAllow && r.ui.rememberChoice == ui.rememberChoice
    ensures r.ui.remembered == ui.remembered && r.ui.preWarmed == ui.preWarmed
    ensures r.ui.state == ui.state || r.ui.state == ReduceEvent(ui.state, ev)
    ensures r.response.Some? ==>
      ev.PermissionRequest? && r.ui.state == ui.state && r.response.value.requestId == ev.requestId
    ensures ev.PermissionRequest? && r.response.None? ==> r.ui.state == ReduceEvent(ui.state, ev)
    ensures ev.Connected? || ev.AcpStatusUpdate? ==> r.ui.state == ui.state
    ensures !ev.Connected? && !ev.AcpStatusUpdate? && !ev.PermissionRequest? && !ev.SessionUpdateEvent? ==>
      r.ui.state == ReduceEvent(ui.state, ev)
    ensures ev.SessionUpdateEvent? && PassesPreWarm(ui.preWarmed, ev.sessionId, UpdateKind(ev.update)) ==>
      r.ui.state == ReduceEvent(ui.state, ev)
    ensures ev.SessionUpdateEvent? && !PassesPreWarm(ui.preWarmed, ev.sessionId, UpdateKind(ev.update)) ==>
      r.ui.state == ui.state
    ensures ev.AcpStatusUpdate? ==> r.ui.status == ev.status
    ensures ev.Connected? ==> r.ui.status == StatusConnected
    ensures ev.Disconnected? || ev.Stopped? ==> r.ui.status == StatusDisconnected
    ensures !ev.AcpStatusUpdate? && !ev.Connected? && !ev.Disconnected? && !ev.Stopped? ==> r.ui.status == ui.status
  {
    match ev
    case AcpStatusUpdate(st, _) => Reaction(ui.(status := st), None)
    case Connected(_, _, _) => Reaction(ui.(status := StatusConnected), None)
    case Disconnected(_) => Reaction(ui.(status := StatusDisconnected, state := ReduceEvent(ui.state, ev)), None)
    case Stopped => Reaction(ui.(status := StatusDisconnected, state := ReduceEvent(ui.state, ev)), None)
    case PermissionRequest(rid, p) =>
      var answer := AutoResolve(ui.autoAllow, ui.remembered, rid, p);
      if answer.Some? then Reaction(ui, answer)
      else Reaction(ui.(state := ReduceEvent(ui.state, ev)), None)
    case SessionUpdateEvent(sid, u) =>
      if PassesPreWarm(ui.preWarmed, sid, UpdateKind(u)) then Reaction(ui.(state := ReduceEvent(ui.state, ev)), None)
      else Reaction(ui, None)
    case _ => Reaction(ui.(state := ReduceEvent(ui.state, ev)), None)
  }

  /** With auto-allow on and an `allow*` option offered, the request is answered and never shown. */
  lemma AutoAllowNeverShown(ui: Ui, rid: string, p: PermissionParams)
    requires ui.autoAllow && exists j :: 0 <= j < |p.options| && IsAllow(p.options[j])
    ensures OnEvent(ui, PermissionRequest(rid, p)).response.Some?
    ensures OnEvent(ui, PermissionRequest(rid, p)).ui.state.permissionRequest == ui.state.permissionRequest
  {
  }

  /** A request nothing answers reaches the reducer and becomes the pending request on screen. */
  lemma UnansweredRequestShown(ui: Ui, rid: string, p: PermissionParams)
    requires AutoResolve(ui.autoAllow, ui.remembered, rid, p).None?
    ensures var pr := OnEvent(ui, PermissionRequest(rid, p)).ui.state.permissionRequest;
      pr.Some? && pr.value.requestId == rid && pr.value.options == p.options
  {
  }

  /** An unused pre-warmed session's updates reach the reducer exactly when they are one of the five metadata kinds. */
  lemma PreWarmFilter(ui: Ui, u: SessionUpdate)
    requires ui.preWarmed.Some? && !ui.preWarmed.value.used
    ensures var ev := SessionUpdateEvent(ui.preWarmed.value.sessionId, u);
      UpdateKind(u) in PreWarmKinds ==> OnEvent(ui, ev).ui.state == ApplyUpdate(ui.state, u)
    ensures var ev := SessionUpdateEvent(ui.preWarmed.value.sessionId, u);
      UpdateKind(u) !in PreWarmKinds ==> OnEvent(ui, ev).ui.state == ui.state
  {
    var ev := SessionUpdateEvent(ui.preWarmed.value.sessionId, u);
    var passes := PassesPreWarm(ui.preWarmed, ui.preWarmed.value.sessionId, UpdateKind(u));
    assert passes <==> UpdateKind(u) in PreWarmKinds;
    if passes {
      assert OnEvent(ui, ev).ui.state == ReduceEvent(ui.state, ev);
    } else {
      assert OnEvent(ui, ev) == Reaction(ui, None);
    }
  }

  /** An update for any session other than an unused pre-warmed one always reaches the reducer. */
  lemma OrdinaryUpdateReduced(ui: Ui, sid: string, u: SessionUpdate)
    requires ui.preWarmed.None? || ui.preWarmed.value.used || sid != ui.preWarmed.value.sessionId
    ensures OnEvent(ui, SessionUpdateEvent(sid, u)).ui.state == ApplyUpdate(ui.state, u)
    ensures OnEvent(ui, SessionUpdateEvent(sid, u)).ui.status == ui.status
  {
    assert PassesPreWarm(ui.preWarmed, sid, UpdateKind(u));
  }

  /**
   * `respondPermission`: cancelled when forced or without an option; a selection is remembered
   * for the request's tool kind only when asked to and the kind is a non-empty string; once the
   * host accepts the answer the flag and the request are cleared. `delivered` is false when the
   * host call throws, in which case nothing after the remembering happens.
   */
  function RespondPermission(ui: Ui, option: Option<PermissionOption>, forceCancelled: bool, delivered: bool)
    : (r: Reaction)
    ensures ui.state.permissionRequest.None? ==> r == Reaction(ui, None)
    ensures ui.state.permissionRequest.Some? ==>
      && r.response.Some?
      && r.response.value.requestId == ui.state.permissionRequest.value.requestId
      && (r.response.value.outcome.Cancelled? <==> forceCancelled || option.None?)
      && (r.response.value.outcome.Selected? ==> r.response.value.outcome.optionId == option.value.optionId)
    ensures delivered && ui.state.permissionRequest.Some? ==>
      !r.ui.rememberChoice && r.ui.state == ui.state.(permissionRequest := None)
    ensures !delivered ==> r.ui.state == ui.state && r.ui.rememberChoice == ui.rememberChoice
    ensures forall k :: k in ui.remembered ==> k in r.ui.remembered
    ensures forall k :: k in r.ui.remembered && r.ui.remembered[k] != Lookup(ui.remembered, k).GetOr("") ==>
      && ui.state.permissionRequest.Some? && ui.rememberChoice && !forceCancelled && option.Some?
      && ui.state.permissionRequest.value.toolKind == Some(k) && |k| > 0
      && r.ui.remembered[k] == option.value.optionId
    ensures r.ui.autoAllow == ui.autoAllow && r.ui.preWarmed == ui.preWarmed && r.ui.status == ui.status
  {
    match ui.state.permissionRequest
    case None => Reaction(ui, None)
    case Some(pr) =>
      var outcome := if forceCancelled || option.None? then Cancelled else Selected(option.value.optionId);
      var remember := outcome.Selected? && ui.rememberChoice && pr.toolKind.Some? && |pr.toolKind.value| > 0;
      var remembered := if remember then ui.remembered[pr.toolKind.value := option.value.optionId] else ui.remembered;
      var ui1 := ui.(remembered := remembered);
      var ui2 := if delivered then ui1.(rememberChoice := false, state := ui1.state.(permissionRequest := None)) else ui1;
      Reaction(ui2, Some(Response(pr.requestId, outcome)))
  }

  /** Remembering the kind `k` keys the remembered choice exactly as the next request of that kind looks it up. */
  lemma RememberedKeyMatches(toolCall: ToolCallRef, k: string)
    requires toolCall.kind == Some(k) && |k| > 0
    ensures KindKey(Some(toolCall)) == k
  {
  }

  /**
   * Remember, then reuse: after the user picks option `o` with "remember" checked for a request of
   * kind `k`, a later request of kind `k` that offers `o` is answered with `o` without being shown,
   * unless auto-allow answers it first.
   */
  lemma RememberedChoiceAnswersNext(ui: Ui, o: PermissionOption, rid: string, p: PermissionParams, k: string)
    requires ui.state.permissionRequest.Some? && ui.state.permissionRequest.value.toolKind == Some(k) && |k| > 0
    requires ui.rememberChoice && !ui.autoAllow
    requires p.toolCall.Some? && p.toolCall.value.kind == Some(k)
    requires exists j :: 0 <= j < |p.options| && p.options[j].optionId == o.optionId
    ensures var after := RespondPermission(ui, Some(o), false, true).ui;
      OnEvent(after, PermissionRequest(rid, p)) == Reaction(after, Some(Response(rid, Selected(o.optionId))))
  {
    var after := RespondPermission(ui, Some(o), false, true).ui;
    RespondRemembers(ui, o, k);
    RememberedKeyMatches(p.toolCall.value, k);
    RememberedAnswer(after, rid, p, o.optionId);
  }

  /** Answering with "remember" checked stores the chosen option under the request's tool kind. */
  lemma RespondRemembers(ui: Ui, o: PermissionOption, k: string)
    requires ui.state.permissionRequest.Some? && ui.state.permissionRequest.value.toolKind == Some(k) && |k| > 0
    requires ui.rememberChoice
    ensures var after := RespondPermission(ui, Some(o), false, true).ui;
      after.remembered == ui.remembered[k := o.optionId] && after.autoAllow == ui.autoAllow
  {
  }

  lemma RememberedAnswer(ui: Ui, rid: string, p: PermissionParams, id: string)
    requires !ui.autoAllow && KindKey(p.toolCall) in ui.remembered && ui.remembered[KindKey(p.toolCall)] == id
    requires exists j :: 0 <= j < |p.options| && p.options[j].optionId == id
    ensures OnEvent(ui, PermissionRequest(rid, p)) == Reaction(ui, Some(Response(rid, Selected(id))))
  {
    var answer := AutoResolve(ui.autoAllow, ui.remembered, rid, p);
    assert answer == Some(Response(rid, Selected(id)));
  }

}

=== FILE: framing.dfy ===
/**
 * The newline-delimited framer both ends of the link use: text accumulates in a buffer,
 * every complete line is cut at `\n`, trimmed, and dispatched unless empty; the
 * unterminated tail stays buffered.
 */
module Framing {
  import opened Common
  import opened Strings
  import opened Json

  /** The lines a buffer yields and the tail it keeps. */
  datatype Framed = Framed(lines: seq<string>, rest: string)

  /** What a dispatched line looks like: non-empty, trimmed, one line. */
  predicate CleanLine(l: string) {
    |l| > 0 && Trim(l) == l && '\n' !in l
  }

  /** What the framer dispatches for one raw line: its trimmed text, unless that is empty. */
  function Emit(raw: string): seq<string> {
    if |Trim(raw)| > 0 then [Trim(raw)] else []
  }

  /** Framing `s` when the partial line `cur` is already buffered. */
  function FrameFrom(cur: string, s: string): Framed
    decreases |s|
  {
    if |s| == 0 then Framed([], cur)
    else if s[0] == '\n' then
      var tail := FrameFrom("", s[1..]);
      Framed(Emit(cur) + tail.lines, tail.rest)
    else FrameFrom(cur + [s[0]], s[1..])
  }

  /** Reference framer: split `s` at every `\n`, trim, drop empty lines, keep the tail. */
  function Frame(s: string): Framed {
    FrameFrom("", s)
  }

  /** Every dispatched line is non-empty, trimmed and free of line feeds; the tail holds no line feed. */
  lemma {:induction false} FrameFromClean(cur: string, s: string)
    requires '\n' !in cur
    ensures '\n' !in FrameFrom(cur, s).rest
    ensures forall k :: 0 <= k < |FrameFrom(cur, s).lines| ==> CleanLine(FrameFrom(cur, s).lines[k])
    decreases |s|
  {
    if |s| > 0 {
      if s[0] == '\n' {
        var tail := FrameFrom("", s[1..]);
        FrameFromClean("", s[1..]);
        EmitClean(cur);
        AllConcat(Emit(cur), tail.lines, CleanLine);
      } else {
        assert '\n' !in cur + [s[0]];
        FrameFromClean(cur + [s[0]], s[1..]);
      }
    }
  }

  /** A property every element of two sequences has, every element of their concatenation has. */
  lemma AllConcat(a: seq<string>, b: seq<string>, p: string -> bool)
    requires forall k :: 0 <= k < |a| ==> p(a[k])
    requires forall k :: 0 <= k < |b| ==> p(b[k])
    ensures forall k :: 0 <= k < |a + b| ==> p((a + b)[k])
  {
    forall k | 0 <= k < |a + b|
      ensures p((a + b)[k])
    {
      if k < |a| {
        assert (a + b)[k] == a[k];
      } else {
        assert (a + b)[k] == b[k - |a|];
      }
    }
  }

  /** The lines one raw line yields are clean. */
  lemma EmitClean(raw: string)
    requires '\n' !in raw
    ensures forall k :: 0 <= k < |Emit(raw)| ==> CleanLine(Emit(raw)[k])
  {
    TrimNoChar(raw, '\n');
    TrimIdempotent(raw);
  }

  lemma FrameClean(s: string)
    ensures '\n' !in Frame(s).rest
    ensures forall k :: 0 <= k < |Frame(s).lines| ==> CleanLine(Frame(s).lines[k])
  {
    FrameFromClean("", s);
  }

  /** Text with no line feed is only buffered: it yields nothing and becomes the tail. */
  lemma {:induction false} FrameFromNoNewline(cur: string, s: string)
    requires '\n' !in cur && '\n' !in s
    ensures FrameFrom(cur, s) == Framed([], cur + s)
    decreases |s|
  {
    if |s| > 0 {
      assert s == [s[0]] + s[1..];
      FrameFromNoNewline(cur + [s[0]], s[1..]);
      assert cur + [s[0]] + s[1..] == cur + s;
    }
  }

  lemma FrameNoNewline(s: string)
    requires '\n' !in s
    ensures Frame(s) == Framed([], s)
  {
    FrameFromNoNewline("", s);
  }

  /** One complete line: the buffered part and the new text are dispatched together, then framing restarts. */
  lemma {:induction false} FrameFromLine(cur: string, l: string, t: string)
    requires '\n' !in cur && '\n' !in l
    ensures FrameFrom(cur, l + "\n" + t).lines == Emit(cur + l) + FrameFrom("", t).lines
    ensures FrameFrom(cur, l + "\n" + t).rest == FrameFrom("", t).rest
    decreases |l|
  {
    var s := l + "\n" + t;
    if |l| == 0 {
      assert s == "\n" + t;
      assert cur + l == cur;
    } else {
      assert l[0] in l;
      assert s[0] == l[0];
      assert s[1..] == l[1..] + "\n" + t;
      FrameFromLine(cur + [l[0]], l[1..], t);
      assert cur + [l[0]] + l[1..] == cur + l;
    }
  }

  lemma FrameLine(l: string, t: string)
    requires '\n' !in l
    ensures Frame(l + "\n" + t).lines == Emit(l) + Frame(t).lines
    ensures Frame(l + "\n" + t).rest == Frame(t).rest
  {
    FrameFromLine("", l, t);
    assert "" + l == l;
  }

  /** A single terminated line: its trimmed text is dispatched and nothing stays buffered. */
  lemma FrameLastLine(l: string)
    requires '\n' !in l
    ensures Frame(l + "\n") == Framed(Emit(l), "")
  {
    FrameLine(l, "");
    assert l + "\n" + "" == l + "\n";
    FrameNoNewline("");
  }

  /** A line that is already clean is dispatched exactly as written. */
  lemma FrameCleanLine(l: string, t: string)
    requires CleanLine(l)
    ensures Frame(l + "\n" + t) == Framed([l] + Frame(t).lines, Frame(t).rest)
  {
    FrameLine(l, t);
  }

  /**
   * Chunking does not matter: framing `a` and then its tail followed by `b` yields the
   * same lines and tail as framing `a + b` at once.
   */
  lemma {:induction false} FrameFromAppend(cur: string, a: string, b: string)
    requires '\n' !in cur
    ensures FrameFrom(cur, a + b).lines == FrameFrom(cur, a).lines + FrameFrom(FrameFrom(cur, a).rest, b).lines
    ensures FrameFrom(cur, a + b).rest == FrameFrom(FrameFrom(cur, a).rest, b).rest
    decreases |a|
  {
    if |a| == 0 {
      assert a + b == b;
    } else {
      assert (a + b)[0] == a[0];
      assert (a + b)[1..] == a[1..] + b;
      if a[0] == '\n' {
        FrameFromAppend("", a[1..], b);
      } else {
        FrameFromAppend(cur + [a[0]], a[1..], b);
      }
    }
  }

  /** A buffered tail never holds a line feed, so re-framing it from scratch is the same as resuming. */
  lemma {:induction false} FrameFromTail(cur: string, b: string)
    requires '\n' !in cur
    ensures FrameFrom(cur, b) == Frame(cur + b)
  {
    FrameFromAppend("", cur, b);
    FrameFromNoNewline("", cur);
    assert "" + cur == cur;
  }

  lemma FrameAppend(a: string, b: string)
    ensures Frame(a + b).lines == Frame(a).lines + Frame(Frame(a).rest + b).lines
    ensures Frame(a + b).rest == Frame(Frame(a).rest + b).rest
  {
    FrameFromAppend("", a, b);
    FrameClean(a);
    FrameFromTail(Frame(a).rest, b);
  }

  /** Cutting a buffer at its first line feed: the line before it, then the rest framed afresh. */
  lemma FrameCut(buf: string, i: nat)
    requires i < |buf| && buf[i] == '\n' && '\n' !in buf[..i]
    ensures Frame(buf).lines == Emit(buf[..i]) + Frame(buf[i + 1..]).lines
    ensures Frame(buf).rest == Frame(buf[i + 1..]).rest
  {
    assert buf == buf[..i] + "\n" + buf[i + 1..];
    FrameLine(buf[..i], buf[i + 1..]);
  }

  /** The loop of `handleStdout` / `readLoop`: append the chunk, then cut lines while a `\n` remains. */
  method FeedChunk(buffer: string, chunk: string) returns (lines: seq<string>, rest: string)
    ensures Framed(lines, rest) == Frame(buffer + chunk)
    ensures '\n' !in rest
    ensures forall k :: 0 <= k < |lines| ==> CleanLine(lines[k])
  {
    ghost var whole := buffer + chunk;
    var buf := buffer + chunk;
    lines := [];
    var idx := IndexOf(buf, '\n');
    while idx.Some?
      invariant idx == IndexOf(buf, '\n')
      invariant Framed(lines + Frame(buf).lines, Frame(buf).rest) == Frame(whole)
      decreases |buf|
    {
      var line := Trim(buf[..idx.value]);
      FeedStep(lines, buf, whole, idx.value);
      if |line| > 0 {
        lines := lines + [line];
      }
      buf := buf[idx.value + 1..];
      idx := IndexOf(buf, '\n');
    }
    FrameNoNewline(buf);
    rest := buf;
    FrameClean(whole);
  }

  /** One turn of the loop: the line before the first `\n` moves from the buffer to the output. */
  lemma FeedStep(lines: seq<string>, buf: string, whole: string, i: nat)
    requires i < |buf| && buf[i] == '\n' && '\n' !in buf[..i]
    requires Framed(lines + Frame(buf).lines, Frame(buf).rest) == Frame(whole)
    ensures Framed(lines + Emit(buf[..i]) + Frame(buf[i + 1..]).lines, Frame(buf[i + 1..]).rest) == Frame(whole)
  {
    FrameCut(buf, i);
    assert lines + (Emit(buf[..i]) + Frame(buf[i + 1..]).lines) == lines + Emit(buf[..i]) + Frame(buf[i + 1..]).lines;
  }

  function Concat(chunks: seq<string>): string
    decreases |chunks|
  {
    if |chunks| == 0 then "" else chunks[0] + Concat(chunks[1..])
  }

  /** Feeding chunks one at a time, carrying the buffer from each step to the next. */
  function FeedAll(buffer: string, chunks: seq<string>): Framed
    decreases |chunks|
  {
    if |chunks| == 0 then Framed([], buffer)
    else
      var f := Frame(buffer + chunks[0]);
      var g := FeedAll(f.rest, chunks[1..]);
      Framed(f.lines + g.lines, g.rest)
  }

  /** Any chunking of a stream dispatches exactly the lines of the whole stream, in order. */
  lemma {:induction false} FeedAllIsFrame(buffer: string, chunks: seq<string>)
    requires '\n' !in buffer
    ensures FeedAll(buffer, chunks) == Frame(buffer + Concat(chunks))
    decreases |chunks|
  {
    if |chunks| == 0 {
      FrameNoNewline(buffer);
      assert buffer + Concat(chunks) == buffer;
    } else {
      var f := Frame(buffer + chunks[0]);
      FrameClean(buffer + chunks[0]);
      FeedAllIsFrame(f.rest, chunks[1..]);
      assert buffer + Concat(chunks) == (buffer + chunks[0]) + Concat(chunks[1..]);
      FrameAppend(buffer + chunks[0], Concat(chunks[1..]));
    }
  }

  /** The bytes a writer emits for a run of payloads: each serialized value followed by `\n`. */
  function Wire(payloads: seq<Json>): string
    decreases |payloads|
  {
    if |payloads| == 0 then "" else Serialize(payloads[0]) + "\n" + Wire(payloads[1..])
  }

  function SerializeAll(payloads: seq<Json>): seq<string>
    decreases |payloads|
  {
    if |payloads| == 0 then [] else [Serialize(payloads[0])] + SerializeAll(payloads[1..])
  }

  /** What one end writes, the other end's framer reads back line for line, with nothing left over. */
  lemma {:induction false} WireRoundTrip(payloads: seq<Json>)
    ensures Frame(Wire(payloads)) == Framed(SerializeAll(payloads), "")
    decreases |payloads|
  {
    if |payloads| > 0 {
      var p := Serialize(payloads[0]);
      SerializeNoNewline(payloads[0]);
      SerializeTrimmed(payloads[0]);
      SerializeEnds(payloads[0]);
      WireRoundTrip(payloads[1..]);
      FrameCleanLine(p, Wire(payloads[1..]));
    }
  }
}

=== FILE: host_client.dfy ===
/**
 * The desktop host's JSON-RPC client for the agent subprocess. The child process is reduced to
 * its generation (which start spawned it) and whether its stdin accepts writes; listeners,
 * Promise settlement and process signals become recorded effects.
 */
module HostClient {
  import opened Common
  import opened Strings
  import opened Json
  import opened Framing

  /** An attached child process. */
  datatype Child = Child(generation: nat, writable: bool)

  /**
   * `pending` lists the ids of unsettled requests in insertion order (the iteration order of
   * the source's `Map`); `spawned` counts the children started so far.
   */
  datatype Client = Client(
    child: Option<Child>,
    buffer: string,
    nextId: int,
    pending: seq<int>,
    permissionRequests: map<string, Json>,
    spawned: nat)

  const Initial := Client(None, "", 1, [], map[], 0)

  /** Events forwarded to the renderer, with payloads still raw JSON. */
  datatype HostEvent =
    | HostConnected(command: string, cwd: Json)
    | HostDisconnected(reason: string)
    | HostStopped
    | HostStderr(text: string)
    | HostProtocolLog(text: string)
    | HostSessionUpdate(params: Option<Json>)
    | HostPermissionRequest(requestId: string, params: Option<Json>)
    | HostNotification(payload: Json)

  datatype Effect =
    | Emit(event: HostEvent)
    | Write(line: string)
    | Resolve(id: int, result: Option<Json>)
    | Reject(id: int, message: string)
    | Kill(generation: nat)

  /** The client after a step, what the step did, and the message it threw, if any. */
  datatype Step = Step(client: Client, effects: seq<Effect>, thrown: Option<string>)

  const NotRunning := "ACP process is not running"

  // ---------------------------------------------------------------- invariant

  predicate Increasing(p: seq<int>) {
    forall i, j :: 0 <= i < j < |p| ==> p[i] < p[j]
  }

  /**
   * The client's invariant: the buffer holds at most a partial line, waiter ids are distinct,
   * increasing and already allocated, nobody waits without a child, and the attached child is
   * one already spawned.
   */
  predicate Valid(c: Client) {
    && '\n' !in c.buffer
    && c.nextId >= 1
    && Increasing(c.pending)
    && (forall i :: 0 <= i < |c.pending| ==> 1 <= c.pending[i] < c.nextId)
    && (c.child.None? ==> |c.pending| == 0)
    && (c.child.Some? ==> c.child.value.generation < c.spawned)
  }

  /** The first occurrence of `n` removed: `Map.prototype.delete`. */
  function Remove(p: seq<int>, n: int): (r: seq<int>)
    ensures multiset(r) == multiset(p) - multiset{n}
    ensures |r| == if n in p then |p| - 1 else |p|
    decreases |p|
  {
    if |p| == 0 then []
    else if p[0] == n then
      assert p == [p[0]] + p[1..];
      p[1..]
    else
      assert p == [p[0]] + p[1..];
      [p[0]] + Remove(p[1..], n)
  }

  /** Removing keeps the waiters in increasing order. */
  lemma {:induction false} RemoveIncreasing(p: seq<int>, n: int)
    requires Increasing(p)
    ensures Increasing(Remove(p, n))
    ensures forall x :: x in Remove(p, n) ==> x in p
    decreases |p|
  {
    RemoveWithin(p, n);
    if |p| > 0 && p[0] != n {
      var r := Remove(p, n);
      var t := Remove(p[1..], n);
      RemoveIncreasing(p[1..], n);
      assert r == [p[0]] + t;
      forall i, j | 0 <= i < j < |r|
        ensures r[i] < r[j]
      {
        assert r[j] == t[j - 1];
        if i > 0 {
          assert r[i] == t[i - 1];
        } else {
          assert t[j - 1] in t;
          HeadBelowTail(p);
        }
      }
    } else if |p| > 0 {
      var r := Remove(p, n);
      assert r == p[1..];
      forall i, j | 0 <= i < j < |r|
        ensures r[i] < r[j]
      {
        assert r[i] == p[i + 1] && r[j] == p[j + 1];
      }
    }
  }

  /** In an increasing sequence the head is below every later element. */
  lemma HeadBelowTail(p: seq<int>)
    requires Increasing(p) && |p| > 0
    ensures forall x :: x in p[1..] ==> p[0] < x
  {
    forall x | x in p[1..]
      ensures p[0] < x
    {
      var m :| 0 <= m < |p| - 1 && p[1..][m] == x;
      assert p[m + 1] == x;
    }
  }

  /** Removing never introduces a waiter. */
  lemma {:induction false} RemoveWithin(p: seq<int>, n: int)
    ensures forall x :: x in Remove(p, n) ==> x in p
    decreases |p|
  {
    if |p| > 0 && p[0] != n {
      RemoveWithin(p[1..], n);
      assert Remove(p, n) == [p[0]] + Remove(p[1..], n);
    }
  }

  // ---------------------------------------------------------------- settlement accounting

  /** The waiter ids a run of effects settles, in order. */
  function SettledIds(es: seq<Effect>): seq<int>
    decreases |es|
  {
    if |es| == 0 then []
    else if es[0].Resolve? || es[0].Reject? then [es[0].id] + SettledIds(es[1..])
    else SettledIds(es[1..])
  }

  lemma {:induction false} SettledIdsAppend(a: seq<Effect>, b: seq<Effect>)
    ensures SettledIds(a + b) == SettledIds(a) + SettledIds(b)
    decreases |a|
  {
    if |a| > 0 {
      assert (a + b)[1..] == a[1..] + b;
      SettledIdsAppend(a[1..], b);
    } else {
      assert a + b == b;
    }
  }

  /**
   * No waiter is lost or settled twice: every waiter present before the step, or `issued` by
   * it, is either still waiting afterwards or settled by one of its effects, exactly once.
   */
  predicate Conserves(c: Client, r: Step, issued: seq<int>) {
    multiset(c.pending) + multiset(issued) == multiset(r.client.pending) + multiset(SettledIds(r.effects))
  }

  /** Rejections for every waiter, in insertion order. */
  function RejectAll(p: seq<int>, message: string): (r: seq<Effect>)
    ensures |r| == |p|
    ensures forall k :: 0 <= k < |p| ==> r[k] == Reject(p[k], message)
  {
    seq(|p|, k requires 0 <= k < |p| => Reject(p[k], message))
  }

  lemma {:induction false} RejectAllSettles(p: seq<int>, message: string)
    ensures SettledIds(RejectAll(p, message)) == p
    decreases |p|
  {
    if |p| > 0 {
      assert RejectAll(p, message)[1..] == RejectAll(p[1..], message);
      RejectAllSettles(p[1..], message);
      assert p == [p[0]] + p[1..];
    }
  }

  // ---------------------------------------------------------------- inbound

  /** The waiter a parsed message answers: its `id` must be a number with a pending waiter. */
  function AnsweredId(c: Client, m: Json): Option<int> {
    var id := Field(m, "id");
    if id.Some? && id.value.JNum? && id.value.n in c.pending then Some(id.value.n) else None
  }

  /** `msg.error.message || "Unknown JSON-RPC error"`, as `new Error(...)` stringifies it. */
  function ErrorMessage(err: Json): (r: string)
    ensures TruthyOpt(Field(err, "message")) ==> r == JsString(Field(err, "message").value)
    ensures !TruthyOpt(Field(err, "message")) ==> r == "Unknown JSON-RPC error"
  {
    var text := Field(err, "message");
    if TruthyOpt(text) then JsString(text.value) else "Unknown JSON-RPC error"
  }

  /**
   * `handleLine`: an unparsable or falsy message becomes a protocol log line; a response settles
   * its waiter; `session/update` and `session/request_permission` (with an id) are routed;
   * anything else is forwarded as a notification.
   */
  function HandleLine(c: Client, line: string, parse: string -> Option<Json>): (r: Step)
    ensures r.thrown.None? && |r.effects| == 1
    ensures r.client == c.(pending := r.client.pending, permissionRequests := r.client.permissionRequests)
  {
    var msg := parse(line);
    if msg.None? || !Truthy(msg.value) then
      Step(c, [Emit(HostProtocolLog(line))], None)
    else
      var m := msg.value;
      var answered := AnsweredId(c, m);
      if answered.Some? then
        var id := answered.value;
        var c' := c.(pending := Remove(c.pending, id));
        var err := Field(m, "error");
        if TruthyOpt(err) then Step(c', [Reject(id, ErrorMessage(err.value))], None)
        else Step(c', [Resolve(id, Field(m, "result"))], None)
      else if Field(m, "method") == Some(JStr("session/update")) then
        Step(c, [Emit(HostSessionUpdate(Field(m, "params")))], None)
      else if Field(m, "method") == Some(JStr("session/request_permission")) && Field(m, "id").Some? then
        var id := Field(m, "id").value;
        Step(c.(permissionRequests := c.permissionRequests[JsString(id) := id]),
             [Emit(HostPermissionRequest(JsString(id), Field(m, "params")))], None)
      else
        Step(c, [Emit(HostNotification(m))], None)
  }

  /** Inbound routing, each case with the condition that selects it. */
  lemma HandleLineRoutes(c: Client, line: string, parse: string -> Option<Json>)
    ensures var r := HandleLine(c, line, parse);
      && (r.effects[0] == Emit(HostProtocolLog(line)) <==> parse(line).None? || !Truthy(parse(line).value))
      && (r.effects[0].Emit? && r.effects[0].event.HostProtocolLog? ==> r.client == c)
      && ((r.effects[0].Resolve? || r.effects[0].Reject?) <==>
            parse(line).Some? && Truthy(parse(line).value) && AnsweredId(c, parse(line).value).Some?)
      && ((r.effects[0].Resolve? || r.effects[0].Reject?) ==>
            && r.effects[0].id in c.pending
            && r.client.pending == Remove(c.pending, r.effects[0].id)
            && r.client.permissionRequests == c.permissionRequests)
      && (r.effects[0].Reject? ==> TruthyOpt(Field(parse(line).value, "error")))
      && (r.effects[0].Resolve? ==> r.effects[0].result == Field(parse(line).value, "result"))
      && (r.effects[0].Emit? ==> r.client.pending == c.pending)
      && (r.effects[0] == Emit(HostNotification(parse(line).GetOr(JNull))) ==> r.client == c)
    ensures var r := HandleLine(c, line, parse);
      parse(line).Some? && Truthy(parse(line).value) ==>
      var m := parse(line).value;
      var answered := AnsweredId(c, m);
      var err := Field(m, "error");
      && (answered.Some? && TruthyOpt(err) ==> r.effects == [Reject(answered.value, ErrorMessage(err.value))])
      && (answered.Some? && !TruthyOpt(err) ==> r.effects == [Resolve(answered.value, Field(m, "result"))])
      && (answered.None? && Field(m, "method") == Some(JStr("session/update")) ==>
            r == Step(c, [Emit(HostSessionUpdate(Field(m, "params")))], None))
      && (answered.None? && Field(m, "method") == Some(JStr("session/request_permission")) && Field(m, "id").Some? ==>
            var id := Field(m, "id").value;
            r == Step(c.(permissionRequests := c.permissionRequests[JsString(id) := id]),
                      [Emit(HostPermissionRequest(JsString(id), Field(m, "params")))], None))
      && (answered.None? && Field(m, "method") != Some(JStr("session/update"))
          && !(Field(m, "method") == Some(JStr("session/request_permission")) && Field(m, "id").Some?) ==>
            r == Step(c, [Emit(HostNotification(m))], None))
  {
  }

  /** A waiter whose id appears once is gone after its response, so a duplicate response is only a notification. */
  lemma DuplicateResponseIgnored(c: Client, line: string, parse: string -> Option<Json>)
    requires Increasing(c.pending)
    requires parse(line).Some? && Truthy(parse(line).value) && AnsweredId(c, parse(line).value).Some?
    ensures var r := HandleLine(c, line, parse);
      !HandleLine(r.client, line, parse).effects[0].Resolve? && !HandleLine(r.client, line, parse).effects[0].Reject?
  {
    var r := HandleLine(c, line, parse);
    var id := r.effects[0].id;
    HandleLineRoutes(c, line, parse);
    RemoveIncreasing(c.pending, id);
    RemovedOnce(c.pending, id);
  }

  lemma RemovedOnce(p: seq<int>, n: int)
    requires Increasing(p)
    ensures n !in Remove(p, n)
  {
    if n in p {
      var i :| 0 <= i < |p| && p[i] == n;
      CountOne(p, n, i);
    }
    assert multiset(Remove(p, n))[n] == 0;
  }

  lemma {:induction false} CountOne(p: seq<int>, n: int, i: nat)
    requires Increasing(p) && i < |p| && p[i] == n
    ensures multiset(p)[n] == 1
    decreases |p|
  {
    assert p == [p[0]] + p[1..];
    if i == 0 {
      assert forall k :: 0 <= k < |p[1..]| ==> p[1..][k] > n;
      assert n !in p[1..];
    } else {
      CountOne(p[1..], n, i - 1);
    }
  }

  /** A response line is routed to its waiter only once; every inbound line keeps the accounting. */
  lemma HandleLineConserves(c: Client, line: string, parse: string -> Option<Json>)
    ensures Conserves(c, HandleLine(c, line, parse), [])
  {
    var r := HandleLine(c, line, parse);
    HandleLineRoutes(c, line, parse);
    if r.effects[0].Resolve? || r.effects[0].Reject? {
      var id := r.effects[0].id;
      assert SettledIds(r.effects) == [id];
      assert id in multiset(c.pending);
      assert multiset(c.pending) == multiset(c.pending) - multiset{id} + multiset{id};
    } else {
      assert SettledIds(r.effects) == [];
    }
  }

  /** The dispatch loop over the complete lines of the buffer. */
  function HandleLines(c: Client, lines: seq<string>, parse: string -> Option<Json>): (r: Step)
    ensures r.thrown.None? && |r.effects| == |lines|
    ensures r.client.buffer == c.buffer && r.client.child == c.child && r.client.nextId == c.nextId
    ensures r.client.spawned == c.spawned
    decreases |lines|
  {
    if |lines| == 0 then Step(c, [], None)
    else
      var h := HandleLine(c, lines[0], parse);
      var t := HandleLines(h.client, lines[1..], parse);
      Step(t.client, h.effects + t.effects, None)
  }

  lemma {:induction false} HandleLinesAppend(c: Client, a: seq<string>, b: seq<string>, parse: string -> Option<Json>)
    ensures var ra := HandleLines(c, a, parse);
      var rb := HandleLines(ra.client, b, parse);
      HandleLines(c, a + b, parse) == Step(rb.client, ra.effects + rb.effects, None)
    decreases |a|
  {
    if |a| == 0 {
      assert a + b == b;
    } else {
      assert (a + b)[0] == a[0];
      assert (a + b)[1..] == a[1..] + b;
      HandleLinesAppend(HandleLine(c, a[0], parse).client, a[1..], b, parse);
    }
  }

  /** Dispatch neither reads nor writes the buffer. */
  lemma {:induction false} HandleLinesBuffer(c: Client, x: string, lines: seq<string>, parse: string -> Option<Json>)
    ensures HandleLines(c.(buffer := x), lines, parse)
      == var r := HandleLines(c, lines, parse); Step(r.client.(buffer := x), r.effects, None)
    decreases |lines|
  {
    if |lines| > 0 {
      HandleLineBuffer(c, x, lines[0], parse);
      HandleLinesBuffer(HandleLine(c, lines[0], parse).client, x, lines[1..], parse);
    }
  }

  lemma HandleLineBuffer(c: Client, x: string, line: string, parse: string -> Option<Json>)
    ensures HandleLine(c.(buffer := x), line, parse)
      == var h := HandleLine(c, line, parse); Step(h.client.(buffer := x), h.effects, None)
  {
  }

  lemma {:induction false} HandleLinesConserves(c: Client, lines: seq<string>, parse: string -> Option<Json>)
    ensures Conserves(c, HandleLines(c, lines, parse), [])
    decreases |lines|
  {
    if |lines| > 0 {
      var h := HandleLine(c, lines[0], parse);
      var t := HandleLines(h.client, lines[1..], parse);
      HandleLineConserves(c, lines[0], parse);
      HandleLinesConserves(h.client, lines[1..], parse);
      SettledIdsAppend(h.effects, t.effects);
      assert multiset(c.pending) == multiset(h.client.pending) + multiset(SettledIds(h.effects));
      assert multiset(h.client.pending) == multiset(t.client.pending) + multiset(SettledIds(t.effects));
      assert HandleLines(c, lines, parse) == Step(t.client, h.effects + t.effects, None);
    }
  }

  /** `handleStdout`: buffer the chunk, then dispatch every complete line it finished. */
  function HandleStdout(c: Client, chunk: string, parse: string -> Option<Json>): (r: Step)
    ensures r.thrown.None?
    ensures r.client.buffer == Frame(c.buffer + chunk).rest && '\n' !in r.client.buffer
    ensures |r.effects| == |Frame(c.buffer + chunk).lines|
  {
    FrameClean(c.buffer + chunk);
    var f := Frame(c.buffer + chunk);
    HandleLines(c.(buffer := f.rest), f.lines, parse)
  }

  /** The dispatched lines are exactly the framed lines of the buffered text, one effect per line. */
  lemma HandleStdoutDispatches(c: Client, chunk: string, parse: string -> Option<Json>)
    ensures var f := Frame(c.buffer + chunk);
      var r := HandleStdout(c, chunk, parse);
      && r == (var h := HandleLines(c, f.lines, parse); Step(h.client.(buffer := f.rest), h.effects, None))
      && Conserves(c, r, [])
  {
    var f := Frame(c.buffer + chunk);
    HandleLinesBuffer(c, f.rest, f.lines, parse);
    HandleLinesConserves(c, f.lines, parse);
  }

  /** Chunk boundaries do not matter: feeding `a` then `b` does what feeding `a + b` does. */
  lemma HandleStdoutChunking(c: Client, a: string, b: string, parse: string -> Option<Json>)
    requires '\n' !in c.buffer
    ensures var r1 := HandleStdout(c, a, parse);
      var r2 := HandleStdout(r1.client, b, parse);
      HandleStdout(c, a + b, parse) == Step(r2.client, r1.effects + r2.effects, None)
  {
    var fa := Frame(c.buffer + a);
    var r1 := HandleStdout(c, a, parse);
    var fb := Frame(fa.rest + b);
    assert c.buffer + (a + b) == (c.buffer + a) + b;
    FrameAppend(c.buffer + a, b);
    HandleStdoutDispatches(c, a, parse);
    HandleStdoutDispatches(r1.client, b, parse);
    HandleStdoutDispatches(c, a + b, parse);
    var h1 := HandleLines(c, fa.lines, parse);
    HandleLinesBuffer(h1.client, fa.rest, fb.lines, parse);
    HandleLinesAppend(c, fa.lines, fb.lines, parse);
  }

  // ---------------------------------------------------------------- outbound

  /** `send`: refuses without a writable child, otherwise writes one JSON text and a line feed. */
  function Send(c: Client, payload: Json): (r: Step)
    ensures r.client == c
    ensures r.thrown.Some? <==> c.child.None? || !c.child.value.writable
    ensures r.thrown.Some? ==> r.thrown.value == NotRunning && r.effects == []
    ensures r.thrown.None? ==> r.effects == [Write(Serialize(payload) + "\n")]
  {
    if c.child.None? || !c.child.value.writable then Step(c, [], Some(NotRunning))
    else Step(c, [Write(Serialize(payload) + "\n")], None)
  }

  /** `params` is left out of the serialized object when it is `undefined`. */
  function ParamsMember(params: Option<Json>): seq<Member> {
    if params.Some? then [Member("params", params.value)] else []
  }

  function RequestPayload(id: int, name: string, params: Option<Json>): Json {
    JObj([Member("jsonrpc", JStr("2.0")), Member("id", JNum(id)), Member("method", JStr(name))] + ParamsMember(params))
  }

  function NotificationPayload(name: string, params: Option<Json>): Json {
    JObj([Member("jsonrpc", JStr("2.0")), Member("method", JStr(name))] + ParamsMember(params))
  }

  /**
   * `request`: the id is taken and `seq` advanced before sending, so a refused send still
   * consumes the id; only a sent request gets a waiter.
   */
  function Request(c: Client, name: string, params: Option<Json>): (r: Step)
    ensures r.client.nextId == c.nextId + 1
    ensures r.thrown == Send(c, JNull).thrown
    ensures r.thrown.Some? ==> r.client == c.(nextId := c.nextId + 1) && r.effects == []
    ensures r.thrown.None? ==>
      && r.client == c.(nextId := c.nextId + 1, pending := c.pending + [c.nextId])
      && r.effects == [Write(Serialize(RequestPayload(c.nextId, name, params)) + "\n")]
  {
    var id := c.nextId;
    var c' := c.(nextId := c.nextId + 1);
    var s := Send(c', RequestPayload(id, name, params));
    if s.thrown.Some? then s
    else Step(c'.(pending := c'.pending + [id]), s.effects, None)
  }

  /** `notify`: one write, no id, no waiter. */
  function Notify(c: Client, name: string, params: Option<Json>): (r: Step)
    ensures r.client == c
    ensures r.thrown.Some? <==> c.child.None? || !c.child.value.writable
    ensures r.thrown.Some? ==> r.thrown.value == NotRunning && r.effects == []
    ensures r.thrown.None? ==> r.effects == [Write(Serialize(NotificationPayload(name, params)) + "\n")]
  {
    Send(c, NotificationPayload(name, params))
  }

  /** Request ids are never reused: consecutive requests carry consecutive ids, whether or not they were sent. */
  lemma RequestIdsIncrease(c: Client, m1: string, p1: Option<Json>, m2: string, p2: Option<Json>)
    requires Valid(c)
    ensures var r1 := Request(c, m1, p1);
      var r2 := Request(r1.client, m2, p2);
      && r2.client.nextId == c.nextId + 2
      && (r1.thrown.None? && r2.thrown.None? ==> r2.client.pending == c.pending + [c.nextId, c.nextId + 1])
      && (r1.thrown.None? ==> c.nextId !in c.pending)
  {
  }

  function PermissionResponse(rpcId: Json, outcome: Json): Json {
    JObj([Member("jsonrpc", JStr("2.0")), Member("id", rpcId), Member("result", JObj([Member("outcome", outcome)]))])
  }

  /**
   * `respondPermission`: an unknown id throws; a known one is forgotten before the send, so it
   * is forgotten even when the send throws.
   */
  function RespondPermission(c: Client, requestId: string, outcome: Json): (r: Step)
    ensures requestId !in c.permissionRequests ==>
      r == Step(c, [], Some("Unknown permission request id: " + requestId))
    ensures requestId in c.permissionRequests ==>
      && r.client == c.(permissionRequests := c.permissionRequests - {requestId})
      && (r.thrown.None? ==>
            r.effects == [Write(Serialize(PermissionResponse(c.permissionRequests[requestId], outcome)) + "\n")])
  {
    if requestId !in c.permissionRequests then Step(c, [], Some("Unknown permission request id: " + requestId))
    else
      var rpcId := c.permissionRequests[requestId];
      Send(c.(permissionRequests := c.permissionRequests - {requestId}), PermissionResponse(rpcId, outcome))
  }

  /** Answering the same request twice: the second answer throws and writes nothing. */
  lemma RespondPermissionOnce(c: Client, requestId: string, o1: Json, o2: Json)
    ensures var r1 := RespondPermission(c, requestId, o1);
      var r2 := RespondPermission(r1.client, requestId, o2);
      r2.thrown.Some? && r2.effects == []
  {
  }

  /** A recorded request is answered with the JSON-RPC id it arrived with, as a `result` of `{outcome}`. */
  lemma PermissionRoundTrip(c: Client, line: string, parse: string -> Option<Json>, outcome: Json)
    requires c.child.Some? && c.child.value.writable
    requires parse(line).Some? && Truthy(parse(line).value) && AnsweredId(c, parse(line).value).None?
    requires Field(parse(line).value, "method") == Some(JStr("session/request_permission"))
    requires Field(parse(line).value, "id").Some?
    ensures var h := HandleLine(c, line, parse);
      var id := Field(parse(line).value, "id").value;
      && h.effects == [Emit(HostPermissionRequest(JsString(id), Field(parse(line).value, "params")))]
      && RespondPermission(h.client, JsString(id), outcome).effects
           == [Write(Serialize(PermissionResponse(id, outcome)) + "\n")]
  {
  }

  // ---------------------------------------------------------------- lifecycle

  /** The launch configuration the renderer passes to `start`. */
  datatype LaunchConfig = LaunchConfig(
    launchCommand: Option<string>,
    command: Option<Json>,
    args: Option<Json>,
    cwd: Option<Json>)

  /**
   * The shell command `start` spawns: the trimmed `launchCommand` when non-empty, else the
   * legacy `command` with its arguments (or `--acp`), else `buffer --acp`. Never empty.
   */
  function LaunchCommand(config: Option<LaunchConfig>): (r: string)
    ensures |r| > 0
  {
    var direct := if config.Some? && config.value.launchCommand.Some? then Trim(config.value.launchCommand.value) else "";
    if |direct| > 0 then direct
    else if config.Some? && TruthyOpt(config.value.command) then
      var args := config.value.args;
      JsString(config.value.command.value) + " "
        + (if args.Some? && args.value.JArr? then JoinValues(args.value.items, " ") else "--acp")
    else "buffer --acp"
  }

  /** Precedence of the launch command sources. */
  lemma LaunchCommandPrecedence(config: Option<LaunchConfig>)
    ensures config.None? ==> LaunchCommand(config) == "buffer --acp"
    ensures config.Some? && config.value.launchCommand.Some? && |Trim(config.value.launchCommand.value)| > 0 ==>
      LaunchCommand(config) == Trim(config.value.launchCommand.value)
    ensures (config.Some? && (config.value.launchCommand.None? || |Trim(config.value.launchCommand.value)| == 0)
             && TruthyOpt(config.value.command)) ==>
      var args := config.value.args;
      && (args.Some? && args.value.JArr? ==>
            LaunchCommand(config) == JsString(config.value.command.value) + " " + JoinValues(args.value.items, " "))
      && (!(args.Some? && args.value.JArr?) ==>
            LaunchCommand(config) == JsString(config.value.command.value) + " --acp")
    ensures (config.Some? && (config.value.launchCommand.None? || |Trim(config.value.launchCommand.value)| == 0)
             && !TruthyOpt(config.value.command)) ==> LaunchCommand(config) == "buffer --acp"
  {
    if config.Some? && TruthyOpt(config.value.command) {
      var cmd := JsString(config.value.command.value);
      assert cmd + " " + "--acp" == cmd + " --acp";
    }
  }

  /** `stop` as written: kill and forget, dropping every waiter without settling it. */
  function StopAsWritten(c: Client): (r: Step)
    ensures c.child.None? ==> r == Step(c, [], None)
    ensures c.child.Some? ==>
      r.client == c.(child := None, pending := [], permissionRequests := map[], buffer := "")
      && r.effects == [Kill(c.child.value.generation), Emit(HostStopped)]
  {
    if c.child.None? then Step(c, [], None)
    else
      Step(c.(child := None, pending := [], permissionRequests := map[], buffer := ""),
           [Kill(c.child.value.generation), Emit(HostStopped)], None)
  }

  const StoppedMessage := "ACP process stopped"

  /** `stop` with its waiters rejected before they are forgotten. */
  function Stop(c: Client): (r: Step)
    ensures r.thrown.None?
    ensures c.child.None? ==> r == Step(c, [], None)
    ensures c.child.Some? ==>
      && r.client == c.(child := None, pending := [], permissionRequests := map[], buffer := "")
      && |r.effects| == |c.pending| + 2
      && r.effects[0] == Kill(c.child.value.generation)
      && (forall k :: 0 <= k < |c.pending| ==> r.effects[k + 1] == Reject(c.pending[k], StoppedMessage))
      && Last(r.effects) == Emit(HostStopped)
    ensures Conserves(c, r, [])
  {
    if c.child.None? then Step(c, [], None)
    else
      var es := [Kill(c.child.value.generation)] + RejectAll(c.pending, StoppedMessage) + [Emit(HostStopped)];
      RejectAllSettles(c.pending, StoppedMessage);
      SettledIdsAppend([Kill(c.child.value.generation)], RejectAll(c.pending, StoppedMessage));
      SettledIdsAppend([Kill(c.child.value.generation)] + RejectAll(c.pending, StoppedMessage), [Emit(HostStopped)]);
      Step(c.(child := None, pending := [], permissionRequests := map[], buffer := ""), es, None)
  }


  /** The working directory `start` spawns in: `config?.cwd || process.cwd()`. */
  function LaunchCwd(config: Option<LaunchConfig>, processCwd: string): (r: Json)
    ensures config.Some? && TruthyOpt(config.value.cwd) ==> r == config.value.cwd.value
    ensures !(config.Some? && TruthyOpt(config.value.cwd)) ==> r == JStr(processCwd)
  {
    if config.Some? && TruthyOpt(config.value.cwd) then config.value.cwd.value else JStr(processCwd)
  }

  /** Spawning the next child after `stopped`: attach it and report `connected`. */
  function Spawn(s: Step, config: Option<LaunchConfig>, processCwd: string): Step {
    Step(s.client.(child := Some(Child(s.client.spawned, true)), spawned := s.client.spawned + 1),
         s.effects + [Emit(HostConnected(LaunchCommand(config), LaunchCwd(config, processCwd)))], None)
  }

  /**
   * `start` as written: the `stop` it calls drops any waiters silently, then the next generation
   * is spawned and `connected` reported.
   */
  function Start(c: Client, config: Option<LaunchConfig>, processCwd: string): (r: Step)
    ensures r.thrown.None?
    ensures r.client.child == Some(Child(c.spawned, true)) && r.client.spawned == c.spawned + 1
    ensures |r.effects| > 0 && Last(r.effects) == Emit(HostConnected(LaunchCommand(config), LaunchCwd(config, processCwd)))
    ensures c.child.Some? ==> r.effects[..|r.effects| - 1] == [Kill(c.child.value.generation), Emit(HostStopped)]
    ensures c.child.None? ==> |r.effects| == 1 && r.client == c.(child := r.client.child, spawned := r.client.spawned)
    ensures r.client.nextId == c.nextId
    ensures c.child.Some? ==> r.client.pending == [] && r.client.permissionRequests == map[]
    ensures r.client.buffer == if c.child.Some? then "" else c.buffer
  {
    var s := StopAsWritten(c);
    var r := Spawn(s, config, processCwd);
    assert r.effects[..|r.effects| - 1] == s.effects;
    r
  }

  /** `start` over the corrected `stop`: every waiter of the old child is rejected before the restart. */
  function StartCorrected(c: Client, config: Option<LaunchConfig>, processCwd: string): (r: Step)
    ensures r.thrown.None?
    ensures r.client.child == Some(Child(c.spawned, true)) && r.client.spawned == c.spawned + 1
    ensures |r.effects| > 0 && Last(r.effects) == Emit(HostConnected(LaunchCommand(config), LaunchCwd(config, processCwd)))
    ensures r.effects[..|r.effects| - 1] == Stop(c).effects
    ensures c.child.Some? ==> r.client.pending == []
    ensures Conserves(c, r, [])
  {
    var s := Stop(c);
    var r := Spawn(s, config, processCwd);
    assert r.effects[..|r.effects| - 1] == s.effects;
    SettledIdsAppend(s.effects, [Emit(HostConnected(LaunchCommand(config), LaunchCwd(config, processCwd)))]);
    r
  }

  const ExitPrefix := "ACP process exited (code="
  const SignalLabel := ", signal="

  /** `ACP process exited (code=..., signal=...)`, with `String(null)` for a missing code or signal. */
  function ExitMessage(code: Json, signal: Json): (r: string)
    ensures var n := |ExitPrefix| + |JsString(code)|;
      && |r| == n + |SignalLabel| + |JsString(signal)| + 1
      && r[..|ExitPrefix|] == ExitPrefix
      && r[|ExitPrefix|..n] == JsString(code)
      && r[n..n + |SignalLabel|] == SignalLabel
      && r[n + |SignalLabel|..|r| - 1] == JsString(signal)
      && r[|r| - 1] == ')'
  {
    var a := ExitPrefix + JsString(code);
    var b := a + SignalLabel;
    var d := b + JsString(signal);
    var r := d + ")";
    assert r[..|ExitPrefix|] == a[..|ExitPrefix|];
    assert r[|ExitPrefix|..|a|] == a[|ExitPrefix|..];
    assert r[|a|..|b|] == b[|a|..];
    assert r[|b|..|r| - 1] == d[|b|..];
    r
  }

  /**
   * The `exit` handler as written: it belongs to one child but acts on the client whichever
   * child is attached now, and leaves the buffer as it was.
   */
  function OnExitAsWritten(c: Client, code: Json, signal: Json): (r: Step)
    ensures r.client == c.(child := None, pending := [], permissionRequests := map[])
    ensures r.effects == RejectAll(c.pending, ExitMessage(code, signal)) + [Emit(HostDisconnected(ExitMessage(code, signal)))]
  {
    var message := ExitMessage(code, signal);
    Step(c.(child := None, pending := [], permissionRequests := map[]),
         RejectAll(c.pending, message) + [Emit(HostDisconnected(message))], None)
  }

  /**
   * The `exit` handler of child `generation`, acting only when that child is still the attached
   * one, and discarding any partial line it left in the buffer.
   */
  function OnExit(c: Client, generation: nat, code: Json, signal: Json): (r: Step)
    ensures r.thrown.None?
    ensures !(c.child.Some? && c.child.value.generation == generation) ==> r == Step(c, [], None)
    ensures c.child.Some? && c.child.value.generation == generation ==>
      && r.client == c.(child := None, pending := [], permissionRequests := map[], buffer := "")
      && |r.effects| == |c.pending| + 1
      && Last(r.effects) == Emit(HostDisconnected(ExitMessage(code, signal)))
      && (forall k :: 0 <= k < |c.pending| ==> r.effects[k] == Reject(c.pending[k], ExitMessage(code, signal)))
    ensures Conserves(c, r, [])
  {
    if !(c.child.Some? && c.child.value.generation == generation) then Step(c, [], None)
    else
      var message := ExitMessage(code, signal);
      RejectAllSettles(c.pending, message);
      SettledIdsAppend(RejectAll(c.pending, message), [Emit(HostDisconnected(message))]);
      Step(c.(child := None, pending := [], permissionRequests := map[], buffer := ""),
           RejectAll(c.pending, message) + [Emit(HostDisconnected(message))], None)
  }

  /** The child's `error` event: reported, nothing else changes. */
  function OnError(c: Client, message: string): (r: Step)
    ensures r.client == c && r.thrown.None?
    ensures r.effects == [Emit(HostDisconnected("ACP process error: " + message))]
  {
    Step(c, [Emit(HostDisconnected("ACP process error: " + message))], None)
  }

  /** Data on the child's stderr: forwarded verbatim, nothing else changes. */
  function OnStderr(c: Client, chunk: string): (r: Step)
    ensures r.client == c && r.thrown.None? && r.effects == [Emit(HostStderr(chunk))]
  {
    Step(c, [Emit(HostStderr(chunk))], None)
  }

  // ---------------------------------------------------------------- the invariant is kept

  lemma StartKeepsValid(c: Client, config: Option<LaunchConfig>, processCwd: string)
    requires Valid(c)
    ensures Valid(Start(c, config, processCwd).client)
    ensures Valid(StartCorrected(c, config, processCwd).client)
  {
  }

  lemma StopKeepsValid(c: Client)
    requires Valid(c)
    ensures Valid(Stop(c).client)
    ensures Valid(StopAsWritten(c).client)
  {
  }

  lemma OnExitKeepsValid(c: Client, generation: nat, code: Json, signal: Json)
    requires Valid(c)
    ensures Valid(OnExit(c, generation, code, signal).client)
    ensures Valid(OnExitAsWritten(c, code, signal).client)
  {
  }

  /** The as-written exit handler, whatever its other faults, settles every waiter it forgets. */
  lemma OnExitAsWrittenConserves(c: Client, code: Json, signal: Json)
    ensures Conserves(c, OnExitAsWritten(c, code, signal), [])
  {
    var message := ExitMessage(code, signal);
    RejectAllSettles(c.pending, message);
    SettledIdsAppend(RejectAll(c.pending, message), [Emit(HostDisconnected(message))]);
    assert SettledIds([Emit(HostDisconnected(message))]) == [];
  }

  /** Steps that never touch the waiters: notify, answering a permission request, and the child's error and stderr. */
  lemma QuietStepsKeepValid(c: Client, name: string, params: Option<Json>, requestId: string, outcome: Json,
                            message: string, chunk: string)
    requires Valid(c)
    ensures Valid(Notify(c, name, params).client) && Conserves(c, Notify(c, name, params), [])
    ensures Valid(RespondPermission(c, requestId, outcome).client)
      && Conserves(c, RespondPermission(c, requestId, outcome), [])
    ensures Valid(OnError(c, message).client) && Conserves(c, OnError(c, message), [])
    ensures Valid(OnStderr(c, chunk).client) && Conserves(c, OnStderr(c, chunk), [])
  {
    var n := Notify(c, name, params);
    assert SettledIds(n.effects) == [] by {
      if n.thrown.None? { assert SettledIds(n.effects) == SettledIds([]); }
    }
    var p := RespondPermission(c, requestId, outcome);
    assert SettledIds(p.effects) == [] by {
      if p.thrown.None? && requestId in c.permissionRequests { assert SettledIds(p.effects) == SettledIds([]); }
    }
    assert SettledIds(OnError(c, message).effects) == [];
    assert SettledIds(OnStderr(c, chunk).effects) == [];
  }

  lemma RequestKeepsValid(c: Client, name: string, params: Option<Json>)
    requires Valid(c)
    ensures Valid(Request(c, name, params).client)
    ensures Conserves(c, Request(c, name, params),
      if Request(c, name, params).thrown.None? then [c.nextId] else [])
  {
    var r := Request(c, name, params);
    if r.thrown.None? {
      assert SettledIds(r.effects) == [];
      var p := r.client.pending;
      assert forall i :: 0 <= i < |c.pending| ==> p[i] == c.pending[i];
    } else {
      assert SettledIds(r.effects) == [];
    }
  }

  lemma {:induction false} HandleLinesKeepsValid(c: Client, lines: seq<string>, parse: string -> Option<Json>)
    requires Valid(c)
    ensures Valid(HandleLines(c, lines, parse).client)
    decreases |lines|
  {
    if |lines| > 0 {
      var h := HandleLine(c, lines[0], parse);
      HandleLineRoutes(c, lines[0], parse);
      if h.client.pending != c.pending {
        var id := h.effects[0].id;
        assert h.client.pending == Remove(c.pending, id);
        RemoveIncreasing(c.pending, id);
        assert forall i :: 0 <= i < |h.client.pending| ==> h.client.pending[i] in Remove(c.pending, id);
      }
      HandleLinesKeepsValid(h.client, lines[1..], parse);
    }
  }

  lemma HandleStdoutKeepsValid(c: Client, chunk: string, parse: string -> Option<Json>)
    requires Valid(c)
    ensures Valid(HandleStdout(c, chunk, parse).client)
  {
    FrameClean(c.buffer + chunk);
    var f := Frame(c.buffer + chunk);
    HandleLinesKeepsValid(c.(buffer := f.rest), f.lines, parse);
  }

  // ---------------------------------------------------------------- findings

  /**
   * Restart, then the first child's late `exit`: as written, the handler detaches the second
   * child and rejects the request just made to it, so the next send is refused although the
   * second child is running. The generation check leaves the second child attached.
   */
  lemma StaleExitDetachesSuccessor(config: Option<LaunchConfig>, cwd: string, code: Json, signal: Json)
    ensures var s1 := Start(Initial, config, cwd);
      var s2 := Start(s1.client, config, cwd);
      var s3 := Request(s2.client, "initialize", None);
      && s3.thrown.None? && s3.client.pending == [1]
      && s3.client.child == Some(Child(1, true))
      && OnExitAsWritten(s3.client, code, signal).client.child.None?
      && OnExitAsWritten(s3.client, code, signal).effects[0] == Reject(1, ExitMessage(code, signal))
      && Send(OnExitAsWritten(s3.client, code, signal).client, JNull).thrown == Some(NotRunning)
      && OnExit(s3.client, 0, code, signal) == Step(s3.client, [], None)
      && Send(OnExit(s3.client, 0, code, signal).client, JNull).thrown.None?
  {
  }

  /**
   * As written, `stop` loses a waiter: it is neither pending afterwards nor settled; so does a
   * restart, since `start` calls `stop`. The corrected versions conserve it.
   */
  lemma StopLosesWaiter(c: Client, config: Option<LaunchConfig>, processCwd: string)
    requires c.child.Some? && |c.pending| > 0
    ensures !Conserves(c, StopAsWritten(c), [])
    ensures !Conserves(c, Start(c, config, processCwd), [])
    ensures Conserves(c, Stop(c), [])
    ensures Conserves(c, StartCorrected(c, config, processCwd), [])
  {
    var r := StopAsWritten(c);
    assert SettledIds([Emit(HostStopped)]) == [];
    assert SettledIds(r.effects) == [];
    assert multiset(c.pending)[c.pending[0]] > 0;
    assert multiset(r.client.pending) + multiset(SettledIds(r.effects)) == multiset{};
    var s := Start(c, config, processCwd);
    var connected := Emit(HostConnected(LaunchCommand(config), LaunchCwd(config, processCwd)));
    assert s.effects == r.effects + [connected];
    SettledIdsAppend(r.effects, [connected]);
    assert SettledIds([connected]) == [];
    assert multiset(s.client.pending) + multiset(SettledIds(s.effects)) == multiset{};
  }

  /**
   * A child dies mid-line; after a restart the next child's first line is dispatched glued to the
   * stale fragment as written, while clearing the buffer on exit dispatches the line alone.
   */
  lemma StaleFragmentAfterExit(c: Client, code: Json, signal: Json, cwd: string, line: string)
    requires c.child.Some? && '\n' !in c.buffer && '\n' !in line
    ensures var stale := Start(OnExitAsWritten(c, code, signal).client, None, cwd).client;
      && stale.buffer == c.buffer
      && Frame(stale.buffer + line + "\n").lines == Framing.Emit(c.buffer + line)
    ensures var cleared := Start(OnExit(c, c.child.value.generation, code, signal).client, None, cwd).client;
      && cleared.buffer == ""
      && Frame(cleared.buffer + line + "\n").lines == Framing.Emit(line)
  {
    var stale := Start(OnExitAsWritten(c, code, signal).client, None, cwd).client;
    assert stale.buffer == c.buffer;
    assert '\n' !in c.buffer + line;
    FrameLastLine(c.buffer + line);
    var cleared := Start(OnExit(c, c.child.value.generation, code, signal).client, None, cwd).client;
    assert cleared.buffer == "";
    assert "" + line + "\n" == line + "\n";
    FrameLastLine(line);
  }

}

=== FILE: host_settings.dfy ===
/**
 * The host's settings load: defaults when no file exists, otherwise the legacy
 * `acpCommand`/`acpArgs` pair migrated into `acpLaunchCommand`, with every property of the
 * parsed file spread over the defaults. Reading the file and `process.cwd()` are parameters.
 */
module HostSettings {
  import opened Common
  import opened Strings
  import opened Json

  /** A settings object: property name to value. */
  type Settings = map<string, Json>

  function Defaults(launchCommand: string, processCwd: string): Settings {
    map["acpLaunchCommand" := JStr(launchCommand), "cwd" := JStr(processCwd), "autoAllow" := JBool(false)]
  }

  /** The three defaults, read back by name. */
  lemma DefaultsFields(launchCommand: string, processCwd: string)
    ensures var d := Defaults(launchCommand, processCwd);
      && d["acpLaunchCommand"] == JStr(launchCommand)
      && d["cwd"] == JStr(processCwd)
      && d["autoAllow"] == JBool(false)
  {
    assert |"acpLaunchCommand"| == 16 && |"cwd"| == 3 && |"autoAllow"| == 9;
  }

  /**
   * The launch command migrated from a parsed file: a string `acpLaunchCommand` as is, else a
   * string `acpCommand` followed by a string `acpArgs` (or `--acp`), else `buffer --acp`.
   */
  function MigratedLaunchCommand(parsed: Json): string {
    var direct := AsString(Field(parsed, "acpLaunchCommand"));
    var legacy := AsString(Field(parsed, "acpCommand"));
    var args := AsString(Field(parsed, "acpArgs"));
    if direct.Some? then direct.value
    else if legacy.Some? then legacy.value + " " + (if args.Some? then args.value else "--acp")
    else "buffer --acp"
  }

  /** Object spread of members: each assignment in order, so the last member of a name wins. */
  function SpreadMembers(acc: Settings, ms: seq<Member>): Settings
    decreases |ms|
  {
    if |ms| == 0 then acc
    else SpreadMembers(acc, ms[..|ms| - 1])[ms[|ms| - 1].key := ms[|ms| - 1].value]
  }

  /** Object spread of an array or string: one property per index, named by its decimal form. */
  function SpreadIndexed(acc: Settings, values: seq<Json>): (r: Settings)
    ensures acc.Keys <= r.Keys
    ensures forall k :: k in acc && !AllDigits(k) ==> r[k] == acc[k]
    decreases |values|
  {
    if |values| == 0 then acc
    else SpreadIndexed(acc, values[..|values| - 1])[NatToString(|values| - 1) := values[|values| - 1]]
  }

  /** The one-character strings a string spreads into. */
  function CharStrings(s: string): (r: seq<Json>)
    ensures |r| == |s|
  {
    seq(|s|, i requires 0 <= i < |s| => JStr([s[i]]))
  }

  /** `{...acc, ...(parsed || {})}`: numbers, booleans and `null` have no own properties. */
  function Spread(acc: Settings, parsed: Json): Settings {
    match parsed
    case JObj(ms) => SpreadMembers(acc, ms)
    case JArr(items) => SpreadIndexed(acc, items)
    case JStr(s) => SpreadIndexed(acc, CharStrings(s))
    case _ => acc
  }

  /** `loadSettings`; `parsed` is `JNull` when the file did not parse. */
  function LoadSettings(fileExists: bool, parsed: Json, processCwd: string): (r: Settings)
    ensures "acpLaunchCommand" in r && "cwd" in r && "autoAllow" in r
  {
    if !fileExists then Defaults("buffer --acp", processCwd)
    else
      var r := Spread(Defaults(Trim(MigratedLaunchCommand(parsed)), processCwd), parsed);
      SpreadKeeps(Defaults(Trim(MigratedLaunchCommand(parsed)), processCwd), parsed);
      r
  }

  lemma SpreadKeeps(acc: Settings, parsed: Json)
    ensures acc.Keys <= Spread(acc, parsed).Keys
  {
    match parsed
    case JObj(ms) => SpreadMembersLookup(acc, ms);
    case _ =>
  }

  /** Spreading members: a name present in them takes its last value, any other keeps its old one. */
  lemma {:induction false} SpreadMembersLookup(acc: Settings, ms: seq<Member>)
    ensures forall k :: FindMember(ms, k).Some? ==> k in SpreadMembers(acc, ms) && SpreadMembers(acc, ms)[k] == FindMember(ms, k).value
    ensures forall k :: FindMember(ms, k).None? ==> (k in SpreadMembers(acc, ms) <==> k in acc)
    ensures forall k :: FindMember(ms, k).None? && k in acc ==> SpreadMembers(acc, ms)[k] == acc[k]
    decreases |ms|
  {
    if |ms| > 0 {
      SpreadMembersLookup(acc, ms[..|ms| - 1]);
    }
  }

  /** The file's own properties override the defaults, whatever they are. */
  lemma ParsedPropertiesWin(parsed: Json, processCwd: string, k: string)
    requires parsed.JObj? && FindMember(parsed.members, k).Some?
    ensures k in LoadSettings(true, parsed, processCwd)
    ensures LoadSettings(true, parsed, processCwd)[k] == FindMember(parsed.members, k).value
  {
    SpreadMembersLookup(Defaults(Trim(MigratedLaunchCommand(parsed)), processCwd), parsed.members);
  }

  /**
   * Migration: a file with no `acpLaunchCommand` but a string `acpCommand` loads with the
   * trimmed command and arguments joined; defaults fill `cwd` and `autoAllow` when absent.
   */
  lemma LegacyCommandMigrates(parsed: Json, processCwd: string)
    requires parsed.JObj?
    requires FindMember(parsed.members, "acpLaunchCommand").None?
    requires AsString(Field(parsed, "acpCommand")).Some?
    ensures var args := AsString(Field(parsed, "acpArgs"));
      LoadSettings(true, parsed, processCwd)["acpLaunchCommand"]
        == JStr(Trim(AsString(Field(parsed, "acpCommand")).value + " " + (if args.Some? then args.value else "--acp")))
    ensures FindMember(parsed.members, "cwd").None? ==> LoadSettings(true, parsed, processCwd)["cwd"] == JStr(processCwd)
    ensures FindMember(parsed.members, "autoAllow").None? ==> LoadSettings(true, parsed, processCwd)["autoAllow"] == JBool(false)
  {
    SpreadMembersLookup(Defaults(Trim(MigratedLaunchCommand(parsed)), processCwd), parsed.members);
  }

  /** A file that does not parse to an object loads the defaults for the three settings the host reads. */
  lemma NonObjectLoadsDefaults(parsed: Json, processCwd: string)
    requires !parsed.JObj?
    ensures var r := LoadSettings(true, parsed, processCwd);
      && r["cwd"] == JStr(processCwd)
      && r["autoAllow"] == JBool(false)
      && r["acpLaunchCommand"] == JStr("buffer --acp")
  {
    var acc := Defaults("buffer --acp", processCwd);
    NonObjectMigratesNothing(parsed, processCwd);
    SettingNamesNotIndices();
    SpreadNonObject(acc, parsed);
    DefaultsFields("buffer --acp", processCwd);
    assert LoadSettings(true, parsed, processCwd) == Spread(acc, parsed);
  }

  lemma NonObjectMigratesNothing(parsed: Json, processCwd: string)
    requires !parsed.JObj?
    ensures LoadSettings(true, parsed, processCwd) == Spread(Defaults("buffer --acp", processCwd), parsed)
  {
    assert Field(parsed, "acpLaunchCommand") == None && Field(parsed, "acpCommand") == None;
    assert MigratedLaunchCommand(parsed) == "buffer --acp";
    DefaultCommandTrimmed();
    assert Defaults(Trim(MigratedLaunchCommand(parsed)), processCwd) == Defaults("buffer --acp", processCwd);
  }

  lemma DefaultCommandTrimmed()
    ensures Trim("buffer --acp") == "buffer --acp"
  {
    TrimNoop("buffer --acp");
  }

  /** Spreading a non-object leaves every non-index property as it was. */
  lemma SpreadNonObject(acc: Settings, parsed: Json)
    requires !parsed.JObj?
    ensures forall k :: k in acc && !AllDigits(k) ==> k in Spread(acc, parsed) && Spread(acc, parsed)[k] == acc[k]
  {
  }

  /** No setting name is a decimal index, so spreading an array or string cannot overwrite one. */
  lemma SettingNamesNotIndices()
    ensures !AllDigits("cwd") && !AllDigits("autoAllow") && !AllDigits("acpLaunchCommand")
  {
    assert !IsDigit("cwd"[0]);
    assert !IsDigit("autoAllow"[0]);
    assert !IsDigit("acpLaunchCommand"[0]);
  }

  /** The worked migration: `node` with arguments `agent.js --acp`. */
  lemma MigrationExample(processCwd: string)
    ensures LoadSettings(true, JObj([Member("acpCommand", JStr("node")), Member("acpArgs", JStr("agent.js --acp"))]), processCwd)["acpLaunchCommand"]
      == JStr("node agent.js --acp")
  {
    var a := Member("acpCommand", JStr("node"));
    var b := Member("acpArgs", JStr("agent.js --acp"));
    var parsed := JObj([a, b]);
    FindMember2(a, b, "acpCommand");
    FindMember2(a, b, "acpArgs");
    FindMember2(a, b, "acpLaunchCommand");
    LegacyCommandMigrates(parsed, processCwd);
    JoinedCommand();
  }

  lemma JoinedCommand()
    ensures Trim("node" + " " + "agent.js --acp") == "node agent.js --acp"
  {
    assert "node" + " " + "agent.js --acp" == "node agent.js --acp";
    TrimNoop("node agent.js --acp");
  }
}

=== FILE: json.dfy ===
/**
 * JSON values as JavaScript sees them after `JSON.parse`: field lookup, truthiness,
 * `String(x)` conversion and `JSON.stringify` (without indentation). Numbers are integers.
 */
module Json {
  import opened Common
  import opened Strings

  datatype Json =
    | JNull
    | JBool(b: bool)
    | JNum(n: int)
    | JStr(s: string)
    | JArr(items: seq<Json>)
    | JObj(members: seq<Member>)

  datatype Member = Member(key: string, value: Json)

  /** JavaScript truthiness of a present value. */
  predicate Truthy(j: Json) {
    match j
    case JNull => false
    case JBool(b) => b
    case JNum(n) => n != 0
    case JStr(s) => |s| > 0
    case JArr(_) => true
    case JObj(_) => true
  }

  /** Truthiness of a possibly `undefined` value. */
  predicate TruthyOpt(o: Option<Json>) {
    o.Some? && Truthy(o.value)
  }

  /** `x == null`: `undefined` or `null`, the values `??` skips. */
  predicate Nullish(o: Option<Json>) {
    o.None? || o.value == JNull
  }

  /** The value of the last member named `key` (the one `JSON.parse` keeps). */
  function FindMember(ms: seq<Member>, key: string): (r: Option<Json>)
    ensures r.Some? <==> exists k :: 0 <= k < |ms| && ms[k].key == key
    ensures r.Some? ==> exists k :: 0 <= k < |ms| && ms[k] == Member(key, r.value)
    decreases |ms|
  {
    if |ms| == 0 then None
    else if ms[|ms| - 1].key == key then Some(ms[|ms| - 1].value)
    else
      var r := FindMember(ms[..|ms| - 1], key);
      assert forall k :: 0 <= k < |ms| - 1 ==> ms[..|ms| - 1][k] == ms[k];
      r
  }

  /** Lookup in a literal object of two, three or four members: the last matching member wins. */
  lemma FindMember2(a: Member, b: Member, key: string)
    ensures FindMember([a, b], key)
      == if b.key == key then Some(b.value) else if a.key == key then Some(a.value) else None
  {
    assert [a, b][..1] == [a];
    assert [a][..0] == [];
  }

  lemma FindMember3(a: Member, b: Member, c: Member, key: string)
    ensures FindMember([a, b, c], key)
      == if c.key == key then Some(c.value) else FindMember([a, b], key)
  {
    assert [a, b, c][..2] == [a, b];
  }

  lemma FindMember4(a: Member, b: Member, c: Member, d: Member, key: string)
    ensures FindMember([a, b, c, d], key)
      == if d.key == key then Some(d.value) else FindMember([a, b, c], key)
  {
    assert [a, b, c, d][..3] == [a, b, c];
  }

  /** `j?.[key]` on a parsed value: only objects have own fields. */
  function Field(j: Json, key: string): Option<Json> {
    if j.JObj? then FindMember(j.members, key) else None
  }

  /** `x?.[key]` where `x` itself may be `undefined`. */
  function FieldOpt(o: Option<Json>, key: string): Option<Json> {
    if o.Some? then Field(o.value, key) else None
  }

  /** `typeof x === "string" ? x : undefined`. */
  function AsString(o: Option<Json>): Option<string> {
    if o.Some? && o.value.JStr? then Some(o.value.s) else None
  }

  function DigitChar(d: nat): char
    requires d < 10
  {
    "0123456789"[d]
  }

  predicate IsDigit(c: char) {
    '0' <= c <= '9'
  }

  predicate AllDigits(s: string) {
    forall i :: 0 <= i < |s| ==> IsDigit(s[i])
  }

  /** Decimal digits of `n`, without leading zeros. */
  function NatToString(n: nat): (r: string)
    ensures |r| > 0 && AllDigits(r)
    ensures |r| > 1 ==> r[0] != '0'
    decreases n
  {
    if n < 10 then [DigitChar(n)] else NatToString(n / 10) + [DigitChar(n % 10)]
  }

  /** `String(n)` for an integer. */
  function IntToString(i: int): (r: string)
    ensures |r| > 0
    ensures i >= 0 ==> AllDigits(r)
    ensures i < 0 ==> r[0] == '-' && AllDigits(r[1..])
  {
    if i < 0 then "-" + NatToString(-i) else NatToString(i)
  }

  /** The value of a string of decimal digits. */
  function DigitsValue(s: string): nat
    requires AllDigits(s)
    decreases |s|
  {
    if |s| == 0 then 0 else DigitsValue(s[..|s| - 1]) * 10 + (s[|s| - 1] as int - '0' as int)
  }

  /** Reads back an optionally signed decimal integer. */
  function ParseInt(s: string): Option<int> {
    if |s| > 1 && s[0] == '-' && AllDigits(s[1..]) then Some(0 - DigitsValue(s[1..]) as int)
    else if |s| > 0 && AllDigits(s) then Some(DigitsValue(s))
    else None
  }

  lemma {:induction false} NatToStringValue(n: nat)
    ensures DigitsValue(NatToString(n)) == n
    decreases n
  {
    if n >= 10 {
      NatToStringValue(n / 10);
      var s := NatToString(n);
      assert s[..|s| - 1] == NatToString(n / 10);
    }
  }

  /** `String(n)` is read back as `n`: decimal rendering is injective. */
  lemma {:induction false} IntToStringRoundTrip(i: int)
    ensures ParseInt(IntToString(i)) == Some(i)
  {
    if i < 0 {
      var n: nat := -i;
      assert IntToString(i) == "-" + NatToString(n);
      NatToStringValue(n);
      ParseNegative(NatToString(n));
    } else {
      var n: nat := i;
      assert IntToString(i) == NatToString(n);
      NatToStringValue(n);
      ParseDigits(NatToString(n));
    }
  }

  /** A minus sign followed by digits reads back as the negated value of the digits. */
  lemma ParseNegative(d: string)
    requires |d| > 0 && AllDigits(d)
    ensures ParseInt("-" + d) == Some(0 - DigitsValue(d) as int)
  {
    assert ("-" + d)[1..] == d;
  }

  /** Digits alone read back as their value. */
  lemma ParseDigits(d: string)
    requires |d| > 0 && AllDigits(d)
    ensures ParseInt(d) == Some(DigitsValue(d))
  {
    assert IsDigit(d[0]);
  }

  /** `String(x)` for a parsed value; array elements that are `null` print as nothing. */
  function JsString(j: Json): string
    decreases j
  {
    match j
    case JNull => "null"
    case JBool(b) => if b then "true" else "false"
    case JNum(n) => IntToString(n)
    case JStr(s) => s
    case JArr(items) => JoinValues(items, ",")
    case JObj(_) => "[object Object]"
  }

  /** `items.join(sep)`. */
  function JoinValues(items: seq<Json>, sep: string): string
    decreases items
  {
    if |items| == 0 then ""
    else
      var head := if items[0] == JNull then "" else JsString(items[0]);
      if |items| == 1 then head else head + sep + JoinValues(items[1..], sep)
  }

  function HexDigit(d: nat): char
    requires d < 16
  {
    "0123456789abcdef"[d]
  }

  /** The escape `JSON.stringify` writes for one character of a string. */
  function EscapeChar(c: char): (r: string)
    ensures |r| > 0 && '\n' !in r
  {
    if c == '"' then "\\\""
    else if c == '\\' then "\\\\"
    else if c == '\n' then "\\n"
    else if c == '\r' then "\\r"
    else if c == '\t' then "\\t"
    else if c as int == 8 then "\\b"
    else if c as int == 12 then "\\f"
    else if (c as int) < 0x20 then "\\u00" + [HexDigit(c as int / 16), HexDigit(c as int % 16)]
    else [c]
  }

  function Escape(s: string): (r: string)
    ensures '\n' !in r
    decreases |s|
  {
    if |s| == 0 then "" else EscapeChar(s[0]) + Escape(s[1..])
  }

  function Quote(s: string): string {
    "\"" + Escape(s) + "\""
  }

  /** `JSON.stringify(j)`: one JSON text with no raw line break. */
  function Serialize(j: Json): string
    decreases j
  {
    match j
    case JNull => "null"
    case JBool(b) => if b then "true" else "false"
    case JNum(n) => IntToString(n)
    case JStr(s) => Quote(s)
    case JArr(items) => "[" + SerializeItems(items) + "]"
    case JObj(ms) => "{" + SerializeMembers(ms) + "}"
  }

  function SerializeItems(items: seq<Json>): string
    decreases items
  {
    if |items| == 0 then ""
    else if |items| == 1 then Serialize(items[0])
    else Serialize(items[0]) + "," + SerializeItems(items[1..])
  }

  function SerializeMembers(ms: seq<Member>): string
    decreases ms
  {
    if |ms| == 0 then ""
    else
      var head := Quote(ms[0].key) + ":" + Serialize(ms[0].value);
      if |ms| == 1 then head else head + "," + SerializeMembers(ms[1..])
  }

  /** `JSON.stringify` never emits a raw line feed, so one value is one line of the wire format. */
  lemma {:induction false} SerializeNoNewline(j: Json)
    ensures '\n' !in Serialize(j)
    decreases j
  {
    match j
    case JNull =>
    case JBool(_) =>
    case JNum(n) =>
    case JStr(s) =>
    case JArr(items) => SerializeItemsNoNewline(items);
    case JObj(ms) => SerializeMembersNoNewline(ms);
  }

  lemma {:induction false} SerializeItemsNoNewline(items: seq<Json>)
    ensures '\n' !in SerializeItems(items)
    decreases items
  {
    if |items| > 0 {
      SerializeNoNewline(items[0]);
      if |items| > 1 {
        SerializeItemsNoNewline(items[1..]);
      }
    }
  }

  lemma {:induction false} SerializeMembersNoNewline(ms: seq<Member>)
    ensures '\n' !in SerializeMembers(ms)
    decreases ms
  {
    if |ms| > 0 {
      SerializeNoNewline(ms[0].value);
      if |ms| > 1 {
        SerializeMembersNoNewline(ms[1..]);
      }
    }
  }

  /** A serialized value is non-empty and starts and ends with a non-whitespace character. */
  lemma SerializeEnds(j: Json)
    ensures |Serialize(j)| > 0
    ensures !IsWhitespace(Serialize(j)[0]) && !IsWhitespace(Serialize(j)[|Serialize(j)| - 1])
  {
  }

  /** Hence trimming a serialized value gives it back unchanged. */
  lemma SerializeTrimmed(j: Json)
    ensures Trim(Serialize(j)) == Serialize(j)
  {
    SerializeEnds(j);
    TrimNoop(Serialize(j));
  }
}

=== FILE: link.dfy ===
/**
 * Both ends of the link together: what the desktop host writes, the agent's framer reads as one
 * line, and the one reply the agent writes settles exactly the waiter that asked. `parse` stands
 * for `JSON.parse`; each lemma assumes only that it reads back the texts actually exchanged.
 */
module Link {
  import opened Common
  import opened Json
  import opened Framing
  import A = AgentConnection
  import H = HostClient

  /** `JSON.parse` reads the serialized `j` back as `j`. */
  predicate ParsesBack(parse: string -> Option<Json>, j: Json) {
    parse(Serialize(j)) == Some(j)
  }

  /** A framed wire line `Serialize(j) + "\n"` is read back as the single line `Serialize(j)`. */
  lemma OneLine(j: Json)
    ensures Frame(Serialize(j) + "\n") == Framed([Serialize(j)], "")
  {
    A.SendIsOneLine(j);
    A.WritesOfSend(j);
  }

  /** A host whose buffer is empty dispatches one framed line as a single `handleLine` call. */
  lemma StdoutOfOneLine(c: H.Client, j: Json, parse: string -> Option<Json>)
    requires c.buffer == ""
    ensures var h := H.HandleLine(c, Serialize(j), parse);
      H.HandleStdout(c, Serialize(j) + "\n", parse) == H.Step(h.client.(buffer := ""), h.effects, None)
  {
    OneLine(j);
    assert c.buffer + (Serialize(j) + "\n") == Serialize(j) + "\n";
    H.HandleStdoutDispatches(c, Serialize(j) + "\n", parse);
    var h := H.HandleLine(c, Serialize(j), parse);
    assert H.HandleLines(h.client, [Serialize(j)][1..], parse) == H.Step(h.client, [], None);
  }

  /**
   * The agent's `session/update` notification reaches the host as one `session_update` event
   * carrying the same params, and changes nothing else in the host client.
   */
  lemma SessionUpdateReachesHost(c: H.Client, params: Json, parse: string -> Option<Json>)
    requires c.buffer == "" && ParsesBack(parse, A.SessionUpdate(params))
    ensures A.Writes(A.Send(A.SessionUpdate(params))) == [Serialize(A.SessionUpdate(params)) + "\n"]
    ensures H.HandleStdout(c, Serialize(A.SessionUpdate(params)) + "\n", parse)
      == H.Step(c, [H.Emit(H.HostSessionUpdate(Some(params)))], None)
  {
    var n := A.SessionUpdate(params);
    A.WritesOfSend(n);
    StdoutOfOneLine(c, n, parse);
    FindMember3(Member("jsonrpc", JStr("2.0")), Member("method", JStr("session/update")), Member("params", params), "id");
    FindMember2(Member("jsonrpc", JStr("2.0")), Member("method", JStr("session/update")), "id");
    FindMember3(Member("jsonrpc", JStr("2.0")), Member("method", JStr("session/update")), Member("params", params), "method");
    FindMember3(Member("jsonrpc", JStr("2.0")), Member("method", JStr("session/update")), Member("params", params), "params");
    assert H.AnsweredId(c, n).None?;
  }

  /** The fields the agent reads from a host request: its method name, its numeric id, its params. */
  lemma RequestFields(id: int, name: string, params: Option<Json>)
    ensures var p := H.RequestPayload(id, name, params);
      && Field(p, "method") == Some(JStr(name))
      && Field(p, "id") == Some(JNum(id))
      && Field(p, "params") == params
  {
    var a := Member("jsonrpc", JStr("2.0"));
    var b := Member("id", JNum(id));
    var m := Member("method", JStr(name));
    FindMember2(a, b, "method");
    FindMember2(a, b, "params");
    FindMember3(a, b, m, "method");
    FindMember3(a, b, m, "id");
    FindMember3(a, b, m, "params");
    if params.Some? {
      var q := Member("params", params.value);
      assert [a, b, m] + H.ParamsMember(params) == [a, b, m, q];
      FindMember4(a, b, m, q, "method");
      FindMember4(a, b, m, q, "id");
      FindMember4(a, b, m, q, "params");
    } else {
      assert [a, b, m] + H.ParamsMember(params) == [a, b, m];
    }
  }

  /**
   * A request the host sends reaches the agent as one line, and the agent writes exactly one
   * reply carrying the request's own id.
   */
  lemma RequestReachesAgent(c: H.Client, name: string, params: Option<Json>, agent: A.Agent, parse: string -> Option<Json>)
    requires c.child.Some? && c.child.value.writable
    requires ParsesBack(parse, H.RequestPayload(c.nextId, name, params))
    ensures var payload := H.RequestPayload(c.nextId, name, params);
      var reply := A.Reply(JNum(c.nextId), A.Invoke(agent, name, A.ParamsOf(payload)));
      && H.Request(c, name, params).effects == [H.Write(Serialize(payload) + "\n")]
      && Frame(Serialize(payload) + "\n") == Framed([Serialize(payload)], "")
      && A.Writes(A.HandleLine(agent, Serialize(payload), parse)) == [Serialize(reply) + "\n"]
  {
    var payload := H.RequestPayload(c.nextId, name, params);
    OneLine(payload);
    RequestFields(c.nextId, name, params);
    A.RequestGetsOneReply(agent, Serialize(payload), parse);
  }

  /**
   * The agent's reply to a pending request settles exactly that waiter: rejected with the error's
   * message when the handler threw, resolved with its result otherwise.
   */
  lemma ReplySettlesWaiter(c: H.Client, id: int, o: A.Outcome, parse: string -> Option<Json>)
    requires c.buffer == "" && id in c.pending
    requires ParsesBack(parse, A.Reply(JNum(id), o))
    ensures var r := H.HandleStdout(c, Serialize(A.Reply(JNum(id), o)) + "\n", parse);
      && r.effects == [if o.Threw? then H.Reject(id, H.ErrorMessage(A.ErrorObject(o.error))) else H.Resolve(id, o.result)]
      && r.client == c.(pending := H.Remove(c.pending, id))
  {
    var reply := A.Reply(JNum(id), o);
    StdoutOfOneLine(c, reply, parse);
    ReplyLineSettles(c, id, o, parse);
  }

  /** The reply line on its own: `handleLine` removes the waiter and settles it by the reply's `error`. */
  lemma ReplyLineSettles(c: H.Client, id: int, o: A.Outcome, parse: string -> Option<Json>)
    requires id in c.pending
    requires ParsesBack(parse, A.Reply(JNum(id), o))
    ensures H.HandleLine(c, Serialize(A.Reply(JNum(id), o)), parse)
      == H.Step(c.(pending := H.Remove(c.pending, id)),
                [if o.Threw? then H.Reject(id, H.ErrorMessage(A.ErrorObject(o.error))) else H.Resolve(id, o.result)], None)
  {
    var reply := A.Reply(JNum(id), o);
    assert Truthy(reply);
    assert H.AnsweredId(c, reply) == Some(id) by {
      A.ReplyFields(JNum(id), o);
    }
    if o.Threw? {
      assert Field(reply, "error") == Some(A.ErrorObject(o.error)) by {
        A.ReplyFields(JNum(id), o);
      }
      assert TruthyOpt(Field(reply, "error"));
    } else {
      assert Field(reply, "error").None? && Field(reply, "result") == o.result by {
        A.ReplyFields(JNum(id), o);
      }
    }
  }

  /**
   * A round trip: the host's request is answered by the agent, and reading the answer back leaves
   * the host's waiters as they were before the request.
   */
  lemma RequestRoundTrip(c: H.Client, name: string, params: Option<Json>, agent: A.Agent, parse: string -> Option<Json>)
    requires H.Valid(c) && c.child.Some? && c.child.value.writable && c.buffer == ""
    requires var payload := H.RequestPayload(c.nextId, name, params);
      && ParsesBack(parse, payload)
      && ParsesBack(parse, A.Reply(JNum(c.nextId), A.Invoke(agent, name, A.ParamsOf(payload))))
    ensures var payload := H.RequestPayload(c.nextId, name, params);
      var o := A.Invoke(agent, name, A.ParamsOf(payload));
      var replyLine := Serialize(A.Reply(JNum(c.nextId), o)) + "\n";
      var r := H.HandleStdout(H.Request(c, name, params).client, replyLine, parse);
      && A.Writes(A.HandleLine(agent, Serialize(payload), parse)) == [replyLine]
      && r.effects == [if o.Threw? then H.Reject(c.nextId, H.ErrorMessage(A.ErrorObject(o.error))) else H.Resolve(c.nextId, o.result)]
      && multiset(r.client.pending) == multiset(c.pending)
      && r.client.nextId == c.nextId + 1
  {
    var payload := H.RequestPayload(c.nextId, name, params);
    var o := A.Invoke(agent, name, A.ParamsOf(payload));
    RequestReachesAgent(c, name, params, agent, parse);
    var sent := H.Request(c, name, params).client;
    assert sent.pending == c.pending + [c.nextId];
    ReplySettlesWaiter(sent, c.nextId, o, parse);
    assert c.nextId !in c.pending;
    assert multiset(c.pending + [c.nextId]) - multiset{c.nextId} == multiset(c.pending);
  }
}

=== FILE: plan_create.dfy ===
/**
 * The `plan_create` tool's path handling: the requested path is cleaned and validated, the
 * workspace root is the nearest ancestor holding `.git`, and the plan may only be written
 * inside the configuration directory under that root. Paths are POSIX: an absolute path is the
 * sequence of its segments (the root is `[]`); `fileExists` is a parameter.
 */
module PlanCreate {
  import opened Common
  import opened Strings
  import opened Json

  /** A resolved absolute path: its segments, none empty, `.`, `..`, or holding `/`. */
  type Path = seq<string>

  predicate Resolved(p: Path) {
    forall i :: 0 <= i < |p| ==> p[i] != "" && p[i] != "." && p[i] != ".." && '/' !in p[i]
  }

  // ---------------------------------------------------------------- sanitizing

  const PathRequired := "Path is required"
  const MarkdownOnly := "plan_create only supports .md files"
  const MustBeRelative := "Path must be relative to .buffer"

  /** The input trimmed, with `\` turned into `/`. */
  function Normalize(input: string): string {
    ReplaceChar(Trim(input), '\\', '/')
  }

  /**
   * `sanitizeRelativePlanPath`: empty, non-Markdown and absolute inputs fail, in that order; a
   * leading `<configDir>/` (any letter case) is dropped once.
   */
  function Sanitize(configDir: string, input: string): (r: Result<string>)
    ensures |Normalize(input)| == 0 ==> r == Err(PathRequired)
    ensures r.Ok? <==>
      |Normalize(input)| > 0 && EndsWith(ToLower(Normalize(input)), ".md") && !StartsWith(Normalize(input), "/")
    ensures r.Err? && |Normalize(input)| > 0 ==>
      r.message == (if !EndsWith(ToLower(Normalize(input)), ".md") then MarkdownOnly else MustBeRelative)
    ensures r.Ok? ==> EndsWith(ToLower(r.value), ".md")
  {
    var n := Normalize(input);
    if |n| == 0 then Err(PathRequired)
    else if !EndsWith(ToLower(n), ".md") then Err(MarkdownOnly)
    else if StartsWith(n, "/") then Err(MustBeRelative)
    else if StartsWith(ToLower(n), ToLower(configDir) + "/") then
      StripKeepsMarkdown(n, configDir);
      Ok(n[|configDir| + 1..])
    else
      assert n[0..] == n;
      Ok(n)
  }

  /**
   * The sanitized path is the normalized input, with `<configDir>/` dropped exactly when the
   * input starts with it in any letter case.
   */
  lemma SanitizeStrips(configDir: string, input: string)
    requires Sanitize(configDir, input).Ok?
    ensures var n := Normalize(input);
      var strip := StartsWith(ToLower(n), ToLower(configDir) + "/");
      && (strip ==> |configDir| + 1 <= |n| && Sanitize(configDir, input).value == n[|configDir| + 1..])
      && (!strip ==> Sanitize(configDir, input).value == n)
  {
    var n := Normalize(input);
    if StartsWith(ToLower(n), ToLower(configDir) + "/") {
      assert |ToLower(configDir)| == |configDir|;
    }
  }

  /** Dropping a prefix that ends in `/` keeps a `.md` ending: the `/` cannot be part of it. */
  lemma StripKeepsMarkdown(n: string, configDir: string)
    requires EndsWith(ToLower(n), ".md") && StartsWith(ToLower(n), ToLower(configDir) + "/")
    ensures |configDir| + 1 <= |n|
    ensures EndsWith(ToLower(n[|configDir| + 1..]), ".md")
  {
    var l := ToLower(n);
    var cut := |configDir| + 1;
    assert l[cut - 1] == (ToLower(configDir) + "/")[cut - 1] == '/';
    assert n[cut - 1] == '/';
    assert ToLower(n[cut..]) == l[cut..];
    assert l[cut..][|l[cut..]| - 3..] == l[|l| - 3..];
  }

  // ---------------------------------------------------------------- resolving

  /** `path.resolve` over segments: `.` and empty segments vanish, `..` climbs (never past the root). */
  function Walk(acc: Path, segs: seq<string>): (r: Path)
    decreases |segs|
  {
    if |segs| == 0 then acc
    else
      var s := segs[0];
      var next := if s == "" || s == "." then acc else if s == ".." then (if |acc| > 0 then acc[..|acc| - 1] else acc) else acc + [s];
      Walk(next, segs[1..])
  }

  /** `resolve(base, p)`: an absolute `p` starts again from the root. */
  function Resolve(base: Path, p: string): (r: Path)
    requires Resolved(base)
    ensures Resolved(r)
    ensures !StartsWith(p, "/") && (forall i :: 0 <= i < |Split(p, '/')| ==> Split(p, '/')[i] != "..") ==> base <= r
  {
    var segs := Split(p, '/');
    assert !StartsWith(p, "/") && (forall i :: 0 <= i < |segs| ==> segs[i] != "..") ==> base <= Walk(base, segs) by {
      if !StartsWith(p, "/") && (forall i :: 0 <= i < |segs| ==> segs[i] != "..") {
        WalkDescends(base, segs);
      }
    }
    WalkResolved(if StartsWith(p, "/") then [] else base, segs);
    Walk(if StartsWith(p, "/") then [] else base, segs)
  }

  lemma {:induction false} WalkResolved(acc: Path, segs: seq<string>)
    requires Resolved(acc) && forall i :: 0 <= i < |segs| ==> '/' !in segs[i]
    ensures Resolved(Walk(acc, segs))
    decreases |segs|
  {
    if |segs| > 0 {
      var s := segs[0];
      var next := if s == "" || s == "." then acc else if s == ".." then (if |acc| > 0 then acc[..|acc| - 1] else acc) else acc + [s];
      assert Resolved(next);
      WalkResolved(next, segs[1..]);
    }
  }

  /** Without `..` segments, resolving only descends: the starting directory stays a prefix. */
  lemma {:induction false} WalkDescends(acc: Path, segs: seq<string>)
    requires forall i :: 0 <= i < |segs| ==> segs[i] != ".."
    ensures acc <= Walk(acc, segs)
    decreases |segs|
  {
    if |segs| > 0 {
      var s := segs[0];
      var next := if s == "" || s == "." then acc else acc + [s];
      WalkDescends(next, segs[1..]);
    }
  }

  /** Each `..` segment climbs one level. */
  lemma WalkClimbs(acc: Path)
    requires |acc| > 0
    ensures Walk(acc, [".."]) == acc[..|acc| - 1]
  {
    assert [".."][1..] == [];
  }

  // ---------------------------------------------------------------- workspace root

  /** The directory `p` holds a `.git` entry. */
  predicate HasGit(fileExists: Path -> bool, p: Path) {
    fileExists(p + [".git"])
  }

  /**
   * `findWorkspaceRoot`: from `start`, climb until a directory holds `.git`; at the root, give
   * up and return `start`. Terminates because every step drops a segment.
   */
  method FindWorkspaceRoot(start: Path, fileExists: Path -> bool) returns (root: Path)
    ensures root <= start
    ensures HasGit(fileExists, root) || root == start
    ensures forall n :: |root| < n <= |start| ==> !HasGit(fileExists, start[..n])
    ensures HasGit(fileExists, root) <==> exists n :: 0 <= n <= |start| && HasGit(fileExists, start[..n])
  {
    var current := start;
    while true
      invariant current <= start
      invariant forall n :: |current| < n <= |start| ==> !HasGit(fileExists, start[..n])
      decreases |current|
    {
      assert start[..|current|] == current;
      if HasGit(fileExists, current) {
        return current;
      }
      if |current| == 0 {
        assert |start| > 0 ==> start[..|start|] == start;
        assert forall n :: 0 <= n <= |start| ==> !HasGit(fileExists, start[..n]) by {
          assert start[..0] == [];
        }
        return start;
      }
      current := current[..|current| - 1];
    }
  }

  /** Every ancestor of a resolved path is resolved. */
  lemma PrefixResolved(p: Path, q: Path)
    requires p <= q && Resolved(q)
    ensures Resolved(p)
  {
    assert forall i :: 0 <= i < |p| ==> p[i] == q[i];
  }

  // ---------------------------------------------------------------- execute

  /** The file-system operations a successful call performs, in order. */
  datatype FsOp = MakeDir(dir: Path) | WriteFile(target: Path, content: string)

  function Dirname(p: Path): Path {
    if |p| > 0 then p[..|p| - 1] else p
  }

  /** The target is the configuration directory itself or lies below it. */
  predicate Within(target: Path, dir: Path) {
    dir <= target
  }

  /**
   * The body of `execute` once the workspace root is known: the resolved target must stay in
   * `<root>/<configDir>`; only then is its directory created and the file written.
   */
  function ExecuteAt(configDir: string, root: Path, input: string, content: string): (r: Result<seq<FsOp>>)
    requires Resolved(root)
    ensures Sanitize(configDir, input).Err? ==> r == Err(Sanitize(configDir, input).message)
    ensures r.Ok? ==>
      var target := Resolve(Resolve(root, configDir), Sanitize(configDir, input).value);
      && Within(target, Resolve(root, configDir))
      && r.value == [MakeDir(Dirname(target)), WriteFile(target, content)]
    ensures r.Err? && Sanitize(configDir, input).Ok? ==>
      r.message == "Path must stay within " + configDir
      && !Within(Resolve(Resolve(root, configDir), Sanitize(configDir, input).value), Resolve(root, configDir))
  {
    var rel :- Sanitize(configDir, input);
    var dir := Resolve(root, configDir);
    var target := Resolve(dir, rel);
    if !Within(target, dir) then Err("Path must stay within " + configDir)
    else Ok([MakeDir(Dirname(target)), WriteFile(target, content)])
  }

  /**
   * `execute`: sanitize first (a bad path fails before any lookup), then find the workspace root
   * from `resolve(cwd)`, then check containment and write.
   */
  method Execute(configDir: string, processCwd: Path, cwd: string, input: string, content: string, fileExists: Path -> bool)
    returns (root: Path, r: Result<seq<FsOp>>)
    requires Resolved(processCwd)
    ensures Sanitize(configDir, input).Err? ==> r == Err(Sanitize(configDir, input).message)
    ensures Sanitize(configDir, input).Ok? ==>
      var start := Resolve(processCwd, cwd);
      && root <= start
      && (HasGit(fileExists, root) || root == start)
      && (forall n :: |root| < n <= |start| ==> !HasGit(fileExists, start[..n]))
      && (HasGit(fileExists, root) <==> exists n :: 0 <= n <= |start| && HasGit(fileExists, start[..n]))
      && r == ExecuteAt(configDir, root, input, content)
  {
    var sanitized := Sanitize(configDir, input);
    if sanitized.Err? {
      root := [];
      r := Err(sanitized.message);
      return;
    }
    var start := Resolve(processCwd, cwd);
    root := FindWorkspaceRoot(start, fileExists);
    PrefixResolved(root, start);
    r := ExecuteAt(configDir, root, input, content);
  }

  /** A relative plan path without `..` segments always stays inside the configuration directory. */
  lemma NoParentStaysWithin(configDir: string, root: Path, rel: string)
    requires Resolved(root) && !StartsWith(rel, "/")
    requires forall i :: 0 <= i < |Split(rel, '/')| ==> Split(rel, '/')[i] != ".."
    ensures Within(Resolve(Resolve(root, configDir), rel), Resolve(root, configDir))
  {
    WalkDescends(Resolve(root, configDir), Split(rel, '/'));
  }
}

=== FILE: question_tool.dfy ===
/**
 * The `question` tool: it checks the option count, asks the user (an oracle), and reports the
 * answer as one line of text plus the raw selection details.
 */
module QuestionTool {
  import opened Common
  import opened Strings
  import opened Json

  datatype QuestionInput = QuestionInput(question: string, options: seq<string>, allowCustom: Option<bool>)

  /** What the user interface hands back: the answer text, the chosen option's index if any, and the custom flag. */
  datatype Answer = Answer(answer: string, selectedIndex: Option<int>, isCustom: bool)

  /** The arguments the tool passes to `askQuestion`. */
  datatype Ask = Ask(question: string, options: seq<string>, allowCustom: bool)

  datatype Details = Details(selectedIndex: Option<int>, isCustom: bool)

  datatype ToolResult = ToolResult(text: string, details: Details)

  const OptionCountMessage := "question tool requires 2-3 options"

  /** Validation and the `allowCustom` default, before anything is asked. */
  function Prepare(input: QuestionInput): (r: Result<Ask>)
    ensures r.Err? <==> |input.options| < 2 || |input.options| > 3
    ensures r.Err? ==> r.message == OptionCountMessage
    ensures r.Ok? ==> r.value.question == input.question && r.value.options == input.options
    ensures r.Ok? ==> (r.value.allowCustom <==> input.allowCustom != Some(false))
  {
    var allowCustom := input.allowCustom.GetOr(true);
    if |input.options| < 2 || |input.options| > 3 then Err(OptionCountMessage)
    else Ok(Ask(input.question, input.options, allowCustom))
  }

  /** The selection tag: `option k+1` for a chosen option, `custom` otherwise. */
  function Selection(selectedIndex: Option<int>): string {
    if selectedIndex.Some? then "option " + IntToString(selectedIndex.value + 1) else "custom"
  }

  /** The tool's reply for an answer. */
  function Report(a: Answer): (r: ToolResult)
    ensures r.details == Details(a.selectedIndex, a.isCustom)
    ensures StartsWith(r.text, "User answer (") && EndsWith(r.text, a.answer)
  {
    var text := "User answer (" + Selection(a.selectedIndex) + "): " + a.answer;
    assert text[..|"User answer ("|] == "User answer (";
    assert text[|text| - |a.answer|..] == a.answer;
    ToolResult(text, Details(a.selectedIndex, a.isCustom))
  }

  /** `execute`: ask only when the options are valid; `ask` stands for `askQuestion`. */
  function Execute(input: QuestionInput, ask: Ask -> Answer): (r: Result<ToolResult>)
    ensures r.Err? <==> |input.options| < 2 || |input.options| > 3
    ensures r.Err? ==> r.message == OptionCountMessage
    ensures r.Ok? ==>
      var a := ask(Ask(input.question, input.options, input.allowCustom.GetOr(true)));
      r.value.details == Details(a.selectedIndex, a.isCustom) && EndsWith(r.value.text, a.answer)
  {
    var call :- Prepare(input);
    Ok(Report(ask(call)))
  }

  // ---------------------------------------------------------------- reading the reply back

  /** Reads a selection tag back: `custom`, or `option n` for index `n - 1`. */
  function ParseTag(tag: string): Option<Option<int>> {
    if tag == "custom" then Some(None)
    else if StartsWith(tag, "option ") then
      match ParseInt(tag[7..])
      case None => None
      case Some(n) => Some(Some(n - 1))
    else None
  }

  /** Reads a reply line back into the selection and the answer. */
  function ParseReport(text: string): Option<(Option<int>, string)> {
    var head := "User answer (";
    if !StartsWith(text, head) then None
    else
      var rest := text[|head|..];
      match IndexOf(rest, ')')
      case None => None
      case Some(close) =>
        if !StartsWith(rest[close..], "): ") then None
        else
          match ParseTag(rest[..close])
          case None => None
          case Some(sel) => Some((sel, rest[close + 3..]))
  }

  /** A selection tag never contains `)`. */
  lemma SelectionNoParen(selectedIndex: Option<int>)
    ensures ')' !in Selection(selectedIndex)
  {
    if selectedIndex.Some? {
      var digits := IntToString(selectedIndex.value + 1);
      assert forall i :: 0 <= i < |digits| ==> digits[i] == '-' || IsDigit(digits[i]);
      var s := "option " + digits;
      forall i | 0 <= i < |s|
        ensures s[i] != ')'
      {
        if i >= 7 {
          assert s[i] == digits[i - 7];
        }
      }
    }
  }

  lemma TagRoundTrip(selectedIndex: Option<int>)
    ensures ParseTag(Selection(selectedIndex)) == Some(selectedIndex)
  {
    if selectedIndex.Some? {
      var tag := Selection(selectedIndex);
      var digits := IntToString(selectedIndex.value + 1);
      assert tag[..7] == "option ";
      assert tag[7..] == digits;
      IntToStringRoundTrip(selectedIndex.value + 1);
      assert tag != "custom" by {
        assert tag[0] == 'o';
      }
    }
  }

  /** A reply line splits at the first `)`, which ends the tag. */
  lemma ReportSplits(tag: string, answer: string)
    requires ')' !in tag
    ensures ParseReport("User answer (" + tag + "): " + answer)
      == (match ParseTag(tag) case None => None case Some(sel) => Some((sel, answer)))
  {
    var head := "User answer (";
    var text := head + tag + "): " + answer;
    assert text[..|head|] == head;
    var rest := text[|head|..];
    assert rest == tag + "): " + answer;
    IndexOfFirst(rest, ')', |tag|);
    assert rest[..|tag|] == tag;
    assert rest[|tag|..] == "): " + answer;
    assert rest[|tag| + 3..] == answer;
  }

  /** The reply text determines the selection and the answer: reading it back recovers both. */
  lemma ReportRoundTrip(a: Answer)
    ensures ParseReport(Report(a).text) == Some((a.selectedIndex, a.answer))
  {
    SelectionNoParen(a.selectedIndex);
    ReportSplits(Selection(a.selectedIndex), a.answer);
    TagRoundTrip(a.selectedIndex);
  }

  /** Too few or too many options: the tool throws without asking. */
  lemma OptionCountChecked(input: QuestionInput, ask: Ask -> Answer)
    requires |input.options| == 1 || |input.options| == 4
    ensures Execute(input, ask) == Err("question tool requires 2-3 options")
  {
  }
}

=== FILE: session_state.dfy ===
/**
 * The desktop's session view and its pure reducer: streamed message chunks coalesce by role,
 * tool calls are inserted on first sight and patched by updates, plan and command lists are
 * replaced wholesale, and connection events touch only the connection flag and the log.
 */
module SessionState {
  import opened Common
  import opened Strings
  import opened Json

  datatype Role = User | Assistant | Thought

  datatype Message = Message(role: Role, text: string)

  /** One row of the tool-call table; `status`, `content` and `locations` are kept as sent. */
  datatype ToolCallEntry = ToolCallEntry(
    toolCallId: string,
    title: Option<string>,
    kind: Option<string>,
    status: Option<Json>,
    content: Option<Json>,
    locations: Option<Json>)

  datatype PlanEntry = PlanEntry(content: string, priority: Option<string>, status: Option<string>)

  datatype Command = Command(name: string, description: Option<string>)

  datatype Mode = Mode(id: string, name: string, description: Option<string>)

  datatype ModelInfo = ModelInfo(modelId: string, name: string, description: Option<string>)

  /** `kind` is one of allow_once, allow_always, reject_once, reject_always, or any other string. */
  datatype PermissionOption = PermissionOption(optionId: string, name: string, kind: string)

  datatype PermissionOutcome = Cancelled | Selected(optionId: string)

  datatype PermissionRequestState = PermissionRequestState(
    requestId: string,
    sessionId: string,
    toolKind: Option<string>,
    title: Option<string>,
    options: seq<PermissionOption>)

  datatype AppState = AppState(
    connected: bool,
    logs: seq<string>,
    sessionId: string,
    messages: seq<Message>,
    toolCalls: map<string, ToolCallEntry>,
    plan: seq<PlanEntry>,
    availableCommands: seq<Command>,
    modes: seq<Mode>,
    currentModeId: string,
    models: seq<ModelInfo>,
    currentModelId: string,
    permissionRequest: Option<PermissionRequestState>)

  /** The fields a `tool_call` / `tool_call_update` carries, each possibly absent. */
  datatype ToolFields = ToolFields(
    toolCallId: Option<Json>,
    title: Option<Json>,
    kind: Option<Json>,
    status: Option<Json>,
    content: Option<Json>,
    locations: Option<Json>)

  /** The `update` payload of `session/update`, one variant per `sessionUpdate` string. */
  datatype SessionUpdate =
    | AgentMessageChunk(content: Option<Json>)
    | UserMessageChunk(content: Option<Json>)
    | ThoughtChunk(content: Option<Json>)
    | ToolCall(fields: ToolFields)
    | ToolCallUpdate(fields: ToolFields)
    | PlanUpdate(entries: Option<Json>)
    | AvailableCommandsUpdate(availableCommands: Option<Json>)
    | CurrentModeUpdate(currentModeId: Option<Json>)
    | OtherUpdate(sessionUpdate: string)

  /** The wire name of an update kind. */
  function UpdateKind(u: SessionUpdate): string {
    match u
    case AgentMessageChunk(_) => "agent_message_chunk"
    case UserMessageChunk(_) => "user_message_chunk"
    case ThoughtChunk(_) => "thought_chunk"
    case ToolCall(_) => "tool_call"
    case ToolCallUpdate(_) => "tool_call_update"
    case PlanUpdate(_) => "plan"
    case AvailableCommandsUpdate(_) => "available_commands_update"
    case CurrentModeUpdate(_) => "current_mode_update"
    case OtherUpdate(k) => k
  }

  datatype ToolCallRef = ToolCallRef(toolCallId: Option<string>, title: Option<string>, kind: Option<string>)

  datatype PermissionParams = PermissionParams(
    sessionId: string,
    toolCall: Option<ToolCallRef>,
    options: seq<PermissionOption>)

  datatype AcpStatus = Starting | StatusConnected | StatusDisconnected | StatusError

  /** Events the host process forwards to the renderer. */
  datatype DesktopEvent =
    | Connected(command: string, args: seq<string>, cwd: string)
    | Disconnected(reason: string)
    | Stopped
    | Stderr(text: string)
    | ProtocolLog(text: string)
    | Notification(payload: Json)
    | AcpStatusUpdate(status: AcpStatus, statusReason: Option<string>)
    | SessionUpdateEvent(sessionId: string, update: SessionUpdate)
    | PermissionRequest(requestId: string, params: PermissionParams)

  const InitialState := AppState(false, [], "", [], map[], [], [], [], "", [], "", None)

  /** `String(x || "")`. */
  function StringOr(o: Option<Json>): string {
    if TruthyOpt(o) then JsString(o.value) else ""
  }

  // ---------------------------------------------------------------- transcript


  /** The role-tagged characters of one fragment. */
  function RoleChars(role: Role, text: string): (r: seq<(Role, char)>)
    ensures |r| == |text|
  {
    seq(|text|, i requires 0 <= i < |text| => (role, text[i]))
  }

  /** The transcript as a stream of role-tagged characters. */
  function Chars(ms: seq<Message>): seq<(Role, char)>
    decreases |ms|
  {
    if |ms| == 0 then [] else Chars(ms[..|ms| - 1]) + RoleChars(Last(ms).role, Last(ms).text)
  }

  /** No empty entry and no two neighbouring entries of the same role. */
  predicate Coalesced(ms: seq<Message>) {
    && (forall k :: 0 <= k < |ms| ==> |ms[k].text| > 0)
    && (forall k :: 0 <= k < |ms| - 1 ==> ms[k].role != ms[k + 1].role)
  }

  /**
   * `appendMessage`: empty text changes nothing; text of the last entry's role extends that
   * entry; any other text opens a new entry.
   */
  function AppendMessage(ms: seq<Message>, role: Role, text: string): (r: seq<Message>)
    ensures |text| == 0 ==> r == ms
    ensures |ms| <= |r| <= |ms| + 1
    ensures |r| == |ms| + 1 <==> |text| > 0 && (|ms| == 0 || Last(ms).role != role)
    ensures |ms| > 0 ==> r[..|ms| - 1] == ms[..|ms| - 1]
    ensures |text| > 0 ==> Last(r).role == role && EndsWith(Last(r).text, text)
    ensures Chars(r) == Chars(ms) + RoleChars(role, text)
  {
    if |text| == 0 then
      assert RoleChars(role, text) == [];
      ms
    else if |ms| > 0 && Last(ms).role == role then
      var r := ms[..|ms| - 1] + [Message(role, Last(ms).text + text)];
      assert r[..|r| - 1] == ms[..|ms| - 1];
      assert RoleChars(role, Last(ms).text + text) == RoleChars(role, Last(ms).text) + RoleChars(role, text);
      r
    else
      var r := ms + [Message(role, text)];
      assert r[..|r| - 1] == ms;
      r
  }

  /** Appending keeps a transcript coalesced. */
  lemma AppendMessageCoalesced(ms: seq<Message>, role: Role, text: string)
    requires Coalesced(ms)
    ensures Coalesced(AppendMessage(ms, role, text))
  {
    if |text| > 0 && |ms| > 0 && Last(ms).role == role {
      var front := ms[..|ms| - 1];
      CoalescedPrefix(ms, |ms| - 1);
      assert |front| > 0 ==> Last(front).role == ms[|ms| - 2].role != role;
      CoalescedSnoc(front, Message(role, Last(ms).text + text));
    } else if |text| > 0 {
      CoalescedSnoc(ms, Message(role, text));
    }
  }

  /** Every prefix of a coalesced transcript is coalesced. */
  lemma CoalescedPrefix(ms: seq<Message>, j: nat)
    requires Coalesced(ms) && j <= |ms|
    ensures Coalesced(ms[..j])
  {
    assert forall k :: 0 <= k < j ==> ms[..j][k] == ms[k];
  }

  /** A non-empty entry whose role differs from the last one extends a coalesced transcript. */
  lemma CoalescedSnoc(ms: seq<Message>, m: Message)
    requires Coalesced(ms) && |m.text| > 0 && (|ms| == 0 || Last(ms).role != m.role)
    ensures Coalesced(ms + [m])
  {
    var r := ms + [m];
    forall k | 0 <= k < |r|
      ensures |r[k].text| > 0
    {
      if k < |ms| {
        assert r[k] == ms[k];
      }
    }
    forall k | 0 <= k < |r| - 1
      ensures r[k].role != r[k + 1].role
    {
      assert r[k] == ms[k];
      if k + 1 < |ms| {
        assert r[k + 1] == ms[k + 1];
      }
    }
  }

  /** A stream of chunks applied in order to an empty transcript. */
  function Replay(chunks: seq<(Role, string)>): seq<Message>
    decreases |chunks|
  {
    if |chunks| == 0 then []
    else AppendMessage(Replay(chunks[..|chunks| - 1]), Last(chunks).0, Last(chunks).1)
  }

  /** The characters the chunks carry, tagged with their roles, in arrival order. */
  function ChunkChars(chunks: seq<(Role, string)>): seq<(Role, char)>
    decreases |chunks|
  {
    if |chunks| == 0 then []
    else ChunkChars(chunks[..|chunks| - 1]) + RoleChars(Last(chunks).0, Last(chunks).1)
  }

  /**
   * Replaying chunks loses and reorders nothing, and leaves a coalesced transcript; the two
   * facts together determine the transcript.
   */
  lemma {:induction false} ReplayCoalesces(chunks: seq<(Role, string)>)
    ensures Coalesced(Replay(chunks))
    ensures Chars(Replay(chunks)) == ChunkChars(chunks)
    decreases |chunks|
  {
    if |chunks| > 0 {
      ReplayCoalesces(chunks[..|chunks| - 1]);
      AppendMessageCoalesced(Replay(chunks[..|chunks| - 1]), Last(chunks).0, Last(chunks).1);
    }
  }

  /** The two streaming examples: "He" then "llo" coalesce; a user chunk between them splits them. */
  lemma CoalescingExamples()
    ensures Replay([(Assistant, "He"), (Assistant, "llo")]) == [Message(Assistant, "Hello")]
    ensures Replay([(Assistant, "He"), (User, "x"), (Assistant, "llo")])
      == [Message(Assistant, "He"), Message(User, "x"), Message(Assistant, "llo")]
  {
    var a := [(Assistant, "He"), (Assistant, "llo")];
    assert a[..1] == [(Assistant, "He")];
    assert [(Assistant, "He")][..0] == [];
    assert Replay(a[..1]) == [Message(Assistant, "He")];
    assert "He" + "llo" == "Hello";
    assert [Message(Assistant, "He")][..0] + [Message(Assistant, "He" + "llo")] == [Message(Assistant, "Hello")];
    var b := [(Assistant, "He"), (User, "x"), (Assistant, "llo")];
    assert b[..2] == [(Assistant, "He"), (User, "x")];
    assert b[..2][..1] == [(Assistant, "He")];
  }

  // ---------------------------------------------------------------- updates

  /** The text a message chunk contributes: present only for `type: "text"` content with truthy text. */
  function ChunkText(content: Option<Json>): Option<string> {
    if FieldOpt(content, "type") == Some(JStr("text")) && TruthyOpt(FieldOpt(content, "text"))
    then Some(JsString(FieldOpt(content, "text").value))
    else None
  }

  /** The table key of a tool-call update: `String(toolCallId || "")`. */
  function ToolCallKey(f: ToolFields): string {
    StringOr(f.toolCallId)
  }

  /** A `tool_call` entry: built from the fields present only. */
  function FirstSight(key: string, f: ToolFields): ToolCallEntry {
    ToolCallEntry(key, AsString(f.title), AsString(f.kind), f.status, f.content, f.locations)
  }

  /** A `tool_call_update` patch: string title/kind, truthy status, non-nullish content/locations win. */
  function Patch(prior: ToolCallEntry, f: ToolFields): ToolCallEntry {
    prior.(
      title := if AsString(f.title).Some? then AsString(f.title) else prior.title,
      kind := if AsString(f.kind).Some? then AsString(f.kind) else prior.kind,
      status := if TruthyOpt(f.status) then f.status else prior.status,
      content := if Nullish(f.content) then prior.content else f.content,
      locations := if Nullish(f.locations) then prior.locations else f.locations)
  }

  function PlanEntryOf(e: Json): PlanEntry {
    PlanEntry(StringOr(Field(e, "content")), AsString(Field(e, "priority")), AsString(Field(e, "status")))
  }

  function CommandOf(c: Json): Command {
    Command(StringOr(Field(c, "name")), AsString(Field(c, "description")))
  }

  /** `Array.isArray(x) ? x : []`. */
  function ArrayOr(o: Option<Json>): seq<Json> {
    if o.Some? && o.value.JArr? then o.value.items else []
  }

  function ApplyUpdate(s: AppState, u: SessionUpdate): AppState {
    match u
    case AgentMessageChunk(c) =>
      if ChunkText(c).None? then s else s.(messages := AppendMessage(s.messages, Assistant, ChunkText(c).value))
    case UserMessageChunk(c) =>
      if ChunkText(c).None? then s else s.(messages := AppendMessage(s.messages, User, ChunkText(c).value))
    case ThoughtChunk(c) =>
      if ChunkText(c).None? then s else s.(messages := AppendMessage(s.messages, Thought, ChunkText(c).value))
    case ToolCall(f) =>
      var key := ToolCallKey(f);
      if |key| == 0 then s else s.(toolCalls := s.toolCalls[key := FirstSight(key, f)])
    case ToolCallUpdate(f) =>
      var key := ToolCallKey(f);
      if |key| == 0 then s
      else
        var prior := if key in s.toolCalls then s.toolCalls[key] else ToolCallEntry(key, None, None, None, None, None);
        s.(toolCalls := s.toolCalls[key := Patch(prior, f)])
    case PlanUpdate(entries) =>
      var es := ArrayOr(entries);
      s.(plan := seq(|es|, i requires 0 <= i < |es| => PlanEntryOf(es[i])))
    case AvailableCommandsUpdate(cmds) =>
      var cs := ArrayOr(cmds);
      s.(availableCommands := seq(|cs|, i requires 0 <= i < |cs| => CommandOf(cs[i])))
    case CurrentModeUpdate(m) =>
      s.(currentModeId := StringOr(m))
    case OtherUpdate(_) => s
  }

  /** The fields of the view that only `session/update` may change. */
  predicate SameSessionView(a: AppState, b: AppState) {
    && a.messages == b.messages && a.toolCalls == b.toolCalls && a.plan == b.plan
    && a.availableCommands == b.availableCommands && a.currentModeId == b.currentModeId
  }

  /** `reduceEvent`. */
  function ReduceEvent(s: AppState, ev: DesktopEvent): (r: AppState)
    ensures r.sessionId == s.sessionId && r.modes == s.modes && r.models == s.models
    ensures r.currentModelId == s.currentModelId
    ensures s.logs <= r.logs
    ensures |r.logs| <= |s.logs| + 1
    ensures !ev.SessionUpdateEvent? ==> SameSessionView(r, s)
    ensures ev.SessionUpdateEvent? ==> r == ApplyUpdate(s, ev.update)
    ensures ev.SessionUpdateEvent? ==> r.connected == s.connected && r.logs == s.logs
    ensures ev.SessionUpdateEvent? ==> r.permissionRequest == s.permissionRequest
    ensures !ev.PermissionRequest? ==> r.permissionRequest == s.permissionRequest
  {
    match ev
    case Connected(command, _, _) =>
      s.(connected := true, logs := s.logs + ["Connected: " + command])
    case Disconnected(_) => s.(connected := false)
    case Stopped => s.(connected := false)
    case Stderr(text) => s.(logs := s.logs + [text])
    case ProtocolLog(text) => s.(logs := s.logs + [text])
    case PermissionRequest(rid, p) =>
      var tc := p.toolCall;
      s.(permissionRequest := Some(PermissionRequestState(
        rid, p.sessionId,
        if tc.Some? then tc.value.kind else None,
        if tc.Some? then tc.value.title else None,
        p.options)))
    case SessionUpdateEvent(_, u) => ApplyUpdate(s, u)
    case Notification(_) => s
    case AcpStatusUpdate(_, _) => s
  }

  // ---------------------------------------------------------------- properties

  /** Connection events: `connected` sets the flag and logs one line; `disconnected`/`stopped` clear it. */
  lemma ConnectionEvents(s: AppState, ev: DesktopEvent)
    ensures ev.Connected? ==> ReduceEvent(s, ev).connected && |ReduceEvent(s, ev).logs| == |s.logs| + 1
    ensures ev.Disconnected? || ev.Stopped? ==> ReduceEvent(s, ev) == s.(connected := false)
    ensures ev.Stderr? || ev.ProtocolLog? ==> ReduceEvent(s, ev) == s.(logs := s.logs + [ev.text])
    ensures ev.Notification? || ev.AcpStatusUpdate? ==> ReduceEvent(s, ev) == s
  {
  }

  /** A permission request replaces any pending one, whatever it was, and touches nothing else. */
  lemma PermissionRequestReplaces(s: AppState, rid: string, p: PermissionParams)
    ensures var r := ReduceEvent(s, PermissionRequest(rid, p));
      && r.permissionRequest.Some?
      && r.permissionRequest.value.requestId == rid
      && r.permissionRequest.value.options == p.options
      && r == s.(permissionRequest := r.permissionRequest)
  {
  }

  function ChunkRole(u: SessionUpdate): Role
    requires u.AgentMessageChunk? || u.UserMessageChunk? || u.ThoughtChunk?
  {
    if u.AgentMessageChunk? then Assistant else if u.UserMessageChunk? then User else Thought
  }

  /**
   * A chunk without text content is ignored; otherwise it is appended under its kind's role
   * and nothing but the transcript changes.
   */
  lemma ChunkUpdate(s: AppState, u: SessionUpdate)
    requires u.AgentMessageChunk? || u.UserMessageChunk? || u.ThoughtChunk?
    ensures ChunkText(u.content).None? ==> ApplyUpdate(s, u) == s
    ensures FieldOpt(u.content, "type") != Some(JStr("text")) ==> ApplyUpdate(s, u) == s
    ensures ChunkText(u.content).Some? ==>
      ApplyUpdate(s, u) == s.(messages := AppendMessage(s.messages, ChunkRole(u), ChunkText(u.content).value))
  {
  }

  /** Every entry of the tool-call table is filed under its own id. */
  predicate KeyedById(t: map<string, ToolCallEntry>) {
    forall k :: k in t ==> t[k].toolCallId == k
  }

  lemma ReduceKeepsKeyedById(s: AppState, ev: DesktopEvent)
    requires KeyedById(s.toolCalls)
    ensures KeyedById(ReduceEvent(s, ev).toolCalls)
  {
  }

  /**
   * `tool_call` with a key: that entry is rebuilt from the fields present, an absent field is
   * undefined rather than inherited, and every other entry is untouched. Without a key, nothing happens.
   */
  lemma ToolCallFirstSight(s: AppState, f: ToolFields)
    ensures |ToolCallKey(f)| == 0 ==> ApplyUpdate(s, ToolCall(f)) == s
    ensures |ToolCallKey(f)| > 0 ==>
      var t := ApplyUpdate(s, ToolCall(f)).toolCalls;
      var e := t[ToolCallKey(f)];
      && t.Keys == s.toolCalls.Keys + {ToolCallKey(f)}
      && (forall k :: k in s.toolCalls && k != ToolCallKey(f) ==> t[k] == s.toolCalls[k])
      && e.toolCallId == ToolCallKey(f)
      && (f.title.Some? && f.title.value.JStr? ==> e.title == Some(f.title.value.s))
      && (!(f.title.Some? && f.title.value.JStr?) ==> e.title.None?)
      && (f.kind.Some? && f.kind.value.JStr? ==> e.kind == Some(f.kind.value.s))
      && (!(f.kind.Some? && f.kind.value.JStr?) ==> e.kind.None?)
      && e.status == f.status && e.content == f.content && e.locations == f.locations
  {
  }

  /**
   * `tool_call_update`: a field the update carries (a string title or kind, a truthy status,
   * non-nullish content or locations) replaces the prior value; any other field keeps it, an
   * unknown id starts from `{toolCallId}`, and other entries are untouched.
   */
  lemma ToolCallUpdatePatches(s: AppState, f: ToolFields)
    requires |ToolCallKey(f)| > 0
    ensures
      var key := ToolCallKey(f);
      var t := ApplyUpdate(s, ToolCallUpdate(f)).toolCalls;
      var prior := if key in s.toolCalls then s.toolCalls[key] else ToolCallEntry(key, None, None, None, None, None);
      && t.Keys == s.toolCalls.Keys + {key}
      && (forall k :: k in s.toolCalls && k != key ==> t[k] == s.toolCalls[k])
      && t[key].toolCallId == prior.toolCallId
      && (key !in s.toolCalls ==> t[key].toolCallId == key)
      && (f.title.Some? && f.title.value.JStr? ==> t[key].title == Some(f.title.value.s))
      && (!(f.title.Some? && f.title.value.JStr?) ==> t[key].title == prior.title)
      && (f.kind.Some? && f.kind.value.JStr? ==> t[key].kind == Some(f.kind.value.s))
      && (!(f.kind.Some? && f.kind.value.JStr?) ==> t[key].kind == prior.kind)
      && (TruthyOpt(f.status) ==> t[key].status == f.status)
      && (!TruthyOpt(f.status) ==> t[key].status == prior.status)
      && (!Nullish(f.content) ==> t[key].content == f.content)
      && (Nullish(f.content) ==> t[key].content == prior.content)
      && (!Nullish(f.locations) ==> t[key].locations == f.locations)
      && (Nullish(f.locations) ==> t[key].locations == prior.locations)
  {
  }

  /** Applying the same patch twice is applying it once. */
  lemma ToolCallUpdateIdempotent(s: AppState, f: ToolFields)
    ensures ApplyUpdate(ApplyUpdate(s, ToolCallUpdate(f)), ToolCallUpdate(f)) == ApplyUpdate(s, ToolCallUpdate(f))
  {
    var key := ToolCallKey(f);
    if |key| > 0 {
      var s1 := ApplyUpdate(s, ToolCallUpdate(f));
      assert s1.toolCalls[key := Patch(s1.toolCalls[key], f)] == s1.toolCalls;
    }
  }

  /** A plan update replaces the plan entry for entry, whatever the plan was before. */
  lemma PlanReplaces(s: AppState, entries: Option<Json>)
    ensures var r := ApplyUpdate(s, PlanUpdate(entries));
      && |r.plan| == |ArrayOr(entries)|
      && (forall i :: 0 <= i < |r.plan| ==> r.plan[i] == PlanEntryOf(ArrayOr(entries)[i]))
      && (forall i :: 0 <= i < |r.plan| ==> Field(ArrayOr(entries)[i], "content").None? ==> r.plan[i].content == "")
      && r == s.(plan := r.plan)
    ensures forall s' :: ApplyUpdate(s', PlanUpdate(entries)).plan == ApplyUpdate(s, PlanUpdate(entries)).plan
  {
  }

  /** A command update replaces the command list, names defaulting to the empty string. */
  lemma CommandsReplace(s: AppState, cmds: Option<Json>)
    ensures var r := ApplyUpdate(s, AvailableCommandsUpdate(cmds));
      && |r.availableCommands| == |ArrayOr(cmds)|
      && (forall i :: 0 <= i < |r.availableCommands| ==>
            r.availableCommands[i] == CommandOf(ArrayOr(cmds)[i]))
      && (forall i :: 0 <= i < |r.availableCommands| ==>
            Field(ArrayOr(cmds)[i], "name").None? ==> r.availableCommands[i].name == "")
      && r == s.(availableCommands := r.availableCommands)
    ensures !(cmds.Some? && cmds.value.JArr?) ==> ApplyUpdate(s, AvailableCommandsUpdate(cmds)).availableCommands == []
  {
  }

  /** A mode update changes the current mode id only; an absent id becomes the empty string. */
  lemma ModeUpdateOnly(s: AppState, m: Option<Json>)
    ensures ApplyUpdate(s, CurrentModeUpdate(m)) == s.(currentModeId := StringOr(m))
    ensures m.None? ==> ApplyUpdate(s, CurrentModeUpdate(m)).currentModeId == ""
    ensures m == Some(JStr("plan")) ==> ApplyUpdate(s, CurrentModeUpdate(m)).currentModeId == "plan"
  {
  }

  /** Update kinds the reducer does not know, model updates among them, leave the state as it was. */
  lemma UnknownUpdateIgnored(s: AppState, kind: string)
    ensures ApplyUpdate(s, OtherUpdate(kind)) == s
    ensures ReduceEvent(s, SessionUpdateEvent(s.sessionId, OtherUpdate(kind))) == s
  {
  }

  /** The reducer's own test: one assistant chunk "hello" on the initial state. */
  lemma AssistantChunkExample()
    ensures
      var content := Some(JObj([Member("type", JStr("text")), Member("text", JStr("hello"))]));
      var r := ReduceEvent(InitialState, SessionUpdateEvent("sess", AgentMessageChunk(content)));
      |r.messages| == 1 && r.messages[0].text == "hello"
  {
    var content := Some(JObj([Member("type", JStr("text")), Member("text", JStr("hello"))]));
    assert FieldOpt(content, "type") == Some(JStr("text"));
    assert FieldOpt(content, "text") == Some(JStr("hello"));
  }

  /** The reducer's own test: pending `tool_call` then a `completed` update keeps title and kind. */
  lemma ToolStatusTransitionExample()
    ensures
      var first := ToolFields(Some(JStr("call1")), Some(JStr("Read file")), Some(JStr("read")), Some(JStr("pending")), None, None);
      var patch := ToolFields(Some(JStr("call1")), None, None, Some(JStr("completed")), None, None);
      var s1 := ReduceEvent(InitialState, SessionUpdateEvent("sess", ToolCall(first)));
      var s2 := ReduceEvent(s1, SessionUpdateEvent("sess", ToolCallUpdate(patch)));
      && "call1" in s2.toolCalls
      && s2.toolCalls["call1"].status == Some(JStr("completed"))
      && s2.toolCalls["call1"].title == Some("Read file")
      && s2.toolCalls["call1"].kind == Some("read")
  {
  }
}

=== FILE: strings.dfy ===
/** String helpers with ECMAScript meaning: `trim`, `split`, `startsWith`, ASCII `toLowerCase`. */
module Strings {
  import opened Common

  /** ECMAScript WhiteSpace and LineTerminator code points: the set `String.prototype.trim` and `\s` use. */
  predicate IsWhitespace(c: char) {
    var n := c as int;
    n == 0x09 || n == 0x0A || n == 0x0B || n == 0x0C || n == 0x0D || n == 0x20 || n == 0xA0
    || n == 0x1680 || (0x2000 <= n <= 0x200A) || n == 0x2028 || n == 0x2029 || n == 0x202F
    || n == 0x205F || n == 0x3000 || n == 0xFEFF
  }

  predicate AllWhitespace(s: string) {
    forall i :: 0 <= i < |s| ==> IsWhitespace(s[i])
  }

  /** Drops leading whitespace. */
  function TrimStart(s: string): (r: string)
    ensures |r| <= |s| && r == s[|s| - |r|..]
    ensures AllWhitespace(s[..|s| - |r|])
    ensures |r| == 0 || !IsWhitespace(r[0])
    decreases |s|
  {
    if |s| > 0 && IsWhitespace(s[0]) then TrimStart(s[1..]) else s
  }

  /** Drops trailing whitespace. */
  function TrimEnd(s: string): (r: string)
    ensures |r| <= |s| && r == s[..|r|]
    ensures AllWhitespace(s[|r|..])
    ensures |r| == 0 || !IsWhitespace(r[|r| - 1])
    decreases |s|
  {
    if |s| > 0 && IsWhitespace(s[|s| - 1]) then TrimEnd(s[..|s| - 1]) else s
  }

  /** `String.prototype.trim`: the longest infix with no whitespace at either end. */
  function Trim(s: string): (r: string)
    ensures |r| == 0 || (!IsWhitespace(r[0]) && !IsWhitespace(r[|r| - 1]))
    ensures |r| <= |s|
  {
    TrimEnd(TrimStart(s))
  }

  /** Trimming never introduces a character. */
  lemma TrimNoChar(s: string, c: char)
    requires c !in s
    ensures c !in Trim(s)
  {
    var t := TrimStart(s);
    var r := TrimEnd(t);
    assert forall k :: 0 <= k < |r| ==> r[k] == t[k] == s[|s| - |t| + k];
  }

  /** A string with no whitespace at its ends is its own trim. */
  lemma TrimNoop(s: string)
    requires |s| == 0 || (!IsWhitespace(s[0]) && !IsWhitespace(s[|s| - 1]))
    ensures Trim(s) == s
  {
  }

  /** The first index of `c` in `s`, if any. */
  function IndexOf(s: string, c: char): (r: Option<nat>)
    ensures r.Some? ==> r.value < |s| && s[r.value] == c && c !in s[..r.value]
    ensures r.None? ==> c !in s
    decreases |s|
  {
    if |s| == 0 then None
    else if s[0] == c then Some(0)
    else match IndexOf(s[1..], c)
      case None => None
      case Some(k) => Some(k + 1)
  }

  /** The index of a character with no earlier occurrence is what `indexOf` reports. */
  lemma {:induction false} IndexOfFirst(s: string, c: char, k: nat)
    requires k < |s| && s[k] == c && c !in s[..k]
    ensures IndexOf(s, c) == Some(k)
    decreases k
  {
    if k > 0 {
      assert s[0] != c by { assert s[..k][0] == s[0]; }
      assert s[1..][..k - 1] == s[..k][1..];
      IndexOfFirst(s[1..], c, k - 1);
    }
  }

  /** Trimming twice is trimming once. */
  lemma TrimIdempotent(s: string)
    ensures Trim(Trim(s)) == Trim(s)
  {
    TrimNoop(Trim(s));
  }

  predicate StartsWith(s: string, prefix: string) {
    |prefix| <= |s| && s[..|prefix|] == prefix
  }

  predicate EndsWith(s: string, suffix: string) {
    |suffix| <= |s| && s[|s| - |suffix|..] == suffix
  }

  /** ASCII lower-casing of one character. */
  function LowerChar(c: char): char {
    if 'A' <= c <= 'Z' then (c as int + 32) as char else c
  }

  /** `toLowerCase` restricted to ASCII letters; length preserving. */
  function ToLower(s: string): (r: string)
    ensures |r| == |s|
    ensures forall i :: 0 <= i < |s| ==> r[i] == LowerChar(s[i])
  {
    seq(|s|, i requires 0 <= i < |s| => LowerChar(s[i]))
  }

  /** `s.replace(/<from>/g, to)` for single characters. */
  function ReplaceChar(s: string, from: char, to: char): (r: string)
    ensures |r| == |s|
    ensures forall i :: 0 <= i < |s| ==> r[i] == (if s[i] == from then to else s[i])
  {
    seq(|s|, i requires 0 <= i < |s| => if s[i] == from then to else s[i])
  }

  /** `s.split(sep)` for a single-character separator: always at least one piece, none containing `sep`. */
  function Split(s: string, sep: char): (r: seq<string>)
    ensures |r| >= 1
    ensures forall k :: 0 <= k < |r| ==> sep !in r[k]
    decreases |s|
  {
    match IndexOf(s, sep)
    case None => [s]
    case Some(i) => [s[..i]] + Split(s[i + 1..], sep)
  }

  /** `parts.join(sep)`. */
  function Join(parts: seq<string>, sep: string): string
    decreases |parts|
  {
    if |parts| == 0 then ""
    else if |parts| == 1 then parts[0]
    else parts[0] + sep + Join(parts[1..], sep)
  }

  /** Keeps the non-empty pieces, in order (`.filter(Boolean)` on strings). */
  function NonEmpty(parts: seq<string>): (r: seq<string>)
    ensures |r| <= |parts|
    ensures forall k :: 0 <= k < |r| ==> |r[k]| > 0
    decreases |parts|
  {
    if |parts| == 0 then []
    else if |parts[0]| > 0 then [parts[0]] + NonEmpty(parts[1..])
    else NonEmpty(parts[1..])
  }

  /** The prefix of `s` before its first whitespace character (`s.split(/\s/)[0]`). */
  function UntilWhitespace(s: string): (r: string)
    ensures StartsWith(s, r)
    ensures forall i :: 0 <= i < |r| ==> !IsWhitespace(r[i])
    ensures |r| == |s| || IsWhitespace(s[|r|])
    decreases |s|
  {
    if |s| == 0 || IsWhitespace(s[0]) then "" else [s[0]] + UntilWhitespace(s[1..])
  }
}
